=== FILE: README.md ===
# A verified model of a small reactive state container

This project models the core of a TypeScript library for reactive state, in Dafny 4.11, and proves properties of the model. The core has three parts.

- **Equality checks** (`packages/core/src/equality-checks.ts`). These are `strictEqual`, `shallowEqualArray`, `shallowEqual` and `deepEqual`. They run over a model of JavaScript values (`JsValue.Value`):
  - `undefined`, `null`, booleans, integer numbers and strings;
  - objects and arrays that carry an identity, which `===` compares.
- **The select package's store engine** (`packages/select/src/store.ts`). It has the following parts:
  - `MutStore` stores;
  - `modify` and its `EMPTY` sentinel;
  - the `state` getter that records reads while `collect` tracks dependencies;
  - the module-level `notifiers` queue and the `flushing` token;
  - `flush` / `notify` / `flushed`;
  - `select` with its subscriber closure, its disposer and `api.subscribe`.

  The engine's module-level memory is one immutable `SelectStore.Engine` record. Every operation preserves its invariant `Valid`. Selectors are expressions (`Selector.Expr`) whose evaluation returns the set of stores they read. That set makes dynamic dependency tracking a statement that can be proved.
- **The per-store container `MutableSelectable`** (`packages/core/src/mutable-selectable.ts`). It has the following parts:
  - a state and a version counter;
  - two listener tiers, computations before subscriptions;
  - `withStore`, `subscribe` and its disposer with `update`;
  - `set`, `flush(callback?)` with the module-level token;
  - `select` with its captured `prev`, `compute` with its cached getter, and `destroy`.

  Consumer callbacks are data. A selection's `onChange` may react to a truthy slice by calling `set` again, as the library's own tests do, so drains can nest. Every nested call consumes one unit of a `fuel` argument.

The traces the repository's tests describe are derived from the general contracts (modules `SelectScenarios`, `SelectableScenarios` and `SelectableCascade`). Examples are the test in which a reaction inside a running flush triggers a new update, and the test in which computations run before subscriptions. A trace is the sequence of `Trace.Event`s: consumer calls, selector runs and mapper runs.

Behaviour kept as the code has it, where a reader or the tests might expect otherwise:

- **The select package's `select` does not always call `onChange` at once.** The library's test at packages/select/test/stores.test.ts:49-58 expects an immediate call. The first run of the subscriber calls the changers only when `equalityFn(slice, undefined)` fails (store.ts:170). That holds in the test, where `strictEqual(0, undefined)` is false, but a selection whose check accepts `undefined` is not reported.
- **`onChange` is the initial changer.** store.ts:156 holds an unfinished `if ()` statement. The model reads it as adding the optional `onChange` to `changers`, which is what the tests expect.
- **`collect` does not restore the tracking set.** It resets the tracking set to `null` (store.ts:102). It does not restore any outer collection.
- **`subscribe` adds to a set.** In `MutableSelectable.subscribe` the tier is a `Set`, so subscribing the same callback twice keeps one entry.

## Model

| member | source | states |
|---|---|---|
| `JsValue.StrictEqIsEquivalence` | packages/core/src/equality-checks.ts:1-3 | `===` on the modelled values (no NaN) is an equivalence: reflexive, symmetric and transitive |
| `JsValue.KeyCountIsCardinality` | packages/core/src/equality-checks.ts:25-28 | `Object.keys(v).length` is the number of distinct own keys of `v` |
| `Equality.StrictEqual` | packages/core/src/equality-checks.ts:1-3 | primitives are equal exactly when they are the same value; an object or array is equal only to a value of the same kind with the same identity, whatever its contents |
| `Equality.IdenticalFromMeaning` | packages/core/src/equality-checks.ts:12-14 | the comparison loop succeeds exactly when every index from `checkFrom` up to the length holds `===` elements |
| `Equality.ShallowEqualArrayMeaning` | packages/core/src/equality-checks.ts:5-16 | `shallowEqualArray` holds exactly when both sides are falsy, or both are truthy with `===` lengths and `===` elements at every index from `checkFrom` below the length |
| `Equality.ShallowEqualArrayOnArrays` | packages/core/src/equality-checks.ts:5-16 | on two arrays: same length, and `===` elements at every index at or after `checkFrom` (earlier indices are never compared) |
| `Equality.ShallowEqualOnObjects` | packages/core/src/equality-checks.ts:18-37 | on objects whose first argument stores no `undefined`, `shallowEqual` holds exactly when both have the same keys and `===` values under every key |
| `Equality.ShallowEqualIsAsymmetric` | packages/core/src/equality-checks.ts:25-34 | a key of `a` holding `undefined` is matched by a missing key of `b`, so `shallowEqual(a, b)` can hold while `shallowEqual(b, a)` fails |
| `Equality.SameShapeIsDeepEqual` | packages/core/src/equality-checks.ts:39-64 | two values with the same keys, `===` non-object values and, recursively, the same shape under every key where both hold object-typed values are `deepEqual`, whatever their identities |
| `Equality.DeepEqualReflexive` | packages/core/src/equality-checks.ts:39-64 | every value is `deepEqual` to itself |
| `Equality.DeepEqualOfFlatIsShallow` | packages/core/src/equality-checks.ts:51-60 | when no value of `a` is object-typed, `deepEqual(a, b)` and `shallowEqual(a, b)` agree |
| `Equality.GuardsRejectEarly` | packages/core/src/equality-checks.ts:9-28 | the guards before the loops: two falsy values pass `shallowEqualArray` and pass the other two checks exactly when they are `===`; one falsy and one truthy value fail all three; arrays of different lengths fail `shallowEqualArray`; values with different key counts fail `shallowEqual` and `deepEqual` |
| `Equality.DeepEqualExamples` | packages/select/test/stores.test.ts:12-22 | two separately built `{a:{b:{c:true}}}` trees and two `[{}]` arrays are `deepEqual`; `{}` is not `deepEqual` to `undefined` nor to `{test: true}` |
| `Equality.DeepEqualFindsDeepDifference` | packages/select/test/stores.test.ts:16-18 | a difference three levels down (`c: false` against `c: true`) makes `deepEqual` fail |
| `Equality.ShallowEqualArrayExamples` | packages/select/test/stores.test.ts:24-32 | the six expectations of the library's `shallowEqualArray` test, including that a shared object passes, two distinct `{}` fail, and `checkFrom = 1` ignores a differing first element |
| `Equality.ShallowEqualExamples` | packages/select/test/stores.test.ts:34-40 | the five expectations of the library's `shallowEqual` test: empty objects and `{a: true}` copies pass; a different key count or an `undefined` side fails |
| `Selector.FloorDivInt` | packages/core/test/mutable-selectable.test.ts:62 | `Math.floor(n / d)` is the quotient rounded toward minus infinity, for either sign of `d` |
| `Selector.TruncRemInt` | packages/core/test/mutable-selectable.test.ts:350 | JavaScript `%` takes the sign of the dividend, stays below the divisor in magnitude, and differs from the dividend by a multiple of the divisor, which fixes its value for every sign of either operand |
| `Selector.EvalDependsOnlyOnReads` | packages/select/src/store.ts:58-63 | a selector's value, read set and allocations depend only on the stores whose `state` it read: states that agree on those stores give the same evaluation |
| `Selector.ReadsAreMentioned` | packages/select/src/store.ts:58-63 | a selector reads only stores its text mentions |
| `Selector.UntakenBranchIsNotRead` | packages/select/src/store.ts:95-104 | tracking is dynamic: a store mentioned only in the branch of `?:` that is not taken is not recorded |
| `Updater.WriteProp` | packages/core/test/mutable-selectable.test.ts:110-112 | an in-place property write keeps the object's identity, sets that key and leaves every other key as it was |
| `Updater.Apply` | packages/core/src/mutable-selectable.ts:66-71 | an updater never changes its argument's identity; mutating updaters return `undefined` and, on an object, write the new property value and leave every other property as it was; returning updaters leave their argument untouched and return the new value |
| `OrderedSet.Insert` | packages/select/src/store.ts:85 | `Set.add`: membership gains exactly the new element, order of existing elements is kept, no duplicates appear |
| `OrderedSet.Remove` | packages/select/src/store.ts:89 | `Set.delete`: membership loses exactly that element; removing an absent element changes nothing |
| `OrderedSet.RemoveInserted` | packages/core/src/mutable-selectable.ts:58-61 | deleting what was just added to a set that lacked it gives back the original set, order included |
| `OrderedSet.InsertAll` | packages/select/src/store.ts:69-73 | adding several elements keeps the existing order as a prefix and ends with exactly the union |
| `SelectStore.ModifyCallResolvesIntent` | packages/select/src/store.ts:35-44 | an updater's result decides the new state: `undefined` keeps the possibly mutated state (same identity), `EMPTY` clears it to `undefined`, anything else replaces it |
| `SelectStore.ModifyPlainChecksCurrentValue` | packages/select/src/store.ts:45-49 | as written, a plain value replaces the state unless the current state is `EMPTY`, which turns into `undefined` whatever the value; a plain `EMPTY` is stored instead of clearing the state |
| `SelectStore.PlainSetterMatchesUpdater` | packages/select/src/store.ts:34-50 | with the plain branch corrected, a plain setter ignores the current state and agrees with the updater returning the same value, `EMPTY` included; only a plain `undefined` is stored rather than keeping |
| `SelectStore.CorrectionChangesOnlyEmptyCases` | packages/select/src/store.ts:34-50 | the corrected and the as-written `modify` disagree exactly on a plain setter that is defined and where just one of the current state and the new value is `EMPTY`; every updater resolves the same way under both |
| `SelectStore.Initial` | packages/select/src/store.ts:18-32 | the module starts with no stores, no selections, no tracking, no flush token, no pending notifiers and nothing recorded, and satisfies the engine invariant |
| `SelectStore.NewStore` | packages/select/src/store.ts:65-67 | a new store holds its initial state with no subscribers, and nothing else changes |
| `SelectStore.ReadState` | packages/select/src/store.ts:58-63 | the getter returns the store's state and, while a collection is active, adds the store to the tracking set |
| `SelectStore.EvalInAgreesWithEval` | packages/select/src/store.ts:58-63 | running a selector through the getter gives its pure value and adds exactly the stores it read to the tracking set |
| `SelectStore.Collect` | packages/select/src/store.ts:95-104 | `collect` returns the selector's value, refills the store set with exactly the stores read, and leaves tracking off |
| `SelectStore.ClearSubscription` | packages/select/src/store.ts:87-92 | the disposer removes the subscriber from every store and from the pending notifiers, and leaves every other subscription and the states alone |
| `SelectStore.SubscribeTo` | packages/select/src/store.ts:83-86 | `subscribe` adds the subscriber to exactly the given stores, and leaves every other subscription and the states alone |
| `SelectStore.Notifications` | packages/select/src/store.ts:158-162 | `update` calls every changer, in insertion order, with the new slice and the previous one |
| `SelectStore.Subscriber` | packages/select/src/store.ts:164-174 | one run of the subscriber keeps the engine invariant, the states and every other selection, takes the subscriber off the pending queue and records one run |
| `SelectStore.SubscriberFollowsReads` | packages/select/src/store.ts:165-168 | after a run, the subscriber is subscribed to exactly the stores its selector read in that run, and no other subscription changed |
| `SelectStore.SubscriberCallsOnChange` | packages/select/src/store.ts:170-173 | when the check accepts the new slice against `prev`, nothing is called and `prev` stays; otherwise `prev` becomes the slice and every changer is called once with the slice and the old `prev` |
| `SelectStore.UnsubscribedStoresCannotChangeSlice` | packages/select/src/store.ts:164-174 | stores the subscriber is not subscribed to after a run cannot change its selector's result: subscribing to the read set is sound |
| `SelectStore.Select` | packages/select/src/store.ts:144-176 | `select` registers the selection, subscribes it to exactly the stores its selector read, changes no state, and calls `onChange` once with the slice and `undefined` exactly when the check rejects the slice against `undefined` |
| `SelectStore.Dispose` | packages/select/src/store.ts:178-181 | the returned disposer unsubscribes the selection everywhere, removes exactly it from the pending queue, clears its changers, and leaves every other selection, every state and the trace as they were |
| `SelectStore.DisposeIsIdempotent` | packages/select/src/store.ts:178-181 | calling the disposer twice is the same as calling it once |
| `SelectStore.AddChanger` | packages/select/src/store.ts:185-186 | `api.subscribe` adds exactly that callback to the selection's changers; every other part of the selection, every other selection and the rest of the engine stay as they were |
| `SelectStore.RemoveChanger` | packages/select/src/store.ts:187-190 | the function `api.subscribe` returns removes exactly that callback from the changers; every other part of the selection, every other selection and the rest of the engine stay as they were |
| `SelectStore.StateAfterSelect` | packages/select/src/store.ts:161-197 | right after `select` returns, `api.state` is the first slice when the check rejected it against `undefined`, and `undefined` otherwise |
| `SelectStore.StateFollowsAcceptedSlice` | packages/select/src/store.ts:165-197 | a subscriber run moves `api.state` to the new slice exactly when the check rejects it against the old one, which is exactly when the changers are called with it; other selections' `api.state` stay put, and the disposer leaves the last slice readable |
| `SelectStore.NotifyStore` | packages/select/src/store.ts:69-73 | `notify` queues every subscriber of the store after the already pending ones, without duplicates |
| `SelectStore.Drain` | packages/select/src/store.ts:106-111 | the module's `notify` runs every pending subscriber, in queue order, and empties the queue |
| `SelectStore.FlushPending` | packages/select/src/store.ts:121-124 | the tail of `flush()`: with the token free it runs every pending subscriber; with the token held it changes nothing |
| `SelectStore.Set` | packages/select/src/store.ts:75-80 | `set` stores the corrected `modify(state, setter)` in that store only; with no flush holding the token it then runs exactly the pending subscribers followed by the store's own, each once, and empties the queue; while a flush holds it, it only queues the store's subscribers and calls nothing |
| `SelectStore.Flush` | packages/select/src/store.ts:113-125 | `flush` keeps the invariant; from a free token it ends with the token free and nothing pending; otherwise the token is unchanged or released |
| `SelectStore.FlushedRunsFlush` | packages/select/src/store.ts:127-129 | calling the function `flushed(cb)` returns has exactly the effect of `flush(cb)` on the engine |
| `SelectStore.HeldTokenDefers` | packages/select/src/store.ts:113-124 | while the token is held, a run of sets applies each `modify` in turn and queues each affected subscriber once, and calls no subscriber |
| `SelectStore.FlushBatches` | packages/select/src/store.ts:113-125 | `flush(cb)` with a free token applies all of the callback's sets, then runs each pending or affected subscriber exactly once, and ends with the token free |
| `SelectStore.FlushWithFreeToken` | packages/select/src/store.ts:114-124 | with a free token, `flush(cb)` is the callback's commands under the token followed by one drain |
| `SelectStore.NestedFlushDefers` | packages/select/src/store.ts:114-124 | `flush(cb)` while another callback holds the token only runs `cb`'s sets and calls nothing; `flush()` with the token held does nothing |
| `SelectScenarios.SelectCallsHandlerImmediately` | packages/select/test/stores.test.ts:251-256 | selecting a counter calls the handler once, at once, with the count and `undefined` |
| `SelectScenarios.IncrementsQueueOnce` | packages/select/test/stores.test.ts:258-263 | however many increments run under the token, the selection is queued once |
| `SelectScenarios.SetsWhileHeld` | packages/select/test/stores.test.ts:258-263 | inside the flush, `n` increments move the count from `start` to `start + n` and call nothing |
| `SelectScenarios.FlushOfIncrements` | packages/select/test/stores.test.ts:258-266 | the flush of `n > 0` increments calls the handler once more, with the final count and the previously accepted one |
| `SelectScenarios.OnlyFlushesOnceWhenNesting` | packages/select/test/stores.test.ts:248-268 | the whole test: two handler calls in all, `(start, undefined)` then `(start + n, start)` |
| `MutableSelectable.TierNameRoundTrip` | packages/core/src/mutable-selectable.ts:13-17 | the tier names and the tiers correspond one to one |
| `MutableSelectable.TierNamed` | packages/core/src/mutable-selectable.ts:13-17 | a name denotes a tier only if it is that tier's name; any other name denotes none |
| `MutableSelectable.WithStoreAsWritten` | packages/core/src/mutable-selectable.ts:19-22 | as written, the guard throws `"Store " + name + " does not exist"` exactly when `meta.stores[name]` is falsy |
| `MutableSelectable.SubscribeTargetAsWritten` | packages/core/src/mutable-selectable.ts:57-58 | `subscribe` finds a tier exactly when the current store name is a tier's name; otherwise `store.add` fails |
| `MutableSelectable.InheritedNameEscapesGuard` | packages/core/src/mutable-selectable.ts:19-29 | `withStore("toString", cb)` passes the guard, yet names no tier, so a `subscribe` inside it fails with a different error |
| `MutableSelectable.WithStore` | packages/core/src/mutable-selectable.ts:19-29 | `withStore` throws for exactly the names that denote no tier, runs the callback with that tier current, and restores the previous current tier |
| `MutableSelectable.Fresh` | packages/core/src/mutable-selectable.ts:32-37 | a new container holds the initial state at version 0, with both tiers empty, `subscriptions` current and the token free |
| `MutableSelectable.Subscribe` | packages/core/src/mutable-selectable.ts:56-65 | `subscribe` adds the callback to the current tier only, as a set, and returns a disposer bound to that tier |
| `MutableSelectable.Unsubscribe` | packages/core/src/mutable-selectable.ts:60-62 | the disposer removes exactly that callback from the tier it captured |
| `MutableSelectable.Destroy` | packages/core/src/mutable-selectable.ts:132-136 | `destroy` empties both tiers and leaves the state, the version and the listeners' behaviour alone |
| `MutableSelectable.Assign` | packages/core/src/mutable-selectable.ts:66-73 | the first half of `set` counts the version up by one and keeps the mutated state (same identity) when the updater returns `undefined`, else stores what it returned |
| `MutableSelectable.Set` | packages/core/src/mutable-selectable.ts:66-75 | `set` moves the version strictly up and leaves the token as it found it |
| `MutableSelectable.Flush` | packages/core/src/mutable-selectable.ts:39-55 | `flush` changes the token only by releasing it, and leaves it untouched when it was free or no callback was given |
| `MutableSelectable.RunSteps` | packages/core/src/mutable-selectable.ts:44 | a flush callback's statements can only release the token, never take a different one |
| `MutableSelectable.Drain` | packages/core/src/mutable-selectable.ts:47-54 | a drain leaves the token as it found it |
| `MutableSelectable.RunTier` | packages/core/src/mutable-selectable.ts:50-52 | a tier run leaves the token as it found it |
| `MutableSelectable.CallListener` | packages/core/src/mutable-selectable.ts:51 | calling one listener leaves the token as it found it |
| `MutableSelectable.CallHandler` | packages/core/src/mutable-selectable.ts:128 | calling `onChange` leaves the token as it found it |
| `MutableSelectable.Refresh` | packages/core/src/mutable-selectable.ts:63 | the disposer's `update` leaves the token as it found it |
| `MutableSelectable.Select` | packages/core/src/mutable-selectable.ts:104-131 | `select` subscribes its closure in the current tier only, with `prev` set to the selector's value on the state at the time of the call |
| `MutableSelectable.Compute` | packages/core/src/mutable-selectable.ts:77-91 | `compute` subscribes its selection in the computations tier, leaves the subscriptions tier and the current tier alone, and starts its cell with the current slice and no cached value |
| `MutableSelectable.Getter` | packages/core/src/mutable-selectable.ts:92-101 | the getter returns the cached value when one exists; otherwise it runs the mapper on the last delivered slice, once, and caches the result |
| `SelectableLaws.HeldTokenSetOnlyAssigns` | packages/core/src/mutable-selectable.ts:66-75 | `set` unfolded for a held token: it assigns and drains nothing |
| `SelectableLaws.FreeTokenSetDrains` | packages/core/src/mutable-selectable.ts:66-75 | `set` unfolded for a free token: it assigns and then drains both tiers |
| `SelectableLaws.MutationsKeepIdentity` | packages/core/src/mutable-selectable.ts:67-71 | any number of mutating updaters keep the state `===` to the original object |
| `SelectableLaws.HeldTokenRunsSetsOnly` | packages/core/src/mutable-selectable.ts:39-47 | under a held token, a callback of sets assigns each update in turn and calls no listener |
| `SelectableLaws.FlushDrainsOnceAfterCallback` | packages/core/src/mutable-selectable.ts:39-55 | `flush(cb)` with the token free runs all of `cb`'s sets under the token, then releases it and drains exactly once |
| `SelectableLaws.ForeignFlushDefers` | packages/core/src/mutable-selectable.ts:40-47 | `flush(cb)` while another callback holds the token runs `cb`'s sets and drains nothing |
| `SelectableLaws.CallPlain` | packages/core/src/mutable-selectable.ts:51 | calling a consumer callback records one call with the state and changes nothing else |
| `SelectableLaws.RunTierOfPlain` | packages/core/src/mutable-selectable.ts:50-52 | a tier of consumer callbacks calls each of them once, in insertion order, with the state |
| `SelectableLaws.DrainRunsComputationsFirst` | packages/core/src/mutable-selectable.ts:17-54 | when every listener is a plain callback, a drain calls every computations listener, in insertion order, before every subscriptions listener, each with the state |
| `SelectableLaws.EmptyDrainCallsNothing` | packages/core/src/mutable-selectable.ts:47-54 | a drain over two empty tiers calls nothing |
| `SelectableLaws.DrainOfOneSubscription` | packages/core/src/mutable-selectable.ts:47-54 | a drain over a single subscription is exactly one call of it |
| `SelectableLaws.DestroyedDrainCallsNothing` | packages/core/src/mutable-selectable.ts:132-136 | after `destroy`, a drain calls nothing |
| `SelectableLaws.QuietDrain` | packages/core/src/mutable-selectable.ts:47-54 | when no listener calls `set`, a drain leaves the state and the version alone |
| `SelectableLaws.QuietSetCountsOnce` | packages/core/src/mutable-selectable.ts:66-75 | when no listener calls `set`, each `set` counts the version up by exactly one and leaves the state its updater resolved |
| `SelectableLaws.WatchFiresOnlyOnChange` | packages/core/src/mutable-selectable.ts:119-130 | the selection closure calls nothing and keeps `prev` when the check accepts `prev` against the new slice; otherwise it stores the slice and calls `onChange` once, with the old `prev` only when memoising |
| `SelectableLaws.SelectCallsOnChangeAtOnce` | packages/core/src/mutable-selectable.ts:115-119 | `select` runs the selector once and calls `onChange` once at once, with the slice and `undefined` when memoising, whatever the equality check |
| `SelectableLaws.ReactionDrainsAtOnce` | packages/core/src/mutable-selectable.ts:66-75 | an `onChange` that calls `set` while no flush holds the token starts a nested drain at once |
| `SelectableLaws.ReactionDefersWhileHeld` | packages/core/src/mutable-selectable.ts:39-47 | inside a flush callback the same reaction only assigns; the drain waits for the callback's flush |
| `SelectableLaws.ComputeInvalidatesOnlyOnChange` | packages/core/src/mutable-selectable.ts:85-90 | a computed value's selection leaves the cell alone when its slice is unchanged, and otherwise stores the slice and marks the cached value stale |
| `SelectableLaws.GetterMapsAtMostOnce` | packages/core/src/mutable-selectable.ts:93-99 | a second getter call runs no mapper and returns the same value |
| `SelectableLaws.GetterMapsNewSlice` | packages/core/src/mutable-selectable.ts:86-99 | after a new slice is delivered, the getter returns the mapper applied to that slice and records one mapper run |
| `SelectableLaws.UnsubscribeUndoesSubscribe` | packages/core/src/mutable-selectable.ts:56-65 | the disposer returns both tiers to what they were before `subscribe`, when the callback was not already subscribed |
| `SelectableLaws.SubscribeIsASetAdd` | packages/core/src/mutable-selectable.ts:57-58 | subscribing a callback that is already in the tier changes no tier |
| `SelectableScenarios.ImmediateCall` | packages/core/test/mutable-selectable.test.ts:42-53 | selecting `state.count` calls the handler once, at once, with the count and `undefined` |
| `SelectableScenarios.CountChangeCalls` | packages/core/test/mutable-selectable.test.ts:85-89 | a `set` that moves the count away from the accepted slice calls the handler once, with the new count and the old one |
| `SelectableScenarios.UnwatchedSetCallsNothing` | packages/core/test/mutable-selectable.test.ts:92-96 | after the disposer ran, a `set` still changes the count but calls nothing |
| `SelectableScenarios.CancelledSelectionStopsCalling` | packages/core/test/mutable-selectable.test.ts:78-101 | the whole test: two calls, `(c, undefined)` and `(c + 2, c)`, and a final count of `c + 3` |
| `SelectableScenarios.HalvesMount` | packages/core/test/mutable-selectable.test.ts:61-68 | selecting `[floor(state / 2), state]` on state 0 with a head-comparing check calls the handler once with `[0, 0]` |
| `SelectableScenarios.HalvesSet` | packages/core/test/mutable-selectable.test.ts:70-72 | an increment recomputes the pair; the handler is called with the new pair exactly when its head differs from the accepted one, and otherwise the accepted pair is kept |
| `SelectableScenarios.CustomCheckSkipsEqualHeads` | packages/core/test/mutable-selectable.test.ts:55-77 | the whole test: over three increments from 0 the handler is called twice, with states 0 and 2, and the final state is 3 |
| `SelectableScenarios.NestedMutationsCallOnce` | packages/core/test/mutable-selectable.test.ts:221-250 | a flush of in-place mutations keeps the state's identity, so the selection of the whole state calls its handler only at mount |
| `SelectableScenarios.ComputeOnSelected` | packages/core/test/mutable-selectable.test.ts:448-454 | `compute` on a store that already has a selection runs its selector once and puts it in the computations tier |
| `SelectableScenarios.MountedSelectionAndComputation` | packages/core/test/mutable-selectable.test.ts:437-454 | mounting runs the selection's selector, then the computation's |
| `SelectableScenarios.SetAfterMount` | packages/core/test/mutable-selectable.test.ts:456-459 | the `set` runs the computation's selector before the selection's |
| `SelectableScenarios.ComputationsBeforeSubscriptions` | packages/core/test/mutable-selectable.test.ts:437-459 | the whole second half of the test: selector runs in the order selection, computation, computation, selection |
| `SelectableCascade.OddDrain` | packages/core/test/mutable-selectable.test.ts:341-351 | a drain at an odd count reports the count, and the reacting selection reports `false` |
| `SelectableCascade.BumperTriggers` | packages/core/test/mutable-selectable.test.ts:341-347 | at an even non-zero count the reacting selection reports `true` and its `set` bumps the count, starting a nested drain |
| `SelectableCascade.EvenDrain` | packages/core/test/mutable-selectable.test.ts:341-351 | a drain at an even count nests a second drain, so the count selection reports the even count and then the odd one |
| `SelectableCascade.BumpToOdd` | packages/core/test/mutable-selectable.test.ts:356-358 | a bump from an even count gives one drain and one report |
| `SelectableCascade.BumpToEven` | packages/core/test/mutable-selectable.test.ts:359-361 | a bump from an odd count gives two nested drains and reports the count twice |
| `SelectableCascade.BatchedBumps` | packages/core/test/mutable-selectable.test.ts:368-378 | inside `flush`, the sets drain nothing; the flush then drains once, and the reaction adds one more nested drain |
| `SelectableCascade.CallCountAppend` | packages/core/test/mutable-selectable.test.ts:354 | counting a callback's calls is additive over concatenated traces |
| `SelectableCascade.CascadeCalls` | packages/core/test/mutable-selectable.test.ts:366-385 | the two sets add three calls of the count handler, and the flush adds two |
| `SelectableCascade.MountedOnce` | packages/core/test/mutable-selectable.test.ts:337-354 | after mounting both selections the count handler has been called once |
| `SelectableCascade.RunningFlushTriggersNewUpdate` | packages/core/test/mutable-selectable.test.ts:332-386 | the whole test: count 3 with 4 calls after the two sets, and count 7 with 6 calls after the flush, one of them with 7 |

## Left out

- React bindings, `immerStore`, `use-select`, the unfinished `packages/core/src/select.ts` and the build scripts are not part of this model.
- `Selectable`, the immer-based subclass, is not part of this model. Its `set` drains only when `produce` returns a new state, and it replaces mutated objects by copies. The cascade test and the computations test use it. In both tests every `set` changes the state, so the drains and calls are those of `MutableSelectable.set`, which the scenarios use. The state's identity after a `set` is the one thing that differs.
- Floating-point numbers, `NaN` and `Infinity` are not modelled. Numbers are integers. In selectors, `+` on two strings concatenates. Other arithmetic on non-numbers, and division by zero, yields `undefined` in place of JavaScript's `NaN` or coerced string.
- `Updater.Apply`: `(s) => s + step` on a state that is not a number returns `undefined` here. JavaScript returns `NaN` for `undefined`, a number for `null` and booleans, and a string for strings, objects and arrays. A store then keeps its state where JavaScript would replace it. `s[key] += step` on a property that is not a number likewise leaves the object unchanged, where JavaScript writes `NaN` or a string. Every updater in the library's tests works on numbers.
- `JsValue.Get`: properties inherited from `Object.prototype` are not modelled, so reading `toString` from an object without such an own key yields `undefined`. In JavaScript `shallowEqual({toString: undefined}, {y: 1})` is false, because `b.toString` is a function; here it holds. `deepEqual` has the same gap.
- `Equality.LoopBound`: a string `length` gives no indices here. JavaScript converts a numeric string such as `"2"` to its number, so `shallowEqualArray` on array-likes with `length: "2"` compares two elements in JavaScript and none here.
- Exceptions are modelled only for `withStore`'s guard. Reads from `undefined` or `null` yield `undefined` rather than throwing.
- The live iteration of a JavaScript `Set` that grows while a `for…of` runs over it is not modelled for `MutableSelectable`'s tiers. A drain visits the tier as it was when that tier's loop started. No listener in the model subscribes during a drain.
- `onChange.length` is not modelled. The choice it makes, whether the previous slice is passed, is the `memo` flag of a selection.
- Reentrancy is bounded by a `fuel` argument. `MutableSelectable`'s operations return `None` when it runs out. Every scenario states the fuel it needs, and nothing is claimed about a run that exhausts it.
- Each `MutableSelectable.World` holds one store, although the `flushing` token is shared by every store of the module. A flush that crosses two stores is not modelled.
- The select package's changers are recorded in the trace but never call back into the engine. Reactions that call `set` are modelled only for `MutableSelectable`.
- Handlers that destructure their slice (`([flag, num]) => callback(num)`) are modelled by recording the whole slice in the trace. The recorded pair carries the number the test's callback receives.
- A selection's reaction is limited to "call `set` with a fixed updater when the first argument is truthy". That is the shape of the library's tests.
- `Updater.WriteProp`: writes to anything but an object are not modelled and change nothing. Aliased snapshots of a mutated object are not distinguished from the object itself.
- `SelectStore.Set`: stores the corrected `modify`, not the one written at packages/select/src/store.ts:45-49. The two differ only for a plain setter. `set(EMPTY)` clears the state here, where the code stores the `EMPTY` object. On a state that is `EMPTY`, a plain defined value is stored here, where the code stores `undefined`. `SelectStore.CorrectionChangesOnlyEmptyCases` states that these are the only differences. Every setter in the scenarios is an updater, on which both forms agree.
- `SelectableLaws.DrainRunsComputationsFirst`: states the order only when every listener is a plain callback. For the selection and computation closures the library installs, the order is shown by `SelectableScenarios.ComputationsBeforeSubscriptions` on the library's own test. No general law is stated.
- `MutableSelectable.Set`: its own contract states only the frame (the version grows and the token is kept). What it calls is stated by `SelectableLaws.FreeTokenSetDrains`, `SelectableLaws.HeldTokenSetOnlyAssigns` and `SelectableLaws.QuietSetCountsOnce`.
- `MutableSelectable.Flush`: its own contract states only the frame and the token. The batching is stated by `SelectableLaws.FlushDrainsOnceAfterCallback` and `SelectableLaws.ForeignFlushDefers`.
- `MutableSelectable.RunSteps`: its own contract states only the frame. `SelectableLaws.HeldTokenRunsSetsOnly` states what a callback of sets does.
- `MutableSelectable.Drain`: its own contract states only the frame. `SelectableLaws.DrainRunsComputationsFirst`, `SelectableLaws.EmptyDrainCallsNothing` and `SelectableLaws.DrainOfOneSubscription` state the calls.
- `MutableSelectable.RunTier`: its own contract states only the frame. `SelectableLaws.RunTierOfPlain` states the calls.
- `MutableSelectable.CallListener`: its own contract states only the frame. `SelectableLaws.CallPlain`, `SelectableLaws.WatchFiresOnlyOnChange` and `SelectableLaws.ComputeInvalidatesOnlyOnChange` state the calls.
- `MutableSelectable.CallHandler`: its own contract states only the frame. `SelectableLaws.ReactionDrainsAtOnce`, `SelectableLaws.ReactionDefersWhileHeld` and `SelectableLaws.GetterMapsNewSlice` state the calls.
- `MutableSelectable.Refresh`: its own contract states only the frame of calling the listener again.
- `SelectStore.Flush`: its own contract states the invariant and the token. `SelectStore.FlushBatches`, `SelectStore.FlushWithFreeToken` and `SelectStore.NestedFlushDefers` state the batching for callbacks made of sets.
- `SelectStore.Drain`: the contract states which subscribers run and in what order. The calls they make follow from `SelectStore.SubscriberCallsOnChange` run by run.
- `SelectStore.Select`: `api.state` is modelled as a read of the selection's `prev`, with no property descriptor. The `console.log` in the changer disposer is left out.

## Findings

| source | as written | input that shows it | evidently intended | confidence | as-written member | corrected member |
|---|---|---|---|---|---|---|
| packages/core/src/mutable-selectable.ts:20 | the guard `!this.meta.stores[name]` also admits names every object inherits from `Object.prototype` | `withStore("toString", () => this.subscribe(cb))` passes the guard; `subscribe` then finds a function instead of a `Set` and throws a `TypeError` instead of "Store toString does not exist" | admit only the two tier names | high; not executed | `MutableSelectable.InheritedNameEscapesGuard` | `MutableSelectable.WithStore` |
| packages/select/src/store.ts:45 | for a plain value `modify` compares the current `value`, not the `modifier`, with `EMPTY` | `new MutStore(1).set(EMPTY)` stores the `EMPTY` object instead of `undefined`; `new MutStore(EMPTY).set(5)` stores `undefined` instead of `5` | `modifier === EMPTY` yields `undefined`, as for an updater returning `EMPTY` | medium; not executed | `SelectStore.ModifyPlainChecksCurrentValue` | `SelectStore.PlainSetterMatchesUpdater` |

=== FILE: equality.dfy ===
/** The equality-check library: the four comparisons a selection uses to
    decide whether a newly selected slice counts as a change. */
module Equality {
  import opened JsValue

  /** `strictEqual(a, b)` is `a === b`: primitives compare by value, objects
      and arrays by identity. */
  function StrictEqual(a: Value, b: Value): (r: bool)
    ensures !IsReference(a) ==> (r <==> a == b)
    ensures a.Obj? ==> (r <==> b.Obj? && b.id == a.id)
    ensures a.Arr? ==> (r <==> b.Arr? && b.id == a.id)
    ensures a == b ==> r
  {
    StrictEq(a, b)
  }

  /** The number of integers `i >= 0` that satisfy `i < len` after JavaScript
      converts `len` to a number. `null` and `false` convert to 0 and `true` to
      1. `undefined` converts to NaN, below which no index lies. Strings and
      objects are also given no index here, although JavaScript converts a
      numeric string such as `"2"` to its number. */
  function LoopBound(len: Value): int {
    match len
    case Num(n) => n
    case Bool(b) => if b then 1 else 0
    case _ => 0
  }

  /** The `.length` of an array-like value. */
  function Length(v: Value): Value {
    Get(v, Name("length"))
  }

  /** The loop of `shallowEqualArray`: every index from `i` up to `n`
      holds identical elements. */
  function IdenticalFrom(a: Value, b: Value, i: int, n: int): bool
    decreases n - i
  {
    if i >= n then true
    else StrictEq(At(a, i), At(b, i)) && IdenticalFrom(a, b, i + 1, n)
  }

  /** `shallowEqualArray(a, b, checkFrom)`. */
  function ShallowEqualArray(a: Value, b: Value, checkFrom: int): bool {
    if !Truthy(a) && !Truthy(b) then true
    else if Truthy(a) != Truthy(b) then false
    else if !StrictEq(Length(a), Length(b)) then false
    else IdenticalFrom(a, b, checkFrom, LoopBound(Length(a)))
  }

  /** `shallowEqual(a, b)`: one level of identity comparison over the keys of `a`. */
  function ShallowEqual(a: Value, b: Value): bool {
    if Truthy(a) != Truthy(b) then false
    else if !Truthy(a) || !Truthy(b) then StrictEq(a, b)
    else if KeyCount(a) != KeyCount(b) then false
    else forall k | k in Keys(a) :: StrictEq(Get(a, k), Get(b, k))
  }

  /** `deepEqual(a, b)`: like `shallowEqual`, but recursing into a key
      whenever both sides hold object-typed values there (null included). */
  function DeepEqual(a: Value, b: Value): bool
    decreases a
  {
    if Truthy(a) != Truthy(b) then false
    else if !Truthy(a) || !Truthy(b) then StrictEq(a, b)
    else if KeyCount(a) != KeyCount(b) then false
    else forall k | k in Keys(a) :: DeepEqualAt(a, b, k)
  }

  /** The per-key comparison of `deepEqual`. */
  function DeepEqualAt(a: Value, b: Value, k: Key): bool
    requires k in Keys(a)
    decreases a, 0
  {
    if IsObjectTyped(Get(a, k)) && IsObjectTyped(Get(b, k)) then DeepEqual(Get(a, k), Get(b, k))
    else StrictEq(Get(a, k), Get(b, k))
  }

  /** The equality check a selection is configured with. `HeadCheck` stands for
      a caller-written check comparing first elements, `(a, b) => a[0] === b?.[0]`. */
  datatype EqualityCheck =
    | StrictCheck
    | ShallowArrayCheck(checkFrom: int)
    | ShallowCheck
    | DeepCheck
    | HeadCheck

  /** Applies a configured equality check. */
  function Check(c: EqualityCheck, a: Value, b: Value): bool {
    match c
    case StrictCheck => StrictEqual(a, b)
    case ShallowArrayCheck(k) => ShallowEqualArray(a, b, k)
    case ShallowCheck => ShallowEqual(a, b)
    case DeepCheck => DeepEqual(a, b)
    case HeadCheck => StrictEq(At(a, 0), At(b, 0))
  }

  // ---------------------------------------------------------------------------
  // shallowEqualArray

  lemma {:induction false} IdenticalFromMeaning(a: Value, b: Value, i: int, n: int)
    ensures IdenticalFrom(a, b, i, n) <==> forall j :: i <= j < n ==> StrictEq(At(a, j), At(b, j))
    decreases n - i
  {
    if i < n {
      IdenticalFromMeaning(a, b, i + 1, n);
    }
  }

  /** `shallowEqualArray(a, b, k)` holds exactly when both arguments are falsy,
      or both are truthy with identical lengths and identical elements at every
      index from `k` below the length; indices below `k` are never looked at. */
  lemma ShallowEqualArrayMeaning(a: Value, b: Value, k: int)
    ensures ShallowEqualArray(a, b, k) <==>
      || (!Truthy(a) && !Truthy(b))
      || (&& Truthy(a) && Truthy(b)
          && StrictEq(Length(a), Length(b))
          && forall i :: k <= i < LoopBound(Length(a)) ==> StrictEq(At(a, i), At(b, i)))
  {
    IdenticalFromMeaning(a, b, k, LoopBound(Length(a)));
  }

  /** On two arrays: equal lengths, and identical elements from index `k` on.
      A length mismatch is unequal whatever `k` is. */
  lemma ShallowEqualArrayOnArrays(a: Value, b: Value, k: int)
    requires a.Arr? && b.Arr?
    ensures ShallowEqualArray(a, b, k) <==>
      |a.elems| == |b.elems| && forall i :: 0 <= i < |a.elems| && k <= i ==> StrictEq(a.elems[i], b.elems[i])
  {
    ShallowEqualArrayMeaning(a, b, k);
    if |a.elems| == |b.elems| {
      assert forall i :: 0 <= i < |a.elems| ==> At(a, i) == a.elems[i] && At(b, i) == b.elems[i];
    }
  }

  // ---------------------------------------------------------------------------
  // shallowEqual

  lemma {:induction false} SubsetSize<T>(s: set<T>, t: set<T>)
    requires s <= t
    ensures |s| <= |t|
    decreases s
  {
    if s != {} {
      var x :| x in s;
      SubsetSize(s - {x}, t - {x});
    }
  }

  lemma SubsetOfSameSize<T>(s: set<T>, t: set<T>)
    requires s <= t && |s| == |t|
    ensures s == t
  {
    if s != t {
      var x :| x in t && x !in s;
      SubsetSize(s, t - {x});
    }
  }

  /** On plain objects none of whose values is `undefined`, `shallowEqual`
      means: the same keys, each holding identical values. */
  lemma ShallowEqualOnObjects(a: Value, b: Value)
    requires a.Obj? && b.Obj?
    requires forall k :: k in a.props ==> !a.props[k].Undefined?
    ensures ShallowEqual(a, b) <==>
      a.props.Keys == b.props.Keys && forall k :: k in a.props ==> StrictEq(a.props[k], b.props[k])
  {
    if ShallowEqual(a, b) {
      assert a.props.Keys <= b.props.Keys by {
        forall k | k in a.props
          ensures k in b.props
        {
          assert k in Keys(a) && StrictEq(Get(a, k), Get(b, k));
        }
      }
      SubsetOfSameSize(a.props.Keys, b.props.Keys);
      forall k | k in a.props
        ensures StrictEq(a.props[k], b.props[k])
      {
        assert k in Keys(a) && StrictEq(Get(a, k), Get(b, k));
      }
    } else if a.props.Keys == b.props.Keys {
      assert |a.props| == |b.props| by {
        assert |a.props.Keys| == |b.props.Keys|;
      }
      var k :| k in Keys(a) && !StrictEq(Get(a, k), Get(b, k));
      assert !StrictEq(a.props[k], b.props[k]);
    }
  }

  /** The guard of `shallowEqual` lists only the keys of `a`: a key `a` holds as
      `undefined` matches a missing key of `b`, which makes the check asymmetric. */
  lemma ShallowEqualIsAsymmetric()
    ensures ShallowEqual(Obj(1, map[Name("x") := Undefined]), Obj(2, map[Name("y") := Num(1)]))
    ensures !ShallowEqual(Obj(2, map[Name("y") := Num(1)]), Obj(1, map[Name("x") := Undefined]))
  {
    var a := Obj(1, map[Name("x") := Undefined]);
    var b := Obj(2, map[Name("y") := Num(1)]);
    assert Keys(b) == {Name("y")} && Get(b, Name("y")) == Num(1) && Get(a, Name("y")) == Undefined;
  }

  // ---------------------------------------------------------------------------
  // deepEqual

  /** Two acyclic values with the same shape: the same constructors all the
      way down and equal primitives, identity tags ignored. */
  predicate SameShape(a: Value, b: Value)
    decreases a
  {
    match a
    case Obj(_, p) =>
      && b.Obj?
      && p.Keys == b.props.Keys
      && forall k | k in p :: SameShape(p[k], b.props[k])
    case Arr(_, e) =>
      && b.Arr?
      && |e| == |b.elems|
      && forall i | 0 <= i < |e| :: SameShape(e[i], b.elems[i])
    case _ => a == b
  }

  lemma {:induction false} SameShapeAt(a: Value, b: Value, k: Key)
    requires SameShape(a, b) && k in Keys(a)
    ensures SameShape(Get(a, k), Get(b, k))
  {
    match a
    case Obj(_, p) =>
    case Arr(_, e) =>
    case Str(s) =>
      assert Get(a, k) == Get(b, k);
      SameShapeReflexive(Get(a, k));
    case _ =>
  }

  lemma {:induction false} SameShapeReflexive(a: Value)
    ensures SameShape(a, a)
    decreases a
  {
    match a
    case Obj(_, p) =>
      forall k | k in p
        ensures SameShape(p[k], p[k])
      {
        SameShapeReflexive(p[k]);
      }
    case Arr(_, e) =>
      forall i | 0 <= i < |e|
        ensures SameShape(e[i], e[i])
      {
        SameShapeReflexive(e[i]);
      }
    case _ =>
  }

  /** Structurally identical acyclic trees compare deep-equal, whatever
      identities their objects and arrays have. */
  lemma {:induction false} SameShapeIsDeepEqual(a: Value, b: Value)
    requires SameShape(a, b)
    ensures DeepEqual(a, b)
    decreases a
  {
    if Truthy(a) && Truthy(b) {
      assert KeyCount(a) == KeyCount(b) by {
        KeyCountIsCardinality(a);
        KeyCountIsCardinality(b);
        assert Keys(a) == Keys(b);
      }
      forall k | k in Keys(a)
        ensures DeepEqualAt(a, b, k)
      {
        SameShapeAt(a, b, k);
        if IsObjectTyped(Get(a, k)) && IsObjectTyped(Get(b, k)) {
          SameShapeIsDeepEqual(Get(a, k), Get(b, k));
        }
      }
    }
  }

  /** `deepEqual` is reflexive on acyclic values. */
  lemma DeepEqualReflexive(a: Value)
    ensures DeepEqual(a, a)
  {
    SameShapeReflexive(a);
    SameShapeIsDeepEqual(a, a);
  }

  /** Where `a` holds no object-typed value, `deepEqual` never recurses and
      agrees with `shallowEqual`. */
  lemma DeepEqualOfFlatIsShallow(a: Value, b: Value)
    requires forall k :: k in Keys(a) ==> !IsObjectTyped(Get(a, k))
    ensures DeepEqual(a, b) == ShallowEqual(a, b)
  {
  }

  // ---------------------------------------------------------------------------
  // Guards and the library's test cases

  /** The guards the structural checks share: two falsy arguments are equal
      for `shallowEqualArray` and compared by `===` otherwise; exactly one
      falsy argument is unequal; differing lengths (whatever `checkFrom` is)
      or differing key counts are unequal before any element is compared. */
  lemma GuardsRejectEarly(a: Value, b: Value, k: int)
    ensures !Truthy(a) && !Truthy(b) ==> ShallowEqualArray(a, b, k)
    ensures !Truthy(a) && !Truthy(b) ==> (ShallowEqual(a, b) <==> StrictEq(a, b)) && (DeepEqual(a, b) <==> StrictEq(a, b))
    ensures Truthy(a) != Truthy(b) ==> !ShallowEqualArray(a, b, k) && !ShallowEqual(a, b) && !DeepEqual(a, b)
    ensures a.Arr? && b.Arr? && |a.elems| != |b.elems| ==> !ShallowEqualArray(a, b, k)
    ensures Truthy(a) && Truthy(b) && KeyCount(a) != KeyCount(b) ==> !ShallowEqual(a, b) && !DeepEqual(a, b)
  {
  }

  /** `{ a: { b: { c } } }`, built from fresh identities `id`, `id + 1`, `id + 2`. */
  function Nested(id: nat, c: bool): Value {
    Obj(id, map[Name("a") := Obj(id + 1, map[Name("b") := Obj(id + 2, map[Name("c") := Bool(c)])])])
  }

  /** The expectations of the library's `deepEqual` test: two separately
      built equal trees are equal, `[{}]` equals another `[{}]`, and `{}`
      differs from `undefined` and from `{ test: true }`. */
  lemma DeepEqualExamples()
    ensures DeepEqual(Nested(1, true), Nested(4, true))
    ensures DeepEqual(Arr(1, [Obj(2, map[])]), Arr(3, [Obj(4, map[])]))
    ensures !DeepEqual(Obj(1, map[]), Undefined)
    ensures !DeepEqual(Obj(1, map[]), Obj(2, map[Name("test") := Bool(true)]))
  {
    SameShapeIsDeepEqual(Nested(1, true), Nested(4, true));
    SameShapeIsDeepEqual(Arr(1, [Obj(2, map[])]), Arr(3, [Obj(4, map[])]));
    assert |map[Name("test") := Bool(true)]| == 1;
  }

  /** The remaining `deepEqual` expectation: a difference three levels down
      is found. */
  lemma DeepEqualFindsDeepDifference()
    ensures !DeepEqual(Nested(1, false), Nested(4, true))
  {
    var a, b := Nested(1, false), Nested(4, true);
    var a1, b1 := Get(a, Name("a")), Get(b, Name("a"));
    var a2, b2 := Get(a1, Name("b")), Get(b1, Name("b"));
    assert Name("c") in Keys(a2) && !DeepEqualAt(a2, b2, Name("c"));
    assert !DeepEqual(a2, b2);
    assert Name("b") in Keys(a1) && !DeepEqualAt(a1, b1, Name("b"));
    assert !DeepEqual(a1, b1);
    assert Name("a") in Keys(a) && !DeepEqualAt(a, b, Name("a"));
  }

  /** The expectations of the library's `shallowEqualArray` test. */
  lemma ShallowEqualArrayExamples()
    ensures ShallowEqualArray(Arr(1, [Num(1), Num(2), Num(3)]), Arr(2, [Num(1), Num(2), Num(3)]), 0)
    ensures !ShallowEqualArray(Arr(1, []), Arr(2, [Num(1), Num(2), Num(3)]), 0)
    ensures ShallowEqualArray(Arr(1, [Obj(9, map[])]), Arr(2, [Obj(9, map[])]), 0)
    ensures !ShallowEqualArray(Arr(1, [Obj(3, map[])]), Arr(2, [Obj(4, map[])]), 0)
    ensures !ShallowEqualArray(Arr(1, [Bool(true), Bool(false)]), Arr(2, [Bool(false), Bool(true)]), 0)
    ensures ShallowEqualArray(Arr(1, [Bool(true), Bool(true)]), Arr(2, [Bool(false), Bool(true)]), 1)
  {
    ShallowEqualArrayOnArrays(Arr(1, [Num(1), Num(2), Num(3)]), Arr(2, [Num(1), Num(2), Num(3)]), 0);
    ShallowEqualArrayOnArrays(Arr(1, [Obj(9, map[])]), Arr(2, [Obj(9, map[])]), 0);
    ShallowEqualArrayOnArrays(Arr(1, [Obj(3, map[])]), Arr(2, [Obj(4, map[])]), 0);
    ShallowEqualArrayOnArrays(Arr(1, [Bool(true), Bool(false)]), Arr(2, [Bool(false), Bool(true)]), 0);
    ShallowEqualArrayOnArrays(Arr(1, [Bool(true), Bool(true)]), Arr(2, [Bool(false), Bool(true)]), 1);
  }

  /** The expectations of the library's `shallowEqual` test. */
  lemma ShallowEqualExamples()
    ensures ShallowEqual(Obj(1, map[]), Obj(2, map[]))
    ensures !ShallowEqual(Obj(1, map[]), Undefined)
    ensures ShallowEqual(Obj(1, map[Name("a") := Bool(true)]), Obj(2, map[Name("a") := Bool(true)]))
    ensures !ShallowEqual(Obj(1, map[Name("a") := Bool(false), Name("test") := Bool(false)]), Obj(2, map[Name("a") := Bool(true)]))
    ensures !ShallowEqual(Obj(1, map[Name("a") := Bool(false), Name("test") := Bool(false)]), Undefined)
  {
    assert Keys(Obj(1, map[Name("a") := Bool(true)])) == {Name("a")};
    assert |map[Name("a") := Bool(false), Name("test") := Bool(false)]| == 2 by {
      assert map[Name("a") := Bool(false), Name("test") := Bool(false)].Keys == {Name("a"), Name("test")};
    }
  }
}

=== FILE: js_value.dfy ===
/** JavaScript values as the reactive core sees them: primitives compared by
    value, objects and arrays compared by an identity tag. */
module JsValue {

  /** A property key. Array-index keys are always written `Index`, so that
      `Name` holds only the non-numeric string keys. */
  datatype Key = Index(i: nat) | Name(s: string)

  /** A JavaScript value. `Obj` and `Arr` carry an identity tag `id`: two
      references with the same tag denote the same heap object. Numbers are
      integers: NaN, infinities and fractions are not modelled. */
  datatype Value =
    | Undefined
    | Null
    | Bool(b: bool)
    | Num(n: int)
    | Str(s: string)
    | Obj(id: nat, props: map<Key, Value>)
    | Arr(id: nat, elems: seq<Value>)

  /** JavaScript truthiness: `undefined`, `null`, `false`, `0` and `""` are the
      falsy values; every object and array is truthy, empty or not. */
  predicate Truthy(v: Value) {
    match v
    case Undefined => false
    case Null => false
    case Bool(b) => b
    case Num(n) => n != 0
    case Str(s) => s != ""
    case Obj(_, _) => true
    case Arr(_, _) => true
  }

  /** `typeof v === "object"`: true for objects, arrays and also `null`. */
  predicate IsObjectTyped(v: Value) {
    v.Null? || v.Obj? || v.Arr?
  }

  /** A value that lives on the heap and is compared by identity. */
  predicate IsReference(v: Value) {
    v.Obj? || v.Arr?
  }

  /** The `===` operator. */
  predicate StrictEq(a: Value, b: Value) {
    match a
    case Undefined => b.Undefined?
    case Null => b.Null?
    case Bool(x) => b.Bool? && b.b == x
    case Num(x) => b.Num? && b.n == x
    case Str(x) => b.Str? && b.s == x
    case Obj(i, _) => b.Obj? && b.id == i
    case Arr(i, _) => b.Arr? && b.id == i
  }

  /** Property read `v[k]`. Arrays and strings expose their elements under
      `Index` keys and their size under "length"; primitives other than strings
      have no own properties. Reading from `undefined` or `null` yields
      `undefined` here (JavaScript would throw, or `?.` would yield `undefined`). */
  function Get(v: Value, k: Key): Value {
    match v
    case Obj(_, p) => if k in p then p[k] else Undefined
    case Arr(_, e) =>
      if k.Index? && k.i < |e| then e[k.i]
      else if k == Name("length") then Num(|e|)
      else Undefined
    case Str(s) =>
      if k.Index? && k.i < |s| then Str([s[k.i]])
      else if k == Name("length") then Num(|s|)
      else Undefined
    case _ => Undefined
  }

  /** `v[i]` for an integer index; a negative index names no element. */
  function At(v: Value, i: int): Value {
    if i < 0 then Undefined else Get(v, Index(i))
  }

  /** The keys `Object.keys(v)` lists. */
  function Keys(v: Value): set<Key> {
    match v
    case Obj(_, p) => p.Keys
    case Arr(_, e) => set i | 0 <= i < |e| :: Index(i)
    case Str(s) => set i | 0 <= i < |s| :: Index(i)
    case _ => {}
  }

  /** `Object.keys(v).length`. */
  function KeyCount(v: Value): nat {
    match v
    case Obj(_, p) => |p|
    case Arr(_, e) => |e|
    case Str(s) => |s|
    case _ => 0
  }

  /** The set of the first `n` index keys. */
  function IndexKeys(n: nat): set<Key> {
    set i | 0 <= i < n :: Index(i)
  }

  lemma {:induction false} IndexKeysCount(n: nat)
    ensures |IndexKeys(n)| == n
  {
    if n > 0 {
      IndexKeysCount(n - 1);
      assert IndexKeys(n) == IndexKeys(n - 1) + {Index(n - 1)};
      assert Index(n - 1) !in IndexKeys(n - 1);
    } else {
      assert IndexKeys(0) == {};
    }
  }

  /** `Object.keys(v).length` is the number of distinct keys `Object.keys` lists. */
  lemma KeyCountIsCardinality(v: Value)
    ensures |Keys(v)| == KeyCount(v)
  {
    match v
    case Arr(_, e) =>
      assert Keys(v) == IndexKeys(|e|);
      IndexKeysCount(|e|);
    case Str(s) =>
      assert Keys(v) == IndexKeys(|s|);
      IndexKeysCount(|s|);
    case _ =>
  }

  /** `===` is an equivalence: reflexive, symmetric and transitive (NaN, the
      one exception in JavaScript, is not a modelled number). */
  lemma StrictEqIsEquivalence(a: Value, b: Value, c: Value)
    ensures StrictEq(a, a)
    ensures StrictEq(a, b) <==> StrictEq(b, a)
    ensures StrictEq(a, b) && StrictEq(b, c) ==> StrictEq(a, c)
  {
  }
}

/** An optional value. */
module Optional {
  datatype Option<+T> = None | Some(value: T)
}

=== FILE: mutable_selectable.dfy ===
/** The per-store reactive container of the core package, `MutableSelectable`:
    a state, a version counter, two tiers of listeners, lazily memoised
    computed values, and the module-level `flushing` token that makes a
    `flush(callback)` the one place where a batch of changes is drained.

    Callbacks are data. A listener is either a consumer callback passed to
    `subscribe` (`Plain`) or the closure `select` subscribes (`Watch`), which
    carries the closure's captured `prev`. A selection's `onChange` is either
    a consumer callback (`Notify`), which may react to a truthy argument by
    calling `set` on the store, or the closure `compute` installs
    (`Invalidate`). Reentrancy is bounded by `fuel`: every nested call of
    `set`, `flush`, a drain or a listener consumes one unit, and `None` is the
    outcome of running out. */
module MutableSelectable {
  import opened JsValue
  import opened Optional
  import opened Selector
  import opened Equality
  import opened Updater
  import opened Trace
  import opened OrderedSet

  // ---------------------------------------------------------------------------
  // Tiers and withStore

  /** The two listener tiers, `meta.stores.computations` and
      `meta.stores.subscriptions`. */
  datatype Tier = Computations | Subscriptions

  /** `meta.storeNames`: a drain visits the tiers in this order. */
  const TierOrder: seq<Tier> := [Computations, Subscriptions]

  function TierName(t: Tier): string {
    match t
    case Computations => "computations"
    case Subscriptions => "subscriptions"
  }

  /** The tier `meta.stores[name]` denotes, for the two names the object
      was built with. */
  function TierNamed(name: string): (r: Option<Tier>)
    ensures r.Some? ==> TierName(r.value) == name
    ensures r.None? ==> forall t :: TierName(t) != name
  {
    if name == "computations" then Some(Computations)
    else if name == "subscriptions" then Some(Subscriptions)
    else None
  }

  lemma TierNameRoundTrip(t: Tier)
    ensures TierNamed(TierName(t)) == Some(t)
  {
  }

  /** An operation's outcome: a value, or the error it throws. */
  datatype Result<T> = Ok(value: T) | Failure(message: string)

  /** The members every object literal inherits from `Object.prototype`; each
      of them is a truthy value. */
  const InheritedNames: set<string> := {
    "constructor", "hasOwnProperty", "isPrototypeOf", "propertyIsEnumerable",
    "toLocaleString", "toString", "valueOf", "__defineGetter__",
    "__defineSetter__", "__lookupGetter__", "__lookupSetter__", "__proto__"}

  /** The guard of `withStore` as written: `this.meta.stores[name]` is an
      ordinary property read, so it is truthy for the two tier names and also
      for every inherited member. */
  predicate GuardPassesAsWritten(name: string) {
    name == "computations" || name == "subscriptions" || name in InheritedNames
  }

  /** `withStore(name, callback)` as written, up to the call of `callback`:
      the name `currentStore` holds while `callback` runs, or the thrown error. */
  function WithStoreAsWritten(name: string): (r: Result<string>)
    ensures r.Ok? <==> GuardPassesAsWritten(name)
    ensures r.Ok? ==> r.value == name
    ensures r.Failure? ==> r.message == "Store " + name + " does not exist"
  {
    if !GuardPassesAsWritten(name) then Failure("Store " + name + " does not exist")
    else Ok(name)
  }

  /** What `subscribe` finds under `meta.stores[currentStore]`: a tier, or,
      for an inherited member, a function with no `add` method, on which the
      call `store.add(callback)` throws a TypeError. */
  function SubscribeTargetAsWritten(current: string): (r: Result<Tier>)
    requires GuardPassesAsWritten(current)
    ensures r.Ok? <==> TierNamed(current).Some?
    ensures r.Ok? ==> r.value == TierNamed(current).value
  {
    match TierNamed(current)
    case Some(t) => Ok(t)
    case None => Failure("store.add is not a function")
  }

  /** The guard lets an inherited name through: `withStore("toString", cb)`
      switches to a tier that does not exist, and the error surfaces only
      when `cb` subscribes, as a TypeError instead of the guard's message. */
  lemma InheritedNameEscapesGuard()
    ensures WithStoreAsWritten("toString") == Ok("toString")
    ensures TierNamed("toString").None?
    ensures SubscribeTargetAsWritten("toString").Failure?
    ensures SubscribeTargetAsWritten("toString").message != "Store toString does not exist"
  {
    assert GuardPassesAsWritten("toString");
  }

  // ---------------------------------------------------------------------------
  // The store

  /** What a selection calls when its slice changes. `Notify(callback,
      reaction)` is a consumer callback: it is recorded in the trace, and when
      its first argument is truthy and it has a `reaction`, it calls
      `set(reaction)` on the store. `Invalidate(cell)` is the closure
      `compute` passes, which stores the slice in the cell and marks the
      cell's value stale. */
  datatype Handler =
    | Notify(callback: nat, reaction: Option<Update>)
    | Invalidate(cell: nat)

  /** A subscribed callback. `Plain(callback)` is a consumer callback passed
      to `subscribe`. `Watch` is the closure `select` subscribes: its
      selector, its `onChange`, its equality check, whether `onChange`
      receives the previous slice (`memo`, decided in the source by
      `onChange.length`), and its captured `prev`. */
  datatype Listener =
    | Plain(callback: nat)
    | Watch(selector: Expr, onChange: Handler, check: EqualityCheck, memo: bool, prev: Value)

  /** The closure state of a `compute` getter: the mapper, the last slice
      the selection delivered (`selected`), the cached result and the
      `created` flag. */
  datatype Cell = Cell(mapper: Expr, selected: Value, value: Value, created: bool)

  /** One store and the module-level flush token. `current` is
      `meta.currentStore`; `listeners` gives the behaviour of each callback
      identity in the tiers; `cells` holds the closure state of the `compute`
      getters; `nextId` is the next unused object identity; `trace` records
      the calls made to consumer code. */
  datatype World = World(
    state: Value,
    version: int,
    computations: seq<nat>,
    subscriptions: seq<nat>,
    current: Tier,
    listeners: map<nat, Listener>,
    cells: map<nat, Cell>,
    flushing: Option<nat>,
    nextId: nat,
    trace: seq<Event>)

  /** `new MutableSelectable(initialState)`, with the flush token free. */
  function Fresh(initialState: Value, nextId: nat): (w: World)
    ensures w.state == initialState && w.version == 0
    ensures w.computations == [] && w.subscriptions == [] && w.current == Subscriptions
    ensures w.flushing.None? && w.trace == []
  {
    World(initialState, 0, [], [], Subscriptions, map[], map[], None, nextId, [])
  }

  function Members(w: World, t: Tier): seq<nat> {
    match t
    case Computations => w.computations
    case Subscriptions => w.subscriptions
  }

  function WithMembers(w: World, t: Tier, q: seq<nat>): (r: World)
    ensures Members(r, t) == q
    ensures forall u :: u != t ==> Members(r, u) == Members(w, u)
    ensures r.listeners == w.listeners && r.state == w.state && r.trace == w.trace
  {
    match t
    case Computations => w.(computations := q)
    case Subscriptions => w.(subscriptions := q)
  }

  /** What the disposer `subscribe` returns removes: its callback, from the
      tier that was current when it subscribed. */
  datatype Disposer = Disposer(tier: Tier, id: nat)

  /** `subscribe(callback)`: adds the callback identity `id`, whose behaviour
      is `l`, to the current tier (a set: a second `add` changes nothing). */
  function Subscribe(w: World, id: nat, l: Listener): (r: (World, Disposer))
    ensures r.1 == Disposer(w.current, id)
    ensures forall x :: x in Members(r.0, w.current) <==> x in Members(w, w.current) || x == id
    ensures forall t :: t != w.current ==> Members(r.0, t) == Members(w, t)
    ensures r.0.listeners == w.listeners[id := l]
    ensures r.0.state == w.state && r.0.version == w.version && r.0.trace == w.trace
    ensures r.0.current == w.current && r.0.flushing == w.flushing
  {
    var w1 := WithMembers(w, w.current, Insert(Members(w, w.current), id));
    (w1.(listeners := w.listeners[id := l]), Disposer(w.current, id))
  }

  /** Calling the disposer: `store.delete(callback)` on the captured tier. */
  function Unsubscribe(w: World, d: Disposer): (r: World)
    ensures forall x :: x in Members(r, d.tier) <==> x in Members(w, d.tier) && x != d.id
    ensures forall t :: t != d.tier ==> Members(r, t) == Members(w, t)
    ensures r.listeners == w.listeners && r.state == w.state && r.trace == w.trace
  {
    WithMembers(w, d.tier, Remove(Members(w, d.tier), d.id))
  }

  /** `destroy()`: clears both tiers. */
  function Destroy(w: World): (r: World)
    ensures forall t :: Members(r, t) == []
    ensures r.state == w.state && r.version == w.version && r.trace == w.trace
    ensures r.listeners == w.listeners && r.flushing == w.flushing
  {
    w.(computations := [], subscriptions := [])
  }

  /** `withStore(name, callback)`, with the guard admitting exactly the two
      tier names: runs `body` with that tier current and restores the
      previous one afterwards. */
  function WithStore(w: World, name: string, body: World -> Option<World>): (r: Result<Option<World>>)
    ensures r.Failure? <==> TierNamed(name).None?
    ensures r.Failure? ==> r.message == "Store " + name + " does not exist"
    ensures r.Ok? && r.value.Some? ==> r.value.value.current == w.current
    ensures r.Ok? ==> (r.value.Some? <==> body(w.(current := TierNamed(name).value)).Some?)
  {
    match TierNamed(name)
    case None => Failure("Store " + name + " does not exist")
    case Some(t) =>
      var inner := body(w.(current := t));
      Ok(if inner.Some? then Some(inner.value.(current := w.current)) else None)
  }

  // ---------------------------------------------------------------------------
  // set, flush and the drain

  /** The first half of `set(updater)`: calls the updater on the state, keeps
      the (possibly mutated) state when the updater returns `undefined` and
      adopts the returned value otherwise, and counts the version up. */
  function Assign(w: World, u: Update): (r: World)
    ensures r.version == w.version + 1
    ensures Apply(u, w.state).returned.Undefined? ==> StrictEq(r.state, w.state)
    ensures !Apply(u, w.state).returned.Undefined? ==> r.state == Apply(u, w.state).returned
    ensures r == w.(state := r.state, version := r.version)
  {
    var o := Apply(u, w.state);
    w.(state := if o.returned.Undefined? then o.mutated else o.returned, version := w.version + 1)
  }

  /** A statement of a callback passed to `flush`. */
  datatype Step =
    | SetStep(update: Update)
    | FlushStep(callback: Option<FlushCallback>)

  /** A callback passed to `flush`, with its identity as a function object. */
  datatype FlushCallback = FlushCallback(token: nat, body: seq<Step>)

  /** What an operation may change: the state, the version (upwards only),
      the flush token, the listeners' captured values, the cells' contents
      and the trace (by appending). The tiers, the current tier and the sets
      of listener and cell identities stay as they are. */
  predicate Grows(w: World, v: World) {
    && v.version >= w.version
    && v.computations == w.computations && v.subscriptions == w.subscriptions
    && v.current == w.current
    && v.listeners.Keys == w.listeners.Keys && v.cells.Keys == w.cells.Keys
    && v.nextId >= w.nextId
    && w.trace <= v.trace
  }

  /** `set(updater)`: assign, then `flush()`. */
  function Set(w: World, u: Update, fuel: nat): (r: Option<World>)
    ensures r.Some? ==> Grows(w, r.value) && r.value.version > w.version
    ensures r.Some? ==> r.value.flushing == w.flushing
    decreases fuel, 0
  {
    if fuel == 0 then None else Flush(Assign(w, u), None, fuel - 1)
  }

  /** `flush(callback?)`: a callback takes the token if it is free and runs;
      then the tiers are drained if the token is free or held by this very
      callback, after releasing it. */
  function Flush(w: World, cb: Option<FlushCallback>, fuel: nat): (r: Option<World>)
    ensures r.Some? ==> Grows(w, r.value)
    ensures r.Some? ==> r.value.flushing == w.flushing || r.value.flushing.None?
    ensures r.Some? && (w.flushing.None? || cb.None?) ==> r.value.flushing == w.flushing
    decreases fuel, 0
  {
    if fuel == 0 then None
    else
      var w1 := if cb.Some? && w.flushing.None? then w.(flushing := Some(cb.value.token)) else w;
      var w2 := if cb.Some? then RunSteps(w1, cb.value.body, fuel - 1) else Some(w1);
      match w2
      case None => None
      case Some(w3) =>
        if w3.flushing.None? || (cb.Some? && w3.flushing == Some(cb.value.token)) then
          Drain(w3.(flushing := None), fuel - 1)
        else Some(w3)
  }

  /** Runs the statements of a flush callback in order. */
  function RunSteps(w: World, steps: seq<Step>, fuel: nat): (r: Option<World>)
    ensures r.Some? ==> Grows(w, r.value)
    ensures r.Some? ==> r.value.flushing == w.flushing || r.value.flushing.None?
    decreases fuel, |steps|
  {
    if steps == [] then Some(w)
    else if fuel == 0 then None
    else
      var w1 := match steps[0]
        case SetStep(u) => Set(w, u, fuel - 1)
        case FlushStep(cb) => Flush(w, cb, fuel - 1);
      if w1.None? then None else RunSteps(w1.value, steps[1..], fuel)
  }

  /** The drain of `flush`: every computations listener, then every
      subscriptions listener, each called with the state as it is when its
      turn comes. */
  function Drain(w: World, fuel: nat): (r: Option<World>)
    ensures r.Some? ==> Grows(w, r.value) && r.value.flushing == w.flushing
    decreases fuel, 0
  {
    if fuel == 0 then None
    else
      match RunTier(w, w.computations, fuel - 1)
      case None => None
      case Some(w1) => RunTier(w1, w1.subscriptions, fuel - 1)
  }

  /** Calls the listeners `ids` in order. */
  function RunTier(w: World, ids: seq<nat>, fuel: nat): (r: Option<World>)
    ensures r.Some? ==> Grows(w, r.value) && r.value.flushing == w.flushing
    decreases fuel, |ids|
  {
    if ids == [] then Some(w)
    else if fuel == 0 then None
    else
      match CallListener(w, ids[0], fuel - 1)
      case None => None
      case Some(w1) => RunTier(w1, ids[1..], fuel)
  }

  /** `listener(this.state)`. A consumer callback is recorded. A selection's
      closure evaluates its selector, and unless the equality check holds
      between `prev` and the new slice, stores the slice as `prev` and calls
      `onChange` with the slice, followed by the old `prev` when `memo`. */
  function CallListener(w: World, id: nat, fuel: nat): (r: Option<World>)
    ensures r.Some? ==> Grows(w, r.value) && r.value.flushing == w.flushing
    decreases fuel, 0
  {
    if id !in w.listeners then Some(w)
    else
      match w.listeners[id]
      case Plain(cb) => Some(w.(trace := w.trace + [Called(cb, [w.state])]))
      case Watch(sel, h, check, memo, prev) =>
        var ev := Eval(sel, w.state, map[], w.nextId);
        var w1 := w.(nextId := ev.nextId, trace := w.trace + [Selected(id)]);
        if Check(check, prev, ev.value) then Some(w1)
        else if fuel == 0 then None
        else
          var w2 := w1.(listeners := w1.listeners[id := Watch(sel, h, check, memo, ev.value)]);
          CallHandler(w2, h, if memo then [ev.value, prev] else [ev.value], fuel - 1)
  }

  /** Calls a selection's `onChange` with `args`. */
  function CallHandler(w: World, h: Handler, args: seq<Value>, fuel: nat): (r: Option<World>)
    requires args != []
    ensures r.Some? ==> Grows(w, r.value) && r.value.flushing == w.flushing
    decreases fuel, 0
  {
    match h
    case Notify(cb, reaction) =>
      var w1 := w.(trace := w.trace + [Called(cb, args)]);
      if reaction.None? || !Truthy(args[0]) then Some(w1)
      else if fuel == 0 then None
      else Set(w1, reaction.value, fuel - 1)
    case Invalidate(c) =>
      if c in w.cells then Some(w.(cells := w.cells[c := w.cells[c].(selected := args[0], created := false)]))
      else Some(w)
  }

  /** The `update` method of a disposer: calls its callback with the current
      state. */
  function Refresh(w: World, d: Disposer, fuel: nat): (r: Option<World>)
    ensures r.Some? ==> Grows(w, r.value) && r.value.flushing == w.flushing
  {
    CallListener(w, d.id, fuel)
  }

  // ---------------------------------------------------------------------------
  // select and compute

  /** `select(selector, onChange, equalityCheck)` with `id` the identity of
      the closure it subscribes: evaluates the selector, calls `onChange` at
      once with the slice (and `undefined` when `memo`), then subscribes the
      closure to the current tier with the slice as `prev`. The disposer it
      returns is `Disposer(w.current, id)`. */
  function Select(w: World, id: nat, selector: Expr, onChange: Handler, check: EqualityCheck, memo: bool, fuel: nat): (r: Option<World>)
    ensures r.Some? ==> id in Members(r.value, w.current) && id in r.value.listeners
    ensures r.Some? ==> r.value.listeners[id] == Watch(selector, onChange, check, memo, Eval(selector, w.state, map[], w.nextId).value)
    ensures r.Some? ==> r.value.current == w.current
    ensures r.Some? ==> forall t :: t != w.current ==> Members(r.value, t) == Members(w, t)
  {
    var ev := Eval(selector, w.state, map[], w.nextId);
    var w1 := w.(nextId := ev.nextId, trace := w.trace + [Selected(id)]);
    match CallHandler(w1, onChange, if memo then [ev.value, Undefined] else [ev.value], fuel)
    case None => None
    case Some(w2) => Some(Subscribe(w2, id, Watch(selector, onChange, check, memo, ev.value)).0)
  }

  /** `compute(selector, mapper)` with `cell` the getter's closure state and
      `id` the selection's closure: a selection in the computations tier whose
      `onChange` (one parameter, so no `memo`) invalidates the cell. The
      getter is `Getter(_, cell)`, and `stop` is `Disposer(Computations, id)`. */
  function Compute(w: World, cell: nat, id: nat, selector: Expr, mapper: Expr, fuel: nat): (r: Option<World>)
    ensures r.Some? ==> id in r.value.computations && r.value.current == w.current
    ensures r.Some? ==> r.value.subscriptions == w.subscriptions
    ensures r.Some? ==> cell in r.value.cells && r.value.cells[cell].mapper == mapper
    ensures r.Some? ==> r.value.cells[cell].selected == Eval(selector, w.state, map[], w.nextId).value
    ensures r.Some? ==> !r.value.cells[cell].created
  {
    var w1 := w.(cells := w.cells[cell := Cell(mapper, Undefined, Undefined, false)]);
    var body := (v: World) => Select(v, id, selector, Invalidate(cell), StrictCheck, false, fuel);
    var r := WithStore(w1, "computations", body);
    assert r.Ok?;
    r.value
  }

  /** The getter `compute` returns: runs the mapper on the last delivered
      slice unless the cached value is still valid, and returns the value. */
  function Getter(w: World, cell: nat): (r: (World, Value))
    requires cell in w.cells
    ensures cell in r.0.cells && r.0.cells[cell].created && r.1 == r.0.cells[cell].value
    ensures w.cells[cell].created ==> r == (w, w.cells[cell].value)
    ensures !w.cells[cell].created ==>
      && r.1 == Eval(w.cells[cell].mapper, w.cells[cell].selected, map[], w.nextId).value
      && r.0.trace == w.trace + [Mapped(cell)]
    ensures r.0.cells[cell].selected == w.cells[cell].selected && r.0.cells[cell].mapper == w.cells[cell].mapper
    ensures Grows(w, r.0) && r.0.state == w.state && r.0.flushing == w.flushing
  {
    var c := w.cells[cell];
    if c.created then (w, c.value)
    else
      var ev := Eval(c.mapper, c.selected, map[], w.nextId);
      var c1 := c.(value := ev.value, created := true);
      (w.(cells := w.cells[cell := c1], nextId := ev.nextId, trace := w.trace + [Mapped(cell)]), ev.value)
  }
}

=== FILE: select_scenarios.dfy ===
/** The call traces the select package's tests describe, derived from the
    engine's contracts. Callback ids: `7` is the test's `callback` mock. */
module SelectScenarios {
  import opened JsValue
  import opened Optional
  import opened Selector
  import opened Equality
  import opened Updater
  import opened Trace
  import opened OrderedSet
  import opened SelectStore

  /** Draining a queue of one subscriber runs that subscriber once. */
  lemma DrainOne(e: Engine, sid: nat)
    requires Valid(e) && e.notifiers == [sid]
    ensures sid in e.bindings
    ensures Drain(e) == Drain(Subscriber(e.(notifiers := []), sid))
    ensures Subscriber(e.(notifiers := []), sid).notifiers == []
  {
  }

  /** An engine holding only the counter store `1`, with nothing selected yet. */
  predicate FreshCounter(e: Engine, start: int) {
    && Valid(e) && e.flushing.None? && e.notifiers == [] && e.bindings == map[]
    && e.stores.Keys == {1} && States(e.stores) == map[1 := Num(start)] && SubsMap(e.stores) == map[1 := []]
  }

  /** An engine holding the counter store `1` and selection `100` of its
      state with handler `7` and the default `===` check, which has
      accepted `prev`. */
  predicate SelectedCounter(e: Engine, count: int, prev: int) {
    && Valid(e) && e.flushing.None? && e.notifiers == []
    && e.stores.Keys == {1} && States(e.stores) == map[1 := Num(count)] && SubsMap(e.stores) == map[1 := [100]]
    && e.bindings.Keys == {100}
    && e.bindings[100] == Binding(Read(1), StrictCheck, Num(prev), {1}, true, [7])
  }

  /** The counter selection about to run: store `1` holds `count`, and the
      binding has accepted `prev` and is subscribed to store `1` or to
      nothing at all. */
  predicate CounterReady(e: Engine, count: int, prev: Value, subscribed: bool) {
    && Valid(e) && e.flushing.None? && e.notifiers == []
    && e.stores.Keys == {1} && e.bindings.Keys == {100}
    && e.stores[1].state == Num(count) && e.stores[1].subs == (if subscribed then [100] else [])
    && e.bindings[100] == Binding(Read(1), StrictCheck, prev, if subscribed then {1} else {}, subscribed, [7])
  }

  /** One run of the counter selection's subscriber when the count differs
      from the accepted slice: it calls the handler with the count and the
      old slice, accepts the count, and stays subscribed to store `1` only. */
  lemma CounterSubscriberRuns(e: Engine, count: int, prev: Value, subscribed: bool)
    requires CounterReady(e, count, prev, subscribed) && !StrictEq(Num(count), prev)
    ensures var r := Subscriber(e, 100);
      && SelectedCounter(r, count, count)
      && r.trace == e.trace + [Called(7, [Num(count), prev])]
  {
    SingleStore(e.stores);
    assert StateOf(States(e.stores), 1) == Num(count);
    var ev := Eval(Read(1), Undefined, States(e.stores), e.nextId);
    assert ev.value == Num(count) && ev.readSet == {1};
    assert !Check(StrictCheck, ev.value, prev);
    assert Notifications([7], ev.value, prev) == [Called(7, [Num(count), prev])];
    SubscriberCallsOnChange(e, 100);
    SubscriberFollowsReads(e, 100);
    var r := Subscriber(e, 100);
    assert Resubscribed(e.stores[1].subs, 100, true) == [100];
    SingleStore(r.stores);
  }

  /** A fresh counter with the selection registered is ready to run it. */
  lemma FreshCounterReady(e: Engine, start: int)
    requires FreshCounter(e, start)
    ensures CounterReady(WithBinding(e, 100, NewBinding(Read(1), Some(7), StrictCheck)), start, Undefined, false)
  {
    SingleStore(e.stores);
  }

  /** `select(() => store.state, callback)` calls the handler once, at once,
      with the current count and `undefined`. */
  lemma SelectCallsHandlerImmediately(e: Engine, start: int) returns (r: Engine)
    requires FreshCounter(e, start)
    ensures r == Select(e, 100, Read(1), Some(7), StrictCheck)
    ensures SelectedCounter(r, start, start)
    ensures r.trace == e.trace + [Called(7, [Num(start), Undefined])]
  {
    FreshCounterReady(e, start);
    var e1 := WithBinding(e, 100, NewBinding(Read(1), Some(7), StrictCheck));
    CounterSubscriberRuns(e1, start, Undefined, false);
    r := Subscriber(e1, 100);
  }

  /** The state and subscriber maps of an engine with the single store `1`. */
  lemma SingleStore(stores: map<nat, MutStore>)
    requires stores.Keys == {1}
    ensures SubsMap(stores) == map[1 := stores[1].subs]
    ensures States(stores) == map[1 := stores[1].state]
    ensures SubsMap(stores)[1] == stores[1].subs && States(stores)[1] == stores[1].state
  {
  }

  /** `n` increments of store `1`. */
  function Increments(n: nat): (r: seq<Command>)
    ensures |r| == n && SetsOnly(r) && Targets(r, {1})
  {
    if n == 0 then [] else [SetCmd(1, Call(Increment(1)))] + Increments(n - 1)
  }

  lemma {:induction false} IncrementsCount(start: int, n: nat)
    ensures ApplySets(map[1 := Num(start)], Increments(n)) == map[1 := Num(start + n)]
    decreases n
  {
    if n > 0 {
      var m := map[1 := Num(start)];
      assert Modify(Num(start), Call(Increment(1))) == Num(start + 1);
      assert m[1 := Num(start + 1)] == map[1 := Num(start + 1)];
      IncrementsCount(start + 1, n - 1);
    }
  }

  /** However many increments run, the selection is queued once. */
  lemma {:induction false} IncrementsQueueOnce(q: seq<nat>, n: nat)
    requires q == [] || q == [100]
    requires n > 0 || q == [100]
    ensures QueueSets(q, map[1 := [100]], Increments(n)) == [100]
    decreases n
  {
    if n > 0 {
      var subs := map[1 := [100]];
      var cs := Increments(n);
      assert cs[0] == SetCmd(1, Call(Increment(1))) && cs[1..] == Increments(n - 1);
      assert QueueSets(q, subs, cs) == QueueSets(InsertAll(q, [100]), subs, cs[1..]);
      assert InsertAll(q, [100]) == [100];
      IncrementsQueueOnce([100], n - 1);
    }
  }

  /** While `flush` holds the token, `n` increments bring the store from
      `start` to `start + n` and queue the selection once, calling nothing. */
  lemma SetsWhileHeld(e: Engine, count: int, prev: int, n: nat) returns (e2: Engine)
    requires SelectedCounter(e, count, prev) && n > 0
    ensures e2 == RunAll(WithToken(e, Some(50)), Increments(n))
    ensures Valid(e2) && e2.flushing == Some(50)
    ensures e2.trace == e.trace
    ensures CounterQueued(WithToken(e2, None), count + n, prev)
  {
    var e1 := WithToken(e, Some(50));
    HeldTokenDefers(e1, Increments(n));
    e2 := RunAll(e1, Increments(n));
    IncrementsCount(count, n);
    IncrementsQueueOnce([], n);
    SingleStore(e2.stores);
  }

  /** `n > 0` increments inside one `flush` run the selection once, after
      the callback: one call, with the final count and the accepted one. */
  lemma FlushOfIncrements(e: Engine, count: int, prev: int, n: nat) returns (r: Engine)
    requires SelectedCounter(e, count, prev) && n > 0 && count + n != prev
    ensures r == Flush(e, Some(Callback(50, Increments(n))))
    ensures SelectedCounter(r, count + n, count + n)
    ensures r.trace == e.trace + [Called(7, [Num(count + n), Num(prev)])]
  {
    r := DrainAfterIncrements(e, count, prev, n);
    FlushOfIncrementsDrainsOnce(e, count, prev, n);
  }

  /** The flush holding the token over the increments drains once, at its end. */
  lemma FlushOfIncrementsDrainsOnce(e: Engine, count: int, prev: int, n: nat)
    requires SelectedCounter(e, count, prev) && n > 0
    ensures Flush(e, Some(Callback(50, Increments(n)))) == Drain(WithToken(RunAll(WithToken(e, Some(50)), Increments(n)), None))
  {
    var e2 := SetsWhileHeld(e, count, prev, n);
    var e2' := FlushWithFreeToken(e, Callback(50, Increments(n)));
  }

  /** The drain after the increments runs the selection once. */
  lemma DrainAfterIncrements(e: Engine, count: int, prev: int, n: nat) returns (r: Engine)
    requires SelectedCounter(e, count, prev) && n > 0 && count + n != prev
    ensures r == Drain(WithToken(RunAll(WithToken(e, Some(50)), Increments(n)), None))
    ensures SelectedCounter(r, count + n, count + n)
    ensures r.trace == e.trace + [Called(7, [Num(count + n), Num(prev)])]
  {
    var e2 := SetsWhileHeld(e, count, prev, n);
    var e3 := WithToken(e2, None);
    r := DrainCounter(e3, count + n, prev);
  }

  /** The counter selection queued, with the count changed since it last ran. */
  predicate CounterQueued(e: Engine, count: int, prev: int) {
    && Valid(e) && e.flushing.None? && e.notifiers == [100]
    && e.stores.Keys == {1} && e.bindings.Keys == {100}
    && e.stores[1].state == Num(count) && e.stores[1].subs == [100]
    && e.bindings[100] == Binding(Read(1), StrictCheck, Num(prev), {1}, true, [7])
  }

  /** Draining a queue holding only the counter selection runs it once. */
  lemma DrainCounter(e: Engine, count: int, prev: int) returns (r: Engine)
    requires CounterQueued(e, count, prev) && count != prev
    ensures r == Drain(e)
    ensures SelectedCounter(r, count, count)
    ensures r.trace == e.trace + [Called(7, [Num(count), Num(prev)])]
  {
    r := DequeuedRuns(e, count, prev);
    DrainOne(e, 100);
    assert Drain(r) == r;
  }

  /** The queued counter selection, taken off the queue, runs once. */
  lemma DequeuedRuns(e: Engine, count: int, prev: int) returns (r: Engine)
    requires CounterQueued(e, count, prev) && count != prev
    ensures r == Subscriber(e.(notifiers := []), 100)
    ensures SelectedCounter(r, count, count)
    ensures r.trace == e.trace + [Called(7, [Num(count), Num(prev)])]
  {
    var e4 := e.(notifiers := []);
    assert CounterReady(e4, count, Num(prev), true);
    CounterSubscriberRuns(e4, count, Num(prev), true);
    r := Subscriber(e4, 100);
  }

  /** The nesting scenario: `select` calls the handler with the count
      `start` (`0` in the package's test); `n > 0` sets inside one `flush`
      (four in the test) leave the store at `start + n` and call the handler
      once more, with `start + n` and `start`. */
  lemma OnlyFlushesOnceWhenNesting(e: Engine, start: int, n: nat) returns (r: Engine)
    requires FreshCounter(e, start) && n > 0
    ensures r == Flush(Select(e, 100, Read(1), Some(7), StrictCheck), Some(Callback(50, Increments(n))))
    ensures SelectedCounter(r, start + n, start + n)
    ensures r.trace == e.trace + [Called(7, [Num(start), Undefined])] + [Called(7, [Num(start + n), Num(start)])]
  {
    var s := SelectCallsHandlerImmediately(e, start);
    r := FlushOfIncrements(s, start, start, n);
  }
}

=== FILE: select_store.dfy ===
/** Sequences used as insertion-ordered sets, the way the engine's JavaScript
    `Set`s behave. */
module OrderedSet {

  predicate NoDup(q: seq<nat>) {
    forall i, j :: 0 <= i < j < |q| ==> q[i] != q[j]
  }

  lemma NoDupTail(q: seq<nat>)
    requires NoDup(q) && q != []
    ensures NoDup(q[1..]) && q[0] !in q[1..]
  {
  }

  /** `set.add(x)`: appends `x` unless it is already present. */
  function Insert(q: seq<nat>, x: nat): (r: seq<nat>)
    ensures forall y :: y in r <==> y in q || y == x
    ensures NoDup(q) ==> NoDup(r)
    ensures |q| <= |r| && r[..|q|] == q
  {
    if x in q then q else q + [x]
  }

  /** `set.delete(x)`: drops `x`, keeping the order of the rest. */
  function Remove(q: seq<nat>, x: nat): (r: seq<nat>)
    ensures forall y :: y in r <==> y in q && y != x
    ensures NoDup(q) ==> NoDup(r)
    ensures |r| <= |q|
    ensures x !in q ==> r == q
  {
    if q == [] then []
    else if q[0] == x then Remove(q[1..], x)
    else
      var rest := Remove(q[1..], x);
      assert NoDup(q) ==> q[0] !in q[1..] && NoDup(q[1..]);
      assert forall i :: 0 < i < |[q[0]] + rest| ==> ([q[0]] + rest)[i] == rest[i - 1];
      [q[0]] + rest
  }

  /** Deleting an element that was just added restores the set. */
  lemma {:induction false} RemoveInserted(q: seq<nat>, x: nat)
    requires x !in q
    ensures Remove(Insert(q, x), x) == q
  {
    AppendedRemoved(q, x);
  }

  lemma {:induction false} AppendedRemoved(q: seq<nat>, x: nat)
    requires x !in q
    ensures Remove(q + [x], x) == q
  {
    if q != [] {
      assert (q + [x])[1..] == q[1..] + [x];
      AppendedRemoved(q[1..], x);
    }
  }

  /** Adds every element of `xs`, in order. */
  function InsertAll(q: seq<nat>, xs: seq<nat>): (r: seq<nat>)
    ensures forall y :: y in r <==> y in q || y in xs
    ensures NoDup(q) ==> NoDup(r)
    ensures |q| <= |r| && r[..|q|] == q
    decreases xs
  {
    if xs == [] then q else InsertAll(Insert(q, xs[0]), xs[1..])
  }
}

/** The dependency-tracking engine of the select package: mutable stores,
    `collect`, the flush coordinator and `select`. The module-level mutable
    variables of the source (`depTracking`, `flushing`, `notifiers`) and each
    store's subscriber set are fields of one `Engine` value that every
    operation takes and returns. */
module SelectStore {
  import opened JsValue
  import opened Optional
  import opened Selector
  import opened Equality
  import opened Updater
  import opened Trace
  import opened OrderedSet

  // ---------------------------------------------------------------------------
  // modify

  /** The identity of the exported `EMPTY` object. */
  const EmptyId: nat := 0

  /** `EMPTY`: an empty object an updater returns to ask for `undefined`. */
  const EMPTY: Value := Obj(EmptyId, map[])

  /** A setter passed to `set`: an updater function, or a plain new value. */
  datatype Setter = Call(update: Update) | Plain(v: Value)

  /** `modify(value, modifier)`, with the plain-value branch as evidently
      intended: a plain `EMPTY` clears the state, like an updater returning
      `EMPTY`. The rest of the model uses this definition. */
  function Modify(value: Value, modifier: Setter): Value {
    match modifier
    case Call(u) =>
      var result := Apply(u, value);
      if StrictEq(result.returned, Undefined) then result.mutated
      else if StrictEq(result.returned, EMPTY) then Undefined
      else result.returned
    case Plain(v) =>
      if StrictEq(v, EMPTY) then Undefined else v
  }

  /** `modify(value, modifier)` as written: for a plain value it compares the
      current `value`, not the `modifier`, against `EMPTY`. */
  function ModifyAsWritten(value: Value, modifier: Setter): Value {
    match modifier
    case Call(_) => Modify(value, modifier)
    case Plain(v) => if StrictEq(value, EMPTY) then Undefined else v
  }

  /** The three intents an updater's result can express: keep the (possibly
      mutated) state, set it to `undefined`, or set it to a new value. */
  datatype Intent = Keep | SetUndefined | SetTo(v: Value)

  /** How an updater's return value is read: `undefined` keeps, `EMPTY`
      clears, anything else replaces. */
  function IntentOf(returned: Value): Intent {
    if returned.Undefined? then Keep
    else if returned.Obj? && returned.id == EmptyId then SetUndefined
    else SetTo(returned)
  }

  function Resolve(current: Value, i: Intent): Value {
    match i
    case Keep => current
    case SetUndefined => Undefined
    case SetTo(v) => v
  }

  /** An updater function's result is resolved by its intent: the state
      keeps its identity when nothing is returned, becomes `undefined` on
      `EMPTY`, and becomes the returned value otherwise. */
  lemma ModifyCallResolvesIntent(value: Value, u: Update)
    ensures Modify(value, Call(u)) == Resolve(Apply(u, value).mutated, IntentOf(Apply(u, value).returned))
    ensures IntentOf(Apply(u, value).returned) == Keep ==> StrictEq(Modify(value, Call(u)), value)
  {
  }

  /** As written, a plain setter value replaces the state, except that a
      current state identical to `EMPTY` turns into `undefined` whatever the
      new value is, and a plain `EMPTY` is stored as the sentinel itself,
      where an updater returning `EMPTY` would clear the state. */
  lemma ModifyPlainChecksCurrentValue(value: Value, v: Value)
    ensures !StrictEq(value, EMPTY) ==> ModifyAsWritten(value, Plain(v)) == v
    ensures ModifyAsWritten(EMPTY, Plain(v)) == Undefined
    ensures ModifyAsWritten(EMPTY, Plain(Num(5))) != Modify(EMPTY, Plain(Num(5)))
    ensures value != EMPTY && !StrictEq(value, EMPTY) ==>
      ModifyAsWritten(value, Plain(EMPTY)) == EMPTY != ModifyAsWritten(value, Call(Returning(EMPTY)))
  {
  }

  /** With the corrected branch, a plain setter ignores the current state and
      agrees with the updater that returns the same value, `EMPTY` included;
      only a plain `undefined` differs, as it is stored where an updater's
      `undefined` keeps the state. */
  lemma PlainSetterMatchesUpdater(value: Value, other: Value, v: Value)
    ensures Modify(value, Plain(v)) == Modify(other, Plain(v))
    ensures !v.Undefined? ==> Modify(value, Plain(v)) == Modify(value, Call(Returning(v)))
    ensures Modify(value, Plain(Undefined)) == Undefined
  {
  }

  /** The correction changes exactly two kinds of call, both plain setters:
      a state identical to `EMPTY` given a defined value that is not `EMPTY`,
      and any other state given `EMPTY`. Every updater call, and every other
      plain call, resolves to the same state either way. */
  lemma CorrectionChangesOnlyEmptyCases(value: Value, setter: Setter)
    ensures ModifyAsWritten(value, setter) != Modify(value, setter) <==>
      setter.Plain? && !setter.v.Undefined? && StrictEq(value, EMPTY) != StrictEq(setter.v, EMPTY)
  {
  }

  // ---------------------------------------------------------------------------
  // Engine state

  /** A `MutStore`: its state, its initial state and its subscriber set `SUBS`. */
  datatype MutStore = MutStore(state: Value, initialState: Value, subs: seq<nat>)

  /** The closure state of one `select` call, keyed in the engine by the
      identity of its `subscriber` closure. `stores` is the set `collect`
      refills; `subscribed` tells whether `clearSubscription` is still the
      initial no-op (false) or the disposer `subscribe` returned (true). */
  datatype Binding = Binding(
    selector: Expr,
    check: EqualityCheck,
    prev: Value,
    stores: set<nat>,
    subscribed: bool,
    changers: seq<nat>)

  /** Everything the select package keeps in mutable memory. `runs` and
      `trace` record what happened: the subscribers that ran, and the calls
      made to consumer callbacks ("changers"). `nextId` is the next unused
      object identity. */
  datatype Engine = Engine(
    stores: map<nat, MutStore>,
    tracking: Option<set<nat>>,
    flushing: Option<nat>,
    notifiers: seq<nat>,
    bindings: map<nat, Binding>,
    nextId: nat,
    runs: seq<nat>,
    trace: seq<Event>)

  /** The engine's invariant between two calls from outside: no collection in
      progress; pending notifiers and subscriber sets are duplicate-free and
      name live bindings; a binding sits in a store's `SUBS` only if its last
      evaluation read that store. */
  predicate Valid(e: Engine) {
    && e.tracking.None?
    && NoDup(e.notifiers)
    && (forall sid :: sid in e.notifiers ==> sid in e.bindings && e.bindings[sid].subscribed)
    && (forall id :: id in e.stores ==> NoDup(e.stores[id].subs))
    && (forall id, sid :: id in e.stores && sid in e.stores[id].subs ==>
          sid in e.bindings && e.bindings[sid].subscribed && id in e.bindings[sid].stores)
  }

  /** The current state of every store. */
  function States(stores: map<nat, MutStore>): map<nat, Value> {
    map id | id in stores :: stores[id].state
  }

  /** The subscriber set of every store. */
  function SubsMap(stores: map<nat, MutStore>): map<nat, seq<nat>> {
    map id | id in stores :: stores[id].subs
  }

  /** The engine with no stores, no bindings and nothing pending. */
  function Initial(): (e: Engine)
    ensures Valid(e)
    ensures e.stores == map[] && e.bindings == map[]
    ensures e.tracking.None? && e.flushing.None? && e.notifiers == []
    ensures e.runs == [] && e.trace == [] && e.nextId > EmptyId
  {
    Engine(map[], None, None, [], map[], EmptyId + 1, [], [])
  }

  /** `new MutStore(initialState)`. */
  function NewStore(e: Engine, id: nat, initialState: Value): (r: Engine)
    requires Valid(e) && id !in e.stores
    ensures Valid(r)
    ensures r.stores == e.stores[id := MutStore(initialState, initialState, [])]
    ensures r.bindings == e.bindings && r.notifiers == e.notifiers && r.trace == e.trace
  {
    e.(stores := e.stores[id := MutStore(initialState, initialState, [])])
  }

  // ---------------------------------------------------------------------------
  // The state getter and collect

  /** Adds `ids` to the active tracking set, if there is one. */
  function Track(t: Option<set<nat>>, ids: set<nat>): Option<set<nat>> {
    if t.Some? then Some(t.value + ids) else None
  }

  /** `get state()` of store `id`: returns the stored value and, while a
      collection is active, records the store in the tracking set. */
  function ReadState(e: Engine, id: nat): (r: (Engine, Value))
    ensures r.1 == StateOf(States(e.stores), id)
    ensures r.0 == e.(tracking := Track(e.tracking, {id}))
    ensures e.tracking.Some? ==> id in r.0.tracking.value
  {
    var e' := if e.tracking.Some? then e.(tracking := Some(e.tracking.value + {id})) else e;
    (e', if id in e.stores then e.stores[id].state else Undefined)
  }

  /** Runs a selector body against the engine, every `Read` going through
      the state getter. */
  function EvalIn(e: Engine, x: Expr): (r: (Engine, Value))
    decreases x
  {
    match x
    case Const(v) => (e, v)
    case Arg => (e, Undefined)
    case Read(id) => ReadState(e, id)
    case Prop(o, k) =>
      var a := EvalIn(e, o);
      (a.0, Get(a.1, k))
    case Add(l, rt) =>
      var a := EvalIn(e, l);
      var b := EvalIn(a.0, rt);
      (b.0, AddValues(a.1, b.1))
    case FloorDiv(l, d) =>
      var a := EvalIn(e, l);
      (a.0, DivValue(a.1, d))
    case Rem(l, d) =>
      var a := EvalIn(e, l);
      (a.0, RemValue(a.1, d))
    case Greater(l, rt) =>
      var a := EvalIn(e, l);
      var b := EvalIn(a.0, rt);
      (b.0, GreaterValue(a.1, b.1))
    case Same(l, rt) =>
      var a := EvalIn(e, l);
      var b := EvalIn(a.0, rt);
      (b.0, Bool(StrictEq(a.1, b.1)))
    case Not(o) =>
      var a := EvalIn(e, o);
      (a.0, Bool(!Truthy(a.1)))
    case And(l, rt) =>
      var a := EvalIn(e, l);
      if !Truthy(a.1) then a else EvalIn(a.0, rt)
    case Cond(c, t, f) =>
      var a := EvalIn(e, c);
      if Truthy(a.1) then EvalIn(a.0, t) else EvalIn(a.0, f)
    case List(items) =>
      var a := EvalListIn(e, items);
      (a.0.(nextId := a.0.nextId + 1), Arr(a.0.nextId, a.1))
  }

  function EvalListIn(e: Engine, xs: seq<Expr>): (r: (Engine, seq<Value>))
    decreases xs
  {
    if xs == [] then (e, [])
    else
      var a := EvalIn(e, xs[0]);
      var rest := EvalListIn(a.0, xs[1..]);
      (rest.0, [a.1] + rest.1)
  }

  lemma TrackTwice(t: Option<set<nat>>, a: set<nat>, b: set<nat>)
    ensures Track(Track(t, a), b) == Track(t, a + b)
    ensures Track(t, {}) == t
  {
    if t.Some? {
      assert t.value + a + b == t.value + (a + b);
      assert t.value + {} == t.value;
    }
  }

  /** Running `x` through the state getter from `e` has the effect its pure
      evaluation describes. */
  predicate Agrees(e: Engine, x: Expr) {
    var ev := Eval(x, Undefined, States(e.stores), e.nextId);
    EvalIn(e, x) == (e.(tracking := Track(e.tracking, ev.readSet), nextId := ev.nextId), ev.value)
  }

  /** Running a selector through the state getter yields the value of its
      pure evaluation, adds exactly the stores that evaluation read to the
      active tracking set, and changes nothing else but the identity counter. */
  lemma {:induction false} EvalInAgreesWithEval(e: Engine, x: Expr)
    ensures Agrees(e, x)
    decreases x
  {
    match x
    case Const(_) => TrackTwice(e.tracking, {}, {});
    case Arg => TrackTwice(e.tracking, {}, {});
    case Read(_) =>
    case Prop(o, _) => EvalInAgreesWithEval(e, o);
    case FloorDiv(o, _) => EvalInAgreesWithEval(e, o);
    case Rem(o, _) => EvalInAgreesWithEval(e, o);
    case Not(o) => EvalInAgreesWithEval(e, o);
    case Add(l, rt) =>
      EvalInAgreesWithEval(e, l);
      EvalInAgreesWithEval(EvalIn(e, l).0, rt);
      SequenceAgrees(e, l, rt);
    case Greater(l, rt) =>
      EvalInAgreesWithEval(e, l);
      EvalInAgreesWithEval(EvalIn(e, l).0, rt);
      SequenceAgrees(e, l, rt);
    case Same(l, rt) =>
      EvalInAgreesWithEval(e, l);
      EvalInAgreesWithEval(EvalIn(e, l).0, rt);
      SequenceAgrees(e, l, rt);
    case And(l, rt) =>
      EvalInAgreesWithEval(e, l);
      if Truthy(EvalIn(e, l).1) {
        EvalInAgreesWithEval(EvalIn(e, l).0, rt);
        SequenceAgrees(e, l, rt);
      }
    case Cond(c, t, f) =>
      EvalInAgreesWithEval(e, c);
      if Truthy(EvalIn(e, c).1) {
        EvalInAgreesWithEval(EvalIn(e, c).0, t);
        SequenceAgrees(e, c, t);
      } else {
        EvalInAgreesWithEval(EvalIn(e, c).0, f);
        SequenceAgrees(e, c, f);
      }
    case List(items) => EvalListInAgreesWithEval(e, items);
  }

  /** Two operands run one after the other through the getter read the union
      of what each reads. */
  lemma SequenceAgrees(e: Engine, l: Expr, rt: Expr)
    requires Agrees(e, l) && Agrees(EvalIn(e, l).0, rt)
    ensures var st := States(e.stores);
      var a := Eval(l, Undefined, st, e.nextId);
      var b := Eval(rt, Undefined, st, a.nextId);
      EvalIn(EvalIn(e, l).0, rt) == (e.(tracking := Track(e.tracking, a.readSet + b.readSet), nextId := b.nextId), b.value)
  {
    var st := States(e.stores);
    var a := Eval(l, Undefined, st, e.nextId);
    var e1 := EvalIn(e, l).0;
    assert States(e1.stores) == st;
    TrackTwice(e.tracking, a.readSet, Eval(rt, Undefined, st, a.nextId).readSet);
  }

  lemma {:induction false} EvalListInAgreesWithEval(e: Engine, xs: seq<Expr>)
    ensures var ev := EvalList(xs, Undefined, States(e.stores), e.nextId);
      EvalListIn(e, xs) == (e.(tracking := Track(e.tracking, ev.readSet), nextId := ev.nextId), ev.values)
    decreases xs
  {
    if xs == [] {
      TrackTwice(e.tracking, {}, {});
    } else {
      var st := States(e.stores);
      var a := Eval(xs[0], Undefined, st, e.nextId);
      EvalInAgreesWithEval(e, xs[0]);
      var e1 := EvalIn(e, xs[0]).0;
      assert States(e1.stores) == st;
      EvalListInAgreesWithEval(e1, xs[1..]);
      TrackTwice(e.tracking, a.readSet, EvalList(xs[1..], Undefined, st, a.nextId).readSet);
    }
  }

  datatype Collected = Collected(engine: Engine, value: Value, deps: set<nat>)

  /** `collect(callback, stores)`: clears `stores`, makes it the active tracking
      set, runs the selector, and then sets tracking to null (it does not
      restore an outer tracking set). */
  function Collect(e: Engine, x: Expr): (r: Collected)
    ensures var ev := Eval(x, Undefined, States(e.stores), e.nextId);
      && r.value == ev.value
      && r.deps == ev.readSet
      && r.engine == e.(tracking := None, nextId := ev.nextId)
  {
    EvalInAgreesWithEval(e.(tracking := Some({})), x);
    var a := EvalIn(e.(tracking := Some({})), x);
    Collected(a.0.(tracking := None), a.1, a.0.tracking.value)
  }

  // ---------------------------------------------------------------------------
  // subscribe and select

  /** The subscription disposer of binding `sid` (or the initial no-op):
      removes its subscriber from every store in its current `stores` set and
      from the pending notifiers. */
  function ClearSubscription(e: Engine, sid: nat): (r: Engine)
    requires Valid(e) && sid in e.bindings
    ensures Valid(r)
    ensures r == e.(stores := r.stores, notifiers := r.notifiers)
    ensures r.stores.Keys == e.stores.Keys && States(r.stores) == States(e.stores)
    ensures forall id :: id in r.stores ==> r.stores[id].subs == Remove(e.stores[id].subs, sid)
    ensures forall id :: id in r.stores ==> sid !in r.stores[id].subs
    ensures forall id, other :: id in r.stores && other != sid ==>
      (other in r.stores[id].subs <==> other in e.stores[id].subs)
    ensures r.notifiers == Remove(e.notifiers, sid)
  {
    var b := e.bindings[sid];
    if !b.subscribed then e
    else
      e.(stores := map id | id in e.stores ::
                     if id in b.stores then e.stores[id].(subs := Remove(e.stores[id].subs, sid))
                     else e.stores[id],
         notifiers := Remove(e.notifiers, sid))
  }

  /** `subscribe(stores, sub)`: adds the subscriber to the `SUBS` of each
      store in `deps`, which the binding has just recorded as its stores. */
  function SubscribeTo(e: Engine, sid: nat, deps: set<nat>): (r: Engine)
    requires Valid(e) && sid in e.bindings
    requires e.bindings[sid].stores == deps && e.bindings[sid].subscribed
    ensures Valid(r)
    ensures r == e.(stores := r.stores)
    ensures r.stores.Keys == e.stores.Keys && States(r.stores) == States(e.stores)
    ensures forall id :: id in r.stores ==>
      r.stores[id].subs == if id in deps then Insert(e.stores[id].subs, sid) else e.stores[id].subs
    ensures forall id :: id in r.stores ==> (sid in r.stores[id].subs <==> sid in e.stores[id].subs || id in deps)
    ensures forall id, other :: id in r.stores && other != sid ==>
      (other in r.stores[id].subs <==> other in e.stores[id].subs)
  {
    e.(stores := map id | id in e.stores ::
                   if id in deps then e.stores[id].(subs := Insert(e.stores[id].subs, sid))
                   else e.stores[id])
  }

  /** One call per changer, each with the new slice and the previous one. */
  function Notifications(changers: seq<nat>, value: Value, prev: Value): (r: seq<Event>)
    ensures |r| == |changers|
    ensures forall i :: 0 <= i < |r| ==> r[i] == Called(changers[i], [value, prev])
  {
    if changers == [] then []
    else [Called(changers[0], [value, prev])] + Notifications(changers[1..], value, prev)
  }

  /** The `subscriber` closure of binding `sid`: drop the old subscriptions,
      re-collect the selector, subscribe to exactly the stores it read, and
      call the changers only if the equality check fails. Its effect on the
      subscriptions and on the calls it makes is stated by
      `SubscriberFollowsReads` and `SubscriberCallsOnChange`. */
  function Subscriber(e: Engine, sid: nat): (r: Engine)
    requires Valid(e) && sid in e.bindings
    ensures Valid(r)
    ensures r.stores.Keys == e.stores.Keys && States(r.stores) == States(e.stores)
    ensures r.bindings.Keys == e.bindings.Keys
    ensures forall other :: other in e.bindings && other != sid ==> r.bindings[other] == e.bindings[other]
    ensures r.notifiers == Remove(e.notifiers, sid)
    ensures r.flushing == e.flushing
    ensures r.runs == e.runs + [sid]
  {
    var b := e.bindings[sid];
    var ourPrev := b.prev;
    var e1 := ClearSubscription(e, sid);
    var c := Collect(e1, b.selector);
    var b2 := b.(stores := c.deps, subscribed := true);
    RebindKeepsValid(c.engine, sid, b2);
    var e2 := c.engine.(bindings := c.engine.bindings[sid := b2]);
    var e3 := SubscribeTo(e2, sid, c.deps);
    var e4 := e3.(runs := e3.runs + [sid]);
    if !Check(b.check, c.value, b.prev) then
      RebindKeepsValid(e4, sid, b2.(prev := c.value));
      e4.(bindings := e4.bindings[sid := b2.(prev := c.value)],
          trace := e4.trace + Notifications(b.changers, c.value, ourPrev))
    else e4
  }

  /** Replacing a binding keeps the engine valid when the new binding is
      subscribed or not pending, and still covers every store it sits in. */
  lemma RebindKeepsValid(e: Engine, sid: nat, b: Binding)
    requires Valid(e) && sid in e.bindings
    requires b.subscribed || sid !in e.notifiers
    requires forall id :: id in e.stores && sid in e.stores[id].subs ==> b.subscribed && id in b.stores
    ensures Valid(e.(bindings := e.bindings[sid := b]))
  {
  }

  /** A store's subscriber list after `sid` unsubscribes and, if the store
      was read, subscribes again at the end. */
  function Resubscribed(subs: seq<nat>, sid: nat, read: bool): seq<nat> {
    if read then Insert(Remove(subs, sid), sid) else Remove(subs, sid)
  }

  /** After the subscriber runs, it is subscribed to exactly the stores its
      selector read in this evaluation, and every other subscription is as
      it was. */
  lemma SubscriberFollowsReads(e: Engine, sid: nat)
    requires Valid(e) && sid in e.bindings
    ensures var r := Subscriber(e, sid);
      var ev := Eval(e.bindings[sid].selector, Undefined, States(e.stores), e.nextId);
      && r.bindings[sid].stores == ev.readSet
      && (forall id :: id in r.stores ==> (sid in r.stores[id].subs <==> id in ev.readSet))
      && (forall id, other :: id in r.stores && other != sid ==>
            (other in r.stores[id].subs <==> other in e.stores[id].subs))
      && (forall id :: id in r.stores ==>
            r.stores[id].subs == Resubscribed(e.stores[id].subs, sid, id in ev.readSet))
  {
  }

  /** The equality gate: the changers are called, in order, with the new slice
      and the previous accepted slice exactly when the check says the two
      differ; only then does the accepted slice move. */
  lemma SubscriberCallsOnChange(e: Engine, sid: nat)
    requires Valid(e) && sid in e.bindings
    ensures var r := Subscriber(e, sid);
      var b := e.bindings[sid];
      var ev := Eval(b.selector, Undefined, States(e.stores), e.nextId);
      && r.bindings[sid].changers == b.changers
      && r.bindings[sid].selector == b.selector && r.bindings[sid].check == b.check
      && (Check(b.check, ev.value, b.prev) ==> r.bindings[sid].prev == b.prev && r.trace == e.trace)
      && (!Check(b.check, ev.value, b.prev) ==>
            r.bindings[sid].prev == ev.value && r.trace == e.trace + Notifications(b.changers, ev.value, b.prev))
  {
  }

  /** The closure state `select` starts from: no slice accepted yet, no
      stores, the initial no-op disposer, and `onChange` as the only changer. */
  function NewBinding(selector: Expr, onChange: Option<nat>, check: EqualityCheck): Binding {
    Binding(selector, check, Undefined, {}, false, if onChange.Some? then [onChange.value] else [])
  }

  /** The engine with a binding registered under an unused identity. */
  function WithBinding(e: Engine, sid: nat, b: Binding): (r: Engine)
    requires Valid(e) && sid !in e.bindings && !b.subscribed
    ensures Valid(r) && r == e.(bindings := e.bindings[sid := b])
  {
    e.(bindings := e.bindings[sid := b])
  }

  /** `select(selector, onChange, equalityFn)` under the fresh subscriber
      identity `sid`. The source's `if ()` on the line after `changers` is
      created is incomplete, yet `onChange` is called; it is taken here as the
      first member of `changers`. The subscriber runs once before `select`
      returns, so `onChange` is called at once exactly when the check finds
      the first slice different from `undefined`. */
  function Select(e: Engine, sid: nat, selector: Expr, onChange: Option<nat>, check: EqualityCheck): (r: Engine)
    requires Valid(e) && sid !in e.bindings
    ensures Valid(r)
    ensures r.bindings.Keys == e.bindings.Keys + {sid}
    ensures var ev := Eval(selector, Undefined, States(e.stores), e.nextId);
      && r.bindings[sid].stores == ev.readSet
      && (forall id :: id in r.stores ==> (sid in r.stores[id].subs <==> id in ev.readSet))
      && States(r.stores) == States(e.stores)
      && (!Check(check, ev.value, Undefined) && onChange.Some? ==>
            r.trace == e.trace + [Called(onChange.value, [ev.value, Undefined])])
      && (Check(check, ev.value, Undefined) || onChange.None? ==> r.trace == e.trace)
  {
    var e1 := WithBinding(e, sid, NewBinding(selector, onChange, check));
    SubscriberFollowsReads(e1, sid);
    SubscriberCallsOnChange(e1, sid);
    assert States(e1.stores) == States(e.stores);
    Subscriber(e1, sid)
  }

  /** The function `select` returns: clears the current subscriptions and the
      changers. */
  function Dispose(e: Engine, sid: nat): (r: Engine)
    requires Valid(e) && sid in e.bindings
    ensures Valid(r)
    ensures r.stores.Keys == e.stores.Keys && r.bindings.Keys == e.bindings.Keys
    ensures forall id :: id in r.stores ==> sid !in r.stores[id].subs
    ensures sid !in r.notifiers && r.bindings[sid].changers == []
    ensures forall id, other :: id in r.stores && other != sid ==>
      (other in r.stores[id].subs <==> other in e.stores[id].subs)
    ensures r.notifiers == Remove(e.notifiers, sid)
    ensures States(r.stores) == States(e.stores) && r.trace == e.trace
    ensures r == e.(stores := r.stores, notifiers := r.notifiers, bindings := r.bindings)
    ensures r.bindings[sid] == e.bindings[sid].(changers := [])
    ensures forall other :: other in e.bindings && other != sid ==> r.bindings[other] == e.bindings[other]
  {
    var e1 := ClearSubscription(e, sid);
    e1.(bindings := e1.bindings[sid := e1.bindings[sid].(changers := [])])
  }

  /** `api.subscribe(cb)`: adds a changer. */
  function AddChanger(e: Engine, sid: nat, changer: nat): (r: Engine)
    requires Valid(e) && sid in e.bindings
    ensures Valid(r)
    ensures r.bindings.Keys == e.bindings.Keys
    ensures forall c :: c in r.bindings[sid].changers <==> c in e.bindings[sid].changers || c == changer
    ensures r == e.(bindings := r.bindings)
    ensures r.bindings[sid] == e.bindings[sid].(changers := r.bindings[sid].changers)
    ensures forall other :: other in e.bindings && other != sid ==> r.bindings[other] == e.bindings[other]
  {
    var b := e.bindings[sid];
    e.(bindings := e.bindings[sid := b.(changers := Insert(b.changers, changer))])
  }

  /** The unsubscribe function `api.subscribe` returns: removes that changer only. */
  function RemoveChanger(e: Engine, sid: nat, changer: nat): (r: Engine)
    requires Valid(e) && sid in e.bindings
    ensures Valid(r)
    ensures r.bindings.Keys == e.bindings.Keys
    ensures forall c :: c in r.bindings[sid].changers <==> c in e.bindings[sid].changers && c != changer
    ensures r == e.(bindings := r.bindings)
    ensures r.bindings[sid] == e.bindings[sid].(changers := r.bindings[sid].changers)
    ensures forall other :: other in e.bindings && other != sid ==> r.bindings[other] == e.bindings[other]
  {
    var b := e.bindings[sid];
    e.(bindings := e.bindings[sid := b.(changers := Remove(b.changers, changer))])
  }

  /** `api.state`: the last accepted slice. */
  function SliceOf(e: Engine, sid: nat): Value
    requires sid in e.bindings
  {
    e.bindings[sid].prev
  }

  /** Right after `select` returns, `api.state` is the first slice when the
      check rejected it against `undefined` (and `onChange` was called with
      it), and `undefined` otherwise. */
  lemma StateAfterSelect(e: Engine, sid: nat, selector: Expr, onChange: Option<nat>, check: EqualityCheck)
    requires Valid(e) && sid !in e.bindings
    ensures var r := Select(e, sid, selector, onChange, check);
      var ev := Eval(selector, Undefined, States(e.stores), e.nextId);
      && (!Check(check, ev.value, Undefined) ==> SliceOf(r, sid) == ev.value)
      && (Check(check, ev.value, Undefined) ==> SliceOf(r, sid) == Undefined)
  {
    var e1 := WithBinding(e, sid, NewBinding(selector, onChange, check));
    SubscriberCallsOnChange(e1, sid);
    assert States(e1.stores) == States(e.stores);
  }

  /** A run of the subscriber moves `api.state` to the new slice exactly when
      the check rejects it against the old one, which is also exactly when
      the changers are called; other selections' `api.state` stay put, and
      the disposer leaves the last accepted slice readable. */
  lemma StateFollowsAcceptedSlice(e: Engine, sid: nat)
    requires Valid(e) && sid in e.bindings
    ensures var r := Subscriber(e, sid);
      var ev := Eval(e.bindings[sid].selector, Undefined, States(e.stores), e.nextId);
      && (Check(e.bindings[sid].check, ev.value, SliceOf(e, sid)) ==> SliceOf(r, sid) == SliceOf(e, sid))
      && (!Check(e.bindings[sid].check, ev.value, SliceOf(e, sid)) ==>
            SliceOf(r, sid) == ev.value
            && r.trace == e.trace + Notifications(e.bindings[sid].changers, ev.value, SliceOf(e, sid)))
      && (forall other :: other in e.bindings && other != sid ==>
            other in r.bindings && SliceOf(r, other) == SliceOf(e, other))
    ensures SliceOf(Dispose(e, sid), sid) == SliceOf(e, sid)
    ensures forall other :: other in e.bindings && other != sid ==>
      other in Dispose(e, sid).bindings && SliceOf(Dispose(e, sid), other) == SliceOf(e, other)
  {
    SubscriberCallsOnChange(e, sid);
  }

  // ---------------------------------------------------------------------------
  // notify, flush and set

  /** `MutStore.notify()`: queues every subscriber of the store; a subscriber
      already queued stays queued once. */
  function NotifyStore(e: Engine, id: nat): (r: Engine)
    requires Valid(e) && id in e.stores
    ensures Valid(r)
    ensures forall sid :: sid in r.notifiers <==> sid in e.notifiers || sid in e.stores[id].subs
    ensures |e.notifiers| <= |r.notifiers| && r.notifiers[..|e.notifiers|] == e.notifiers
    ensures r == e.(notifiers := r.notifiers)
  {
    e.(notifiers := InsertAll(e.notifiers, e.stores[id].subs))
  }

  /** The module-level `notify()`: runs every pending subscriber once, in
      queue order, and leaves the queue empty. A subscriber only ever removes
      itself from the queue, so the worklist shrinks at every step. */
  function Drain(e: Engine): (r: Engine)
    requires Valid(e)
    ensures Valid(r)
    ensures r.notifiers == []
    ensures r.runs == e.runs + e.notifiers
    ensures r.stores.Keys == e.stores.Keys && States(r.stores) == States(e.stores)
    ensures r.bindings.Keys == e.bindings.Keys
    ensures r.flushing == e.flushing
    decreases |e.notifiers|
  {
    if e.notifiers == [] then e
    else
      var sid := e.notifiers[0];
      NoDupTail(e.notifiers);
      var e1 := e.(notifiers := e.notifiers[1..]);
      assert Valid(e1);
      var e2 := Subscriber(e1, sid);
      assert e2.notifiers == e.notifiers[1..];
      assert e.runs + [sid] + e.notifiers[1..] == e.runs + e.notifiers;
      Drain(e2)
  }

  /** A statement a flush callback runs. */
  datatype Command =
    | SetCmd(store: nat, setter: Setter)
    | FlushCmd(callback: Option<Callback>)

  /** A callback passed to `flush`, identified by `token` (its identity as a
      function object). */
  datatype Callback = Callback(token: nat, body: seq<Command>)

  function CommandSize(c: Command): nat {
    match c
    case SetCmd(_, _) => 1
    case FlushCmd(None) => 1
    case FlushCmd(Some(cb)) => 1 + BodySize(cb.body)
  }

  function BodySize(cs: seq<Command>): nat {
    if cs == [] then 0 else CommandSize(cs[0]) + BodySize(cs[1..])
  }

  /** Every store a command sets exists. */
  predicate Targets(cs: seq<Command>, ids: set<nat>)
    decreases BodySize(cs)
  {
    if cs == [] then true
    else
      assert BodySize(cs) == CommandSize(cs[0]) + BodySize(cs[1..]);
      && (match cs[0]
          case SetCmd(id, _) => id in ids
          case FlushCmd(None) => true
          case FlushCmd(Some(cb)) => Targets(cb.body, ids))
      && Targets(cs[1..], ids)
  }

  /** The engine with the flush token set to `f`; the token plays no part in
      the invariant. */
  function WithToken(e: Engine, f: Option<nat>): (r: Engine)
    requires Valid(e)
    ensures Valid(r) && r == e.(flushing := f)
  {
    e.(flushing := f)
  }

  /** `flush()` without a callback: drains unless some callback holds the token. */
  function FlushPending(e: Engine): (r: Engine)
    requires Valid(e)
    ensures Valid(r)
    ensures e.flushing.Some? ==> r == e
    ensures e.flushing.None? ==> r.notifiers == [] && r.runs == e.runs + e.notifiers
    ensures r.flushing == e.flushing
    ensures r.stores.Keys == e.stores.Keys && States(r.stores) == States(e.stores)
    ensures r.bindings.Keys == e.bindings.Keys
  {
    if e.flushing.None? then Drain(e) else e
  }

  /** `MutStore.set(setter)`: resolve the new state with `modify`, queue the
      store's subscribers, then `flush()`. */
  function Set(e: Engine, id: nat, setter: Setter): (r: Engine)
    requires Valid(e) && id in e.stores
    ensures Valid(r)
    ensures r.stores.Keys == e.stores.Keys && r.bindings.Keys == e.bindings.Keys
    ensures States(r.stores) == States(e.stores)[id := Modify(e.stores[id].state, setter)]
    ensures r.flushing == e.flushing
    ensures e.flushing.None? ==> r.notifiers == []
    ensures e.flushing.None? ==> r.runs == e.runs + InsertAll(e.notifiers, e.stores[id].subs)
    ensures e.flushing.Some? ==>
      && r.trace == e.trace && r.runs == e.runs && r.bindings == e.bindings
      && SubsMap(r.stores) == SubsMap(e.stores)
      && r.notifiers == InsertAll(e.notifiers, e.stores[id].subs)
  {
    var e1 := WithState(e, id, Modify(e.stores[id].state, setter));
    var e2 := NotifyStore(e1, id);
    FlushPending(e2)
  }

  /** The engine with store `id` holding `v`: the invariant, the other states
      and every subscriber list are untouched. */
  function WithState(e: Engine, id: nat, v: Value): (r: Engine)
    requires Valid(e) && id in e.stores
    ensures Valid(r) && r == e.(stores := r.stores) && r.stores.Keys == e.stores.Keys
    ensures r.stores[id] == e.stores[id].(state := v)
    ensures States(r.stores) == States(e.stores)[id := v]
    ensures SubsMap(r.stores) == SubsMap(e.stores)
  {
    var r := e.(stores := e.stores[id := e.stores[id].(state := v)]);
    assert States(r.stores) == States(e.stores)[id := v];
    assert SubsMap(r.stores) == SubsMap(e.stores);
    r
  }

  /** `flush(callback)`: a callback takes the token if it is free and runs;
      afterwards the queue is drained only if the token is free or held by
      this very callback, and the token is released. */
  function Flush(e: Engine, cb: Option<Callback>): (r: Engine)
    requires Valid(e)
    requires cb.Some? ==> Targets(cb.value.body, e.stores.Keys)
    ensures Valid(r)
    ensures r.stores.Keys == e.stores.Keys && r.bindings.Keys == e.bindings.Keys
    ensures e.flushing.None? ==> r.flushing.None? && r.notifiers == []
    ensures r.flushing == e.flushing || r.flushing.None?
    decreases if cb.Some? then BodySize(cb.value.body) else 0, 1
  {
    var e1 := if cb.Some? && e.flushing.None? then WithToken(e, Some(cb.value.token)) else e;
    var e2 := if cb.Some? then RunAll(e1, cb.value.body) else e1;
    if e2.flushing.None? || (cb.Some? && e2.flushing == Some(cb.value.token)) then
      Drain(WithToken(e2, None))
    else e2
  }

  /** Runs a callback body statement by statement. */
  function RunAll(e: Engine, cs: seq<Command>): (r: Engine)
    requires Valid(e) && Targets(cs, e.stores.Keys)
    ensures Valid(r)
    ensures r.stores.Keys == e.stores.Keys && r.bindings.Keys == e.bindings.Keys
    ensures r.flushing == e.flushing || r.flushing.None?
    decreases BodySize(cs), 0
  {
    if cs == [] then e
    else
      assert BodySize(cs) == CommandSize(cs[0]) + BodySize(cs[1..]);
      var e1 := match cs[0]
        case SetCmd(id, setter) => Set(e, id, setter)
        case FlushCmd(cb) => Flush(e, cb);
      RunAll(e1, cs[1..])
  }

  /** `flushed(callback)`: a function that flushes with `callback`. */
  function Flushed(cb: Callback): (c: Command)
    ensures c.FlushCmd? && c.callback == Some(cb)
  {
    FlushCmd(Some(cb))
  }

  /** Calling the function `flushed(cb)` returns is `flush(cb)`. */
  lemma FlushedRunsFlush(e: Engine, cb: Callback)
    requires Valid(e) && Targets(cb.body, e.stores.Keys)
    ensures Targets([Flushed(cb)], e.stores.Keys)
    ensures RunAll(e, [Flushed(cb)]) == Flush(e, Some(cb))
  {
    assert BodySize([Flushed(cb)]) == CommandSize(Flushed(cb)) + BodySize([]);
    assert [Flushed(cb)][1..] == [];
  }

  // ---------------------------------------------------------------------------
  // Batching

  /** A callback body made of `set` calls only. */
  predicate SetsOnly(cs: seq<Command>) {
    forall i :: 0 <= i < |cs| ==> cs[i].SetCmd?
  }

  /** The states after applying each `set` of `cs` in turn, by `modify` alone. */
  function ApplySets(states: map<nat, Value>, cs: seq<Command>): map<nat, Value>
    decreases cs
  {
    if cs == [] then states
    else if cs[0].SetCmd? && cs[0].store in states then
      ApplySets(states[cs[0].store := Modify(states[cs[0].store], cs[0].setter)], cs[1..])
    else ApplySets(states, cs[1..])
  }

  /** The subscribers of the stores that `cs` sets. */
  function Queued(subs: map<nat, seq<nat>>, cs: seq<Command>): set<nat>
    decreases cs
  {
    if cs == [] then {}
    else if cs[0].SetCmd? && cs[0].store in subs then
      (set sid | sid in subs[cs[0].store]) + Queued(subs, cs[1..])
    else Queued(subs, cs[1..])
  }

  /** The queue after the `set`s of `cs`, each adding its store's subscribers. */
  function QueueSets(q: seq<nat>, subs: map<nat, seq<nat>>, cs: seq<Command>): (r: seq<nat>)
    ensures forall sid :: sid in r <==> sid in q || sid in Queued(subs, cs)
    ensures NoDup(q) ==> NoDup(r)
    decreases cs
  {
    if cs == [] then q
    else if cs[0].SetCmd? && cs[0].store in subs then QueueSets(InsertAll(q, subs[cs[0].store]), subs, cs[1..])
    else QueueSets(q, subs, cs[1..])
  }

  /** While a flush token is held, `set` calls only update states and queue
      subscribers: no subscriber runs and no changer is called. */
  lemma {:induction false} HeldTokenDefers(e: Engine, cs: seq<Command>)
    requires Valid(e) && e.flushing.Some?
    requires SetsOnly(cs) && Targets(cs, e.stores.Keys)
    ensures var r := RunAll(e, cs);
      && r.trace == e.trace && r.runs == e.runs && r.flushing == e.flushing
      && r.bindings == e.bindings
      && SubsMap(r.stores) == SubsMap(e.stores)
      && States(r.stores) == ApplySets(States(e.stores), cs)
      && r.notifiers == QueueSets(e.notifiers, SubsMap(e.stores), cs)
    decreases cs
  {
    if cs != [] {
      var c := cs[0];
      var e1 := RunFirstSet(e, cs);
      HeldTokenDefers(e1, cs[1..]);
      var st := States(e.stores);
      assert ApplySets(st, cs) == ApplySets(st[c.store := Modify(st[c.store], c.setter)], cs[1..]);
      var subs := SubsMap(e.stores);
      assert QueueSets(e.notifiers, subs, cs) == QueueSets(InsertAll(e.notifiers, e.stores[c.store].subs), subs, cs[1..]);
    }
  }

  /** The first step of `RunAll` on a body of sets. */
  lemma RunFirstSet(e: Engine, cs: seq<Command>) returns (e1: Engine)
    requires Valid(e) && cs != [] && SetsOnly(cs) && Targets(cs, e.stores.Keys)
    ensures cs[0].SetCmd? && cs[0].store in e.stores
    ensures e1 == Set(e, cs[0].store, cs[0].setter)
    ensures RunAll(e, cs) == RunAll(e1, cs[1..])
    ensures Valid(e1) && SetsOnly(cs[1..]) && Targets(cs[1..], e1.stores.Keys)
  {
    assert cs[0].SetCmd?;
    assert cs[0].store in e.stores && Targets(cs[1..], e.stores.Keys);
    e1 := Set(e, cs[0].store, cs[0].setter);
    assert RunAll(e, cs) == RunAll(e1, cs[1..]);
    assert SetsOnly(cs[1..]) by {
      forall i | 0 <= i < |cs[1..]| ensures cs[1..][i].SetCmd? {
        assert cs[1..][i] == cs[i + 1];
      }
    }
  }

  /** `flush(cb)` with no token held, where `cb` only sets stores: the states
      end as the sets leave them, and every subscriber that was pending or
      that subscribes to a store `cb` set runs exactly once, after `cb`
      returns. Four sets of one store inside one flush therefore run its
      subscriber once. */
  lemma FlushBatches(e: Engine, cb: Callback)
    requires Valid(e) && e.flushing.None?
    requires SetsOnly(cb.body) && Targets(cb.body, e.stores.Keys)
    ensures var r := Flush(e, Some(cb));
      && r.flushing.None? && r.notifiers == []
      && States(r.stores) == ApplySets(States(e.stores), cb.body)
      && |e.runs| <= |r.runs| && r.runs[..|e.runs|] == e.runs
      && NoDup(r.runs[|e.runs|..])
      && (forall sid :: sid in r.runs[|e.runs|..] <==> sid in e.notifiers || sid in Queued(SubsMap(e.stores), cb.body))
  {
    var e1 := WithToken(e, Some(cb.token));
    HeldTokenDefers(e1, cb.body);
    var e2 := FlushWithFreeToken(e, cb);
    var r := Drain(WithToken(e2, None));
    assert r.runs[|e.runs|..] == e2.notifiers;
  }

  /** `flush(cb)` with the token free: `cb` takes the token and runs, and the
      drain happens if the token is still `cb`'s afterwards. */
  lemma FlushWithFreeToken(e: Engine, cb: Callback) returns (e2: Engine)
    requires Valid(e) && e.flushing.None? && Targets(cb.body, e.stores.Keys)
    ensures e2 == RunAll(WithToken(e, Some(cb.token)), cb.body) && Valid(e2)
    ensures e2.flushing == Some(cb.token) ==> Flush(e, Some(cb)) == Drain(WithToken(e2, None))
  {
    e2 := RunAll(WithToken(e, Some(cb.token)), cb.body);
  }

  /** A `flush` whose callback does not hold the token runs the callback but
      does not drain: the outer holder drains later. */
  lemma NestedFlushDefers(e: Engine, cb: Callback)
    requires Valid(e) && e.flushing.Some? && e.flushing.value != cb.token
    requires SetsOnly(cb.body) && Targets(cb.body, e.stores.Keys)
    ensures Flush(e, Some(cb)) == RunAll(e, cb.body)
    ensures Flush(e, Some(cb)).trace == e.trace && Flush(e, Some(cb)).flushing == e.flushing
    ensures Flush(e, None) == e
  {
    HeldTokenDefers(e, cb.body);
  }

  // ---------------------------------------------------------------------------
  // Subscriptions

  /** Calling the disposer twice is the same as calling it once. */
  lemma DisposeIsIdempotent(e: Engine, sid: nat)
    requires Valid(e) && sid in e.bindings
    ensures Dispose(Dispose(e, sid), sid) == Dispose(e, sid)
  {
    var d := Dispose(e, sid);
    var d2 := Dispose(d, sid);
    assert d2.notifiers == d.notifiers;
    assert d2.stores == d.stores;
  }

  /** No missed updates: once the subscriber has run, any change confined to
      stores it is not subscribed to leaves its selector's result, its reads
      and its allocations exactly as they were. */
  lemma UnsubscribedStoresCannotChangeSlice(e: Engine, sid: nat, other: map<nat, Value>)
    requires Valid(e) && sid in e.bindings
    requires var r := Subscriber(e, sid);
      forall id :: id in r.stores && sid in r.stores[id].subs ==> StateOf(other, id) == StateOf(States(e.stores), id)
    requires forall id :: id !in e.stores ==> StateOf(other, id) == Undefined
    ensures var x := e.bindings[sid].selector;
      Eval(x, Undefined, other, e.nextId) == Eval(x, Undefined, States(e.stores), e.nextId)
  {
    var x := e.bindings[sid].selector;
    var st := States(e.stores);
    SubscriberFollowsReads(e, sid);
    var rs := Eval(x, Undefined, st, e.nextId).readSet;
    assert AgreeOn(st, other, rs) by {
      forall id | id in rs
        ensures StateOf(st, id) == StateOf(other, id)
      {
        if id !in e.stores {
          assert StateOf(st, id) == Undefined;
        }
      }
    }
    EvalDependsOnlyOnReads(x, Undefined, st, other, e.nextId);
  }

}

=== FILE: selectable_cascade.dfy ===
/** The trace of "changes in a running flush should trigger a new update":
    a selection of the count (handler `7`, one parameter) and a selection of
    "the count is even and not zero" (handler `8`, one parameter) whose
    handler reacts to `true` by adding one to the count. A `set` that makes
    the count even runs the reaction inside the drain, and its nested drain
    delivers the odd count before the outer drain ends. */
module SelectableCascade {
  import opened JsValue
  import opened Optional
  import opened Selector
  import opened Equality
  import opened Updater
  import opened Trace
  import opened OrderedSet
  import opened MutableSelectable
  import opened SelectableLaws
  import opened SelectableScenarios

  /** `(state) => state.count % 2 === 0 && state.count !== 0` */
  const EvenNonZero: Expr := And(Same(Rem(ReadCount, 2), Const(Num(0))), Not(Same(ReadCount, Const(Num(0)))))

  /** `(state) => { state.count++ }` */
  const Bump: Update := BumpProp(CountKey, 1)

  /** The selection of the count, having accepted `prev`. */
  function Follower(prev: int): Listener {
    Watch(ReadCount, Notify(7, None), StrictCheck, false, Num(prev))
  }

  /** The reacting selection, having accepted `prev`. */
  function Bumper(prev: bool): Listener {
    Watch(EvenNonZero, Notify(8, Some(Bump)), StrictCheck, false, Bool(prev))
  }

  /** The store of the test between two operations: `{ count }`, the count
      selection `1` subscribed before the reacting selection `2`. */
  predicate Cascading(w: World, id: nat, count: nat, pa: int, pb: bool) {
    && w.state == Counter(id, count) && w.computations == [] && w.subscriptions == [1, 2]
    && w.flushing.None? && 1 in w.listeners && 2 in w.listeners
    && w.listeners[1] == Follower(pa) && w.listeners[2] == Bumper(pb)
  }

  lemma EvalEvenNonZero(id: nat, count: nat, n: nat)
    ensures Eval(EvenNonZero, Counter(id, count), map[], n) == Evaluated(Bool(count % 2 == 0 && count != 0), {}, n)
  {
  }

  /** Adding one or three to a count flips its parity. */
  lemma Parity(n: nat)
    ensures (n + 1) % 2 == 1 - n % 2 && (n + 3) % 2 == 1 - n % 2
  {
  }

  /** A drain over two subscriptions. */
  lemma DrainOfPair(w: World, a: nat, b: nat, fuel: nat, w1: World)
    requires w.computations == [] && w.subscriptions == [a, b] && fuel >= 2
    requires CallListener(w, a, fuel - 2) == Some(w1)
    ensures Drain(w, fuel) == CallListener(w1, b, fuel - 2)
  {
    assert RunTier(w, [], fuel - 1) == Some(w);
    assert [a, b][1..] == [b];
    assert RunTier(w, [a, b], fuel - 1) == RunTier(w1, [b], fuel - 1);
    var c := CallListener(w1, b, fuel - 2);
    if c.Some? {
      assert [b][1..] == [];
      assert RunTier(c.value, [], fuel - 1) == Some(c.value);
    }
    assert RunTier(w1, [b], fuel - 1) == c;
  }

  /** The count selection, when the count moved, calls `7` with it. */
  lemma FollowerFires(w: World, id: nat, count: nat, pa: int, pb: bool, fuel: nat) returns (w1: World)
    requires Cascading(w, id, count, pa, pb) && count != pa && fuel >= 1
    ensures CallListener(w, 1, fuel) == Some(w1)
    ensures w1 == w.(listeners := w.listeners[1 := Follower(count)], trace := w.trace + [Selected(1), Called(7, [Num(count)])])
    ensures Cascading(w1, id, count, count, pb)
  {
    WatchFiresOnlyOnChange(w, 1, fuel);
    w1 := CallListener(w, 1, fuel).value;
  }

  /** The reacting selection, on an odd count after an even one, calls `8`
      with `false` and does not react. */
  lemma BumperFallsQuiet(w: World, id: nat, count: nat, pa: int, fuel: nat) returns (r: World)
    requires Cascading(w, id, count, pa, true) && count % 2 == 1 && fuel >= 2
    ensures CallListener(w, 2, fuel) == Some(r)
    ensures r == w.(listeners := w.listeners[2 := Bumper(false)], trace := w.trace + [Selected(2), Called(8, [Bool(false)])])
    ensures Cascading(r, id, count, pa, false)
  {
    EvalEvenNonZero(id, count, w.nextId);
    var w2 := w.(listeners := w.listeners[2 := Bumper(false)], trace := w.trace + [Selected(2)]);
    assert CallListener(w, 2, fuel) == CallHandler(w2, Notify(8, Some(Bump)), [Bool(false)], fuel - 1);
    r := CallListener(w, 2, fuel).value;
  }

  /** The reacting selection, with its slice unchanged, calls nothing. */
  lemma BumperStaysQuiet(w: World, id: nat, count: nat, pa: int, fuel: nat) returns (r: World)
    requires Cascading(w, id, count, pa, false) && count % 2 == 1
    ensures CallListener(w, 2, fuel) == Some(r)
    ensures r == w.(trace := w.trace + [Selected(2)])
  {
    EvalEvenNonZero(id, count, w.nextId);
    r := CallListener(w, 2, fuel).value;
  }

  /** One drain's trace: the count selection reports `x`, and the reacting
      selection runs and reports nothing. */
  function Round(x: int): seq<Event> {
    [Selected(1), Called(7, [Num(x)]), Selected(2)]
  }

  /** One drain's trace in which the reacting selection also reports `b`. */
  function RoundFlip(x: int, b: bool): seq<Event> {
    Round(x) + [Called(8, [Bool(b)])]
  }

  /** A drain that finds the count odd and the reacting selection at `true`
      calls `7` with the count and `8` with `false`. */
  lemma OddDrain(w: World, id: nat, count: nat, pa: int, fuel: nat) returns (r: World)
    requires Cascading(w, id, count, pa, true) && count % 2 == 1 && count != pa && fuel >= 4
    ensures Drain(w, fuel) == Some(r)
    ensures Cascading(r, id, count, count, false)
    ensures r.trace == w.trace + RoundFlip(count, false)
  {
    var w1 := FollowerFires(w, id, count, pa, true, fuel - 2);
    DrainOfPair(w, 1, 2, fuel, w1);
    r := BumperFallsQuiet(w1, id, count, count, fuel - 2);
  }

  /** A drain that finds the count odd with nothing for the reacting
      selection to report calls `7` with the count only. */
  lemma QuietOddDrain(w: World, id: nat, count: nat, pa: int, fuel: nat) returns (r: World)
    requires Cascading(w, id, count, pa, false) && count % 2 == 1 && count != pa && fuel >= 3
    ensures Drain(w, fuel) == Some(r)
    ensures Cascading(r, id, count, count, false)
    ensures r.trace == w.trace + Round(count)
  {
    var w1 := FollowerFires(w, id, count, pa, false, fuel - 2);
    DrainOfPair(w, 1, 2, fuel, w1);
    r := BumperStaysQuiet(w1, id, count, count, fuel - 2);
  }

  /** The reacting selection, on an even count, calls `8` with `true`, which
      adds one to the count and drains again at once. */
  lemma BumperTriggers(w: World, id: nat, count: nat, fuel: nat) returns (a: World)
    requires Cascading(w, id, count, count, false) && count % 2 == 0 && count != 0 && fuel >= 4
    ensures CallListener(w, 2, fuel) == Drain(a, fuel - 4)
    ensures Cascading(a, id, count + 1, count, true) && (count + 1) % 2 == 1
    ensures a.trace == w.trace + [Selected(2), Called(8, [Bool(true)])]
  {
    Parity(count);
    EvalEvenNonZero(id, count, w.nextId);
    var w2 := w.(listeners := w.listeners[2 := Bumper(true)], trace := w.trace + [Selected(2)]);
    assert CallListener(w, 2, fuel) == CallHandler(w2, Notify(8, Some(Bump)), [Bool(true)], fuel - 1);
    ReactionDrainsAtOnce(w2, 8, Bump, [Bool(true)], fuel - 1);
    var w3 := w2.(trace := w2.trace + [Called(8, [Bool(true)])]);
    BumpCount(w3, id, count, 1);
    a := Assign(w3, Bump);
  }

  /** The reaction's nested drain delivers the odd count. */
  lemma BumperReacts(w: World, a: World, id: nat, count: nat, fuel: nat) returns (r: World)
    requires Cascading(a, id, count + 1, count, true) && (count + 1) % 2 == 1 && fuel >= 8
    requires CallListener(w, 2, fuel) == Drain(a, fuel - 4)
    ensures CallListener(w, 2, fuel) == Some(r)
    ensures Cascading(r, id, count + 1, count + 1, false)
    ensures r.trace == a.trace + RoundFlip(count + 1, false)
  {
    r := OddDrain(a, id, count + 1, count, fuel - 4);
  }

  /** A drain that finds the count even and not zero: `7` is called with the
      count, then `8` with `true`, whose nested drain calls `7` with the next
      count and `8` with `false`. */
  lemma EvenDrain(w: World, id: nat, count: nat, pa: int, fuel: nat) returns (r: World)
    requires Cascading(w, id, count, pa, false) && count % 2 == 0 && count != 0 && count != pa && fuel >= 10
    ensures Drain(w, fuel) == Some(r)
    ensures Cascading(r, id, count + 1, count + 1, false)
    ensures r.trace == w.trace + RoundFlip(count, true) + RoundFlip(count + 1, false)
  {
    var w1 := FollowerFires(w, id, count, pa, false, fuel - 2);
    DrainOfPair(w, 1, 2, fuel, w1);
    var a := BumperTriggers(w1, id, count, fuel - 2);
    r := BumperReacts(w1, a, id, count, fuel - 2);
    JoinRound(w.trace, count, RoundFlip(count + 1, false));
  }

  /** A report of the count followed by the reacting selection's call is one
      round. */
  lemma SplitRound(x: int, b: bool)
    ensures [Selected(1), Called(7, [Num(x)])] + [Selected(2), Called(8, [Bool(b)])] == RoundFlip(x, b)
  {
  }

  lemma JoinRound(t: seq<Event>, x: int, rest: seq<Event>)
    ensures t + [Selected(1), Called(7, [Num(x)])] + [Selected(2), Called(8, [Bool(true)])] + rest
         == t + RoundFlip(x, true) + rest
  {
    SplitRound(x, true);
  }

  /** A `set` of one more that makes the count odd. */
  lemma BumpToOdd(w: World, id: nat, count: nat, fuel: nat) returns (r: World)
    requires Cascading(w, id, count, count, false) && count % 2 == 0 && fuel >= 5
    ensures Set(w, Bump, fuel) == Some(r)
    ensures Cascading(r, id, count + 1, count + 1, false)
    ensures r.trace == w.trace + Round(count + 1)
  {
    FreeTokenSetDrains(w, Bump, fuel);
    BumpCount(w, id, count, 1);
    Parity(count);
    r := QuietOddDrain(Assign(w, Bump), id, count + 1, count, fuel - 2);
  }

  /** A `set` of one more that makes the count even: the reaction takes it
      one further. */
  lemma BumpToEven(w: World, id: nat, count: nat, fuel: nat) returns (r: World)
    requires Cascading(w, id, count, count, false) && count % 2 == 1 && fuel >= 12
    ensures Set(w, Bump, fuel) == Some(r)
    ensures Cascading(r, id, count + 2, count + 2, false)
    ensures r.trace == w.trace + RoundFlip(count + 1, true) + RoundFlip(count + 2, false)
  {
    FreeTokenSetDrains(w, Bump, fuel);
    BumpCount(w, id, count, 1);
    Parity(count);
    r := EvenDrain(Assign(w, Bump), id, count + 1, count, fuel - 2);
  }

  /** `flush(() => { set(+1); set(+2) })` from an odd count: the sets only
      assign, and the one drain afterwards finds the count three higher and
      even, so the reaction takes it one further. */
  lemma BatchedBumps(w: World, id: nat, count: nat, fuel: nat) returns (r: World)
    requires Cascading(w, id, count, count, false) && count % 2 == 1 && fuel >= 11
    ensures Flush(w, Some(FlushCallback(50, SetSteps([Bump, BumpProp(CountKey, 2)]))), fuel) == Some(r)
    ensures Cascading(r, id, count + 4, count + 4, false)
    ensures r.trace == w.trace + RoundFlip(count + 3, true) + RoundFlip(count + 4, false)
  {
    var us := [Bump, BumpProp(CountKey, 2)];
    FlushDrainsOnceAfterCallback(w, FlushCallback(50, SetSteps(us)), us, fuel);
    var h := w.(flushing := Some(50));
    BumpCount(h, id, count, 1);
    var h1 := Assign(h, Bump);
    BumpCount(h1, id, count + 1, 2);
    assert AssignAll(h, us) == AssignAll(h1, [BumpProp(CountKey, 2)]);
    assert [BumpProp(CountKey, 2)][1..] == [];
    assert AssignAll(h1, [BumpProp(CountKey, 2)]) == AssignAll(Assign(h1, BumpProp(CountKey, 2)), []);
    var a := AssignAll(h, us).(flushing := None);
    Parity(count);
    r := EvenDrain(a, id, count + 3, count, fuel - 1);
  }

  /** The number of calls of callback `who` in a trace. */
  function CallCount(t: seq<Event>, who: nat): (r: nat)
    ensures r <= |t|
  {
    if t == [] then 0
    else (if t[0].Called? && t[0].who == who then 1 else 0) + CallCount(t[1..], who)
  }

  lemma {:induction false} CallCountAppend(a: seq<Event>, b: seq<Event>, who: nat)
    ensures CallCount(a + b, who) == CallCount(a, who) + CallCount(b, who)
    decreases |a|
  {
    if a == [] {
      assert a + b == b;
    } else {
      assert (a + b)[0] == a[0] && (a + b)[1..] == a[1..] + b;
      CallCountAppend(a[1..], b, who);
    }
  }

  /** Each round calls `7` once. */
  lemma RoundCalls(x: int, b: bool)
    ensures CallCount(Round(x), 7) == 1 && CallCount(RoundFlip(x, b), 7) == 1
  {
    var t := RoundFlip(x, b);
    assert t[3..][1..] == [];
    assert CallCount(t[3..], 7) == 0;
    assert t[2..][1..] == t[3..];
    assert CallCount(t[2..], 7) == 0;
    assert t[1..][1..] == t[2..];
    assert CallCount(t[1..], 7) == 1;
    assert Round(x)[2..][1..] == [];
    assert CallCount(Round(x)[2..], 7) == 0;
    assert Round(x)[1..][1..] == Round(x)[2..];
    assert CallCount(Round(x)[1..], 7) == 1;
  }

  /** A further round adds one call of `7`. */
  lemma AppendRound(t: seq<Event>, x: int, b: bool)
    ensures CallCount(t + Round(x), 7) == CallCount(t, 7) + 1
    ensures CallCount(t + RoundFlip(x, b), 7) == CallCount(t, 7) + 1
  {
    RoundCalls(x, b);
    CallCountAppend(t, Round(x), 7);
    CallCountAppend(t, RoundFlip(x, b), 7);
  }

  /** The calls of `7` along the traces of the test's sets and flush. */
  lemma CascadeCalls(t0: seq<Event>, t1: seq<Event>, t2: seq<Event>, t3: seq<Event>, c: int)
    requires t1 == t0 + Round(c + 1)
    requires t2 == t1 + RoundFlip(c + 2, true) + RoundFlip(c + 3, false)
    requires t3 == t2 + RoundFlip(c + 6, true) + RoundFlip(c + 7, false)
    ensures CallCount(t2, 7) == CallCount(t0, 7) + 3
    ensures CallCount(t3, 7) == CallCount(t2, 7) + 2
  {
    AppendRound(t0, c + 1, false);
    AppendRound(t1, c + 2, true);
    AppendRound(t1 + RoundFlip(c + 2, true), c + 3, false);
    AppendRound(t2, c + 6, true);
    AppendRound(t2 + RoundFlip(c + 6, true), c + 7, false);
  }

  /** The test's two `select` calls on `{ count: 0 }` lead to `s`, then `m`. */
  predicate TestMounts(id: nat, n: nat, s: World, m: World, fuel: nat) {
    && Select(Fresh(Counter(id, 0), n), 1, ReadCount, Notify(7, None), StrictCheck, false, fuel) == Some(s)
    && Select(s, 2, EvenNonZero, Notify(8, Some(Bump)), StrictCheck, false, fuel) == Some(m)
  }

  /** The first `select` on `{ count: 0 }`: the count selection reports `0`. */
  lemma MountFollower(id: nat, n: nat, fuel: nat) returns (s: World)
    ensures Select(Fresh(Counter(id, 0), n), 1, ReadCount, Notify(7, None), StrictCheck, false, fuel) == Some(s)
    ensures s.state == Counter(id, 0) && s.computations == [] && s.subscriptions == [1]
    ensures s.current == Subscriptions && s.flushing.None?
    ensures 1 in s.listeners && s.listeners[1] == Follower(0)
    ensures s.trace == [Selected(1), Called(7, [Num(0)])]
  {
    var w := Fresh(Counter(id, 0), n);
    SelectCallsOnChangeAtOnce(w, 1, ReadCount, 7, StrictCheck, false, fuel);
    s := Select(w, 1, ReadCount, Notify(7, None), StrictCheck, false, fuel).value;
    assert Insert([], 1) == [1];
  }

  /** The second `select`: the reacting selection reports `false` and does
      not react. */
  lemma MountBumper(s: World, id: nat, fuel: nat) returns (m: World)
    requires s.state == Counter(id, 0) && s.computations == [] && s.subscriptions == [1]
    requires s.current == Subscriptions && s.flushing.None?
    requires 1 in s.listeners && s.listeners[1] == Follower(0)
    ensures Select(s, 2, EvenNonZero, Notify(8, Some(Bump)), StrictCheck, false, fuel) == Some(m)
    ensures Cascading(m, id, 0, 0, false)
    ensures m.trace == s.trace + [Selected(2), Called(8, [Bool(false)])]
  {
    EvalEvenNonZero(id, 0, s.nextId);
    var w1 := s.(trace := s.trace + [Selected(2)]);
    var w2 := w1.(trace := w1.trace + [Called(8, [Bool(false)])]);
    assert CallHandler(w1, Notify(8, Some(Bump)), [Bool(false)], fuel) == Some(w2);
    m := Subscribe(w2, 2, Bumper(false)).0;
    assert Select(s, 2, EvenNonZero, Notify(8, Some(Bump)), StrictCheck, false, fuel) == Some(m);
    assert Insert([1], 2) == [1, 2];
  }

  /** Mounting the test's two selections on `{ count: 0 }`. */
  lemma Mount(id: nat, n: nat, fuel: nat) returns (s: World, m: World)
    ensures TestMounts(id, n, s, m, fuel)
    ensures Cascading(m, id, 0, 0, false)
    ensures m.trace == RoundFlip(0, false)
  {
    s := MountFollower(id, n, fuel);
    m := MountBumper(s, id, fuel);
    SplitRound(0, false);
  }

  /** The mount, counted: the count selection has reported once. */
  lemma MountedOnce(id: nat, n: nat, fuel: nat) returns (s: World, m: World)
    ensures TestMounts(id, n, s, m, fuel) && Cascading(m, id, 0, 0, false)
    ensures CallCount(m.trace, 7) == 1
  {
    s, m := Mount(id, n, fuel);
    RoundCalls(0, false);
  }

  /** "changes in a running flush should trigger a new update": from a count
      `c` of `0`, after two sets of one more the count is `3` and the count
      selection has reported four times; after a flush of one more and two
      more it is `7` and has reported six times, last with `7`. The count is
      a parameter rather than the literal `0` so that the trace functions are
      not unfolded on constants. */
  lemma RunningFlushTriggersNewUpdate(id: nat, n: nat, c: nat, fuel: nat) returns (s: World, m: World, w1: World, w2: World, r: World)
    requires c == 0 && fuel >= 12
    ensures TestMounts(id, n, s, m, fuel)
    ensures TestRuns(m, w1, w2, r, fuel)
    ensures w2.state == Counter(id, c + 3) && CallCount(w2.trace, 7) == 4
    ensures r.state == Counter(id, c + 7) && CallCount(r.trace, 7) == 6
    ensures r.trace[|r.trace| - 3] == Called(7, [Num(c + 7)])
  {
    s, m := MountedOnce(id, n, fuel);
    w1, w2, r := CascadeFrom(m, id, c, fuel);
  }

  /** The test's operations lead from `m` to `w1`, `w2` and `r`: two sets of
      one more, then a flush whose callback sets one more and two more. */
  predicate TestRuns(m: World, w1: World, w2: World, r: World, fuel: nat) {
    && Set(m, Bump, fuel) == Some(w1) && Set(w1, Bump, fuel) == Some(w2)
    && Flush(w2, Some(FlushCallback(50, SetSteps([Bump, BumpProp(CountKey, 2)]))), fuel) == Some(r)
  }

  /** The test's two sets and its flush, from an even count `c`. */
  lemma CascadeFrom(m: World, id: nat, c: nat, fuel: nat) returns (w1: World, w2: World, r: World)
    requires Cascading(m, id, c, c, false) && c % 2 == 0 && fuel >= 12
    ensures TestRuns(m, w1, w2, r, fuel)
    ensures w1.trace == m.trace + Round(c + 1)
    ensures w2.trace == w1.trace + RoundFlip(c + 2, true) + RoundFlip(c + 3, false)
    ensures w2.state == Counter(id, c + 3)
    ensures r.trace == w2.trace + RoundFlip(c + 6, true) + RoundFlip(c + 7, false)
    ensures r.state == Counter(id, c + 7)
    ensures CallCount(w2.trace, 7) == CallCount(m.trace, 7) + 3
    ensures CallCount(r.trace, 7) == CallCount(w2.trace, 7) + 2
    ensures r.trace[|r.trace| - 3] == Called(7, [Num(c + 7)])
  {
    w1, w2 := TwoSets(m, id, c, fuel);
    Parity(c);
    r := BatchedBumps(w2, id, c + 3, fuel);
    CascadeCalls(m.trace, w1.trace, w2.trace, r.trace, c);
    LastRoundCall(w2.trace + RoundFlip(c + 6, true), c + 7, false);
  }

  /** The test's two sets of one more, from an even count `c`. */
  lemma TwoSets(m: World, id: nat, c: nat, fuel: nat) returns (w1: World, w2: World)
    requires Cascading(m, id, c, c, false) && c % 2 == 0 && fuel >= 12
    ensures Set(m, Bump, fuel) == Some(w1) && Set(w1, Bump, fuel) == Some(w2)
    ensures Cascading(w2, id, c + 3, c + 3, false)
    ensures w1.trace == m.trace + Round(c + 1)
    ensures w2.trace == w1.trace + RoundFlip(c + 2, true) + RoundFlip(c + 3, false)
  {
    w1 := BumpToOdd(m, id, c, fuel);
    Parity(c);
    w2 := BumpToEven(w1, id, c + 1, fuel);
  }

  /** A round ends with its call of `7` third from last. */
  lemma LastRoundCall(t: seq<Event>, x: int, b: bool)
    ensures (t + RoundFlip(x, b))[|t + RoundFlip(x, b)| - 3] == Called(7, [Num(x)])
  {
  }
}

=== FILE: selectable_laws.dfy ===
/** Properties of the per-store container: what `set` and `flush` do with the
    token held or free, the order of a drain, how a selection decides to call
    its `onChange`, the caching of computed values, and the tiers' set
    operations. */
module SelectableLaws {
  import opened JsValue
  import opened Optional
  import opened Selector
  import opened Equality
  import opened Updater
  import opened Trace
  import opened OrderedSet
  import opened MutableSelectable

  // ---------------------------------------------------------------------------
  // set and flush

  /** `set` unfolded for a held token, as a rewrite rule for the scenarios:
      its `flush()` neither drains nor touches the token, so only the
      assignment remains. */
  lemma HeldTokenSetOnlyAssigns(w: World, u: Update, fuel: nat)
    requires w.flushing.Some? && fuel >= 2
    ensures Set(w, u, fuel) == Some(Assign(w, u))
  {
  }

  /** `set` unfolded for a free token, as a rewrite rule for the scenarios:
      the assignment, then a drain of both tiers. */
  lemma FreeTokenSetDrains(w: World, u: Update, fuel: nat)
    requires w.flushing.None? && fuel >= 2
    ensures Set(w, u, fuel) == Drain(Assign(w, u), fuel - 2)
  {
  }

  /** A flush callback made of `set` calls only. */
  function SetSteps(us: seq<Update>): (r: seq<Step>)
    ensures |r| == |us| && forall i :: 0 <= i < |us| ==> r[i] == SetStep(us[i])
  {
    if us == [] then [] else [SetStep(us[0])] + SetSteps(us[1..])
  }

  /** The world after assigning each update in turn, with nothing drained. */
  function AssignAll(w: World, us: seq<Update>): (r: World)
    ensures r.version == w.version + |us|
    ensures r == w.(state := r.state, version := r.version)
    decreases |us|
  {
    if us == [] then w else AssignAll(Assign(w, us[0]), us[1..])
  }

  /** An updater that only mutates properties of its argument. */
  predicate Mutating(u: Update) {
    u.BumpProp? || u.AssignProp?
  }

  /** Updaters that mutate in place keep the state's identity, however many
      of them run. */
  lemma {:induction false} MutationsKeepIdentity(w: World, us: seq<Update>)
    requires forall i :: 0 <= i < |us| ==> Mutating(us[i])
    ensures StrictEq(AssignAll(w, us).state, w.state)
    decreases |us|
  {
    if us == [] {
      StrictEqIsEquivalence(w.state, w.state, w.state);
    } else {
      var w1 := Assign(w, us[0]);
      MutationsKeepIdentity(w1, us[1..]);
      StrictEqIsEquivalence(AssignAll(w1, us[1..]).state, w1.state, w.state);
    }
  }

  /** While the token is held, a callback of sets runs them one after another
      and calls no listener. */
  lemma {:induction false} HeldTokenRunsSetsOnly(w: World, us: seq<Update>, fuel: nat)
    requires w.flushing.Some? && fuel >= 3
    ensures RunSteps(w, SetSteps(us), fuel) == Some(AssignAll(w, us))
    decreases |us|
  {
    if us != [] {
      HeldTokenSetOnlyAssigns(w, us[0], fuel - 1);
      assert SetSteps(us)[1..] == SetSteps(us[1..]);
      HeldTokenRunsSetsOnly(Assign(w, us[0]), us[1..], fuel);
    }
  }

  /** `flush(cb)` with the token free: `cb` takes the token, its sets run
      without draining, and after it returns the token is released and the
      tiers are drained exactly once. */
  lemma FlushDrainsOnceAfterCallback(w: World, cb: FlushCallback, us: seq<Update>, fuel: nat)
    requires w.flushing.None? && cb.body == SetSteps(us) && fuel >= 4
    ensures Flush(w, Some(cb), fuel) == Drain(AssignAll(w.(flushing := Some(cb.token)), us).(flushing := None), fuel - 1)
    ensures Flush(w, Some(cb), fuel).Some? ==> Flush(w, Some(cb), fuel).value.flushing.None?
  {
    HeldTokenRunsSetsOnly(w.(flushing := Some(cb.token)), us, fuel - 1);
  }

  /** `flush(cb)` while another callback holds the token runs `cb` but
      leaves the drain to the holder. */
  lemma ForeignFlushDefers(w: World, cb: FlushCallback, us: seq<Update>, fuel: nat)
    requires w.flushing.Some? && w.flushing.value != cb.token
    requires cb.body == SetSteps(us) && fuel >= 4
    ensures Flush(w, Some(cb), fuel) == Some(AssignAll(w, us))
  {
    HeldTokenRunsSetsOnly(w, us, fuel - 1);
  }

  // ---------------------------------------------------------------------------
  // The order of a drain

  /** Every listener in `ids` is a consumer callback passed to `subscribe`. */
  predicate AllPlain(ls: map<nat, Listener>, ids: seq<nat>) {
    forall i :: 0 <= i < |ids| ==> ids[i] in ls && ls[ids[i]].Plain?
  }

  /** The calls of the consumer callbacks `ids`, each given `state`. */
  function PlainCalls(ls: map<nat, Listener>, ids: seq<nat>, state: Value): (r: seq<Event>)
    requires AllPlain(ls, ids)
    ensures |r| == |ids|
  {
    if ids == [] then [] else [Called(ls[ids[0]].callback, [state])] + PlainCalls(ls, ids[1..], state)
  }

  /** The `i`-th recorded call is the `i`-th callback's, given the state. */
  lemma {:induction false} PlainCallsAt(ls: map<nat, Listener>, ids: seq<nat>, state: Value, i: nat)
    requires AllPlain(ls, ids) && i < |ids|
    ensures PlainCalls(ls, ids, state)[i] == Called(ls[ids[i]].callback, [state])
    decreases i
  {
    if i > 0 {
      PlainCallsAt(ls, ids[1..], state, i - 1);
    }
  }

  /** Calling a consumer callback records the call and changes nothing else. */
  lemma CallPlain(w: World, id: nat, fuel: nat)
    requires id in w.listeners && w.listeners[id].Plain?
    ensures CallListener(w, id, fuel) == Some(w.(trace := w.trace + [Called(w.listeners[id].callback, [w.state])]))
  {
  }

  /** One step of a tier run: the first listener, then the rest. */
  lemma RunTierStep(w: World, ids: seq<nat>, fuel: nat, w1: World)
    requires ids != [] && fuel > 0 && CallListener(w, ids[0], fuel - 1) == Some(w1)
    ensures RunTier(w, ids, fuel) == RunTier(w1, ids[1..], fuel)
  {
  }

  lemma {:induction false} RunTierOfPlain(w: World, ids: seq<nat>, fuel: nat)
    requires AllPlain(w.listeners, ids) && fuel > 0
    ensures RunTier(w, ids, fuel) == Some(w.(trace := w.trace + PlainCalls(w.listeners, ids, w.state)))
    decreases |ids|
  {
    var calls := PlainCalls(w.listeners, ids, w.state);
    if ids != [] {
      CallPlain(w, ids[0], fuel - 1);
      var w1 := w.(trace := w.trace + [Called(w.listeners[ids[0]].callback, [w.state])]);
      RunTierStep(w, ids, fuel, w1);
      RunTierOfPlain(w1, ids[1..], fuel);
      assert w1.trace + PlainCalls(w.listeners, ids[1..], w.state) == w.trace + calls;
    } else {
      assert w.trace + calls == w.trace;
    }
  }

  /** A drain calls every computations-tier listener, in insertion order,
      before any subscriptions-tier listener, and passes each the state. */
  lemma DrainRunsComputationsFirst(w: World, fuel: nat)
    requires AllPlain(w.listeners, w.computations) && AllPlain(w.listeners, w.subscriptions) && fuel >= 2
    ensures Drain(w, fuel) == Some(w.(trace := w.trace + PlainCalls(w.listeners, w.computations, w.state)
                                                  + PlainCalls(w.listeners, w.subscriptions, w.state)))
  {
    RunTierOfPlain(w, w.computations, fuel - 1);
    var w1 := w.(trace := w.trace + PlainCalls(w.listeners, w.computations, w.state));
    RunTierOfPlain(w1, w1.subscriptions, fuel - 1);
  }

  /** A drain with both tiers empty calls nothing. */
  lemma EmptyDrainCallsNothing(w: World, fuel: nat)
    requires w.computations == [] && w.subscriptions == [] && fuel >= 1
    ensures Drain(w, fuel) == Some(w)
  {
  }

  /** A drain over a single subscription is one call of its listener. */
  lemma DrainOfOneSubscription(w: World, id: nat, fuel: nat)
    requires w.computations == [] && w.subscriptions == [id] && fuel >= 2
    ensures Drain(w, fuel) == CallListener(w, id, fuel - 2)
  {
    assert RunTier(w, w.computations, fuel - 1) == Some(w);
    var c := CallListener(w, id, fuel - 2);
    if c.Some? {
      assert [id][1..] == [];
      assert RunTier(c.value, [], fuel - 1) == Some(c.value);
    }
    assert RunTier(w, [id], fuel - 1) == c;
  }

  /** After `destroy()` a drain calls nothing. */
  lemma DestroyedDrainCallsNothing(w: World, fuel: nat)
    requires fuel >= 1
    ensures Drain(Destroy(w), fuel) == Some(Destroy(w))
  {
    var d := Destroy(w);
    assert Members(d, Computations) == [] && Members(d, Subscriptions) == [];
  }

  // ---------------------------------------------------------------------------
  // Listeners that never call `set`

  /** A handler that never calls `set`. */
  predicate QuietHandler(h: Handler) {
    h.Invalidate? || h.reaction.None?
  }

  /** No listener of `w` calls `set` when it runs. */
  predicate Quiet(w: World) {
    forall id :: id in w.listeners && w.listeners[id].Watch? ==> QuietHandler(w.listeners[id].onChange)
  }

  /** What a run of quiet listeners leaves alone. */
  predicate QuietStep(w: World, v: World) {
    v.state == w.state && v.version == w.version && Quiet(v)
  }

  lemma QuietListener(w: World, id: nat, fuel: nat)
    requires Quiet(w)
    ensures var r := CallListener(w, id, fuel); r.Some? ==> QuietStep(w, r.value)
  {
    if id in w.listeners && w.listeners[id].Watch? {
      var l := w.listeners[id];
      var ev := Eval(l.selector, w.state, map[], w.nextId);
      if !Check(l.check, l.prev, ev.value) && fuel > 0 {
        var w1 := w.(nextId := ev.nextId, trace := w.trace + [Selected(id)]);
        var w2 := w1.(listeners := w1.listeners[id := l.(prev := ev.value)]);
        assert Quiet(w2);
      }
    }
  }

  lemma {:induction false} QuietTier(w: World, ids: seq<nat>, fuel: nat)
    requires Quiet(w)
    ensures var r := RunTier(w, ids, fuel); r.Some? ==> QuietStep(w, r.value)
    decreases |ids|
  {
    if ids != [] && fuel > 0 {
      QuietListener(w, ids[0], fuel - 1);
      var w1 := CallListener(w, ids[0], fuel - 1);
      if w1.Some? {
        QuietTier(w1.value, ids[1..], fuel);
      }
    }
  }

  /** Quiet listeners leave the state and the version as they were. */
  lemma QuietDrain(w: World, fuel: nat)
    requires Quiet(w)
    ensures var r := Drain(w, fuel); r.Some? ==> QuietStep(w, r.value)
  {
    if fuel > 0 {
      QuietTier(w, w.computations, fuel - 1);
      var w1 := RunTier(w, w.computations, fuel - 1);
      if w1.Some? {
        QuietTier(w1.value, w1.value.subscriptions, fuel - 1);
      }
    }
  }

  /** When no listener calls `set`, every `set` counts the version up by
      exactly one and leaves the state its updater resolved. */
  lemma QuietSetCountsOnce(w: World, u: Update, fuel: nat)
    requires Quiet(w)
    ensures var r := Set(w, u, fuel);
      r.Some? ==> r.value.version == w.version + 1 && r.value.state == Assign(w, u).state
  {
    if fuel >= 2 && w.flushing.None? {
      QuietDrain(Assign(w, u), fuel - 2);
    }
  }

  // ---------------------------------------------------------------------------
  // Selections

  /** A selection's closure re-evaluates its selector against the current
      state; when the check holds between the old `prev` and the new slice
      it calls nothing and keeps `prev`; otherwise it stores the slice and
      calls `onChange` once, with the slice and, when `memo`, the old `prev`. */
  lemma WatchFiresOnlyOnChange(w: World, id: nat, fuel: nat)
    requires id in w.listeners && w.listeners[id].Watch? && fuel > 0
    requires w.listeners[id].onChange.Notify? && w.listeners[id].onChange.reaction.None?
    ensures var l := w.listeners[id];
      var v := Eval(l.selector, w.state, map[], w.nextId).value;
      var r := CallListener(w, id, fuel);
      && r.Some? && r.value.state == w.state && r.value.version == w.version
      && (Check(l.check, l.prev, v) ==>
            r.value.trace == w.trace + [Selected(id)] && r.value.listeners == w.listeners)
      && (!Check(l.check, l.prev, v) ==>
            && r.value.trace == w.trace + [Selected(id), Called(l.onChange.callback, if l.memo then [v, l.prev] else [v])]
            && r.value.listeners == w.listeners[id := l.(prev := v)])
  {
  }

  /** `select` evaluates its selector once and calls `onChange` once, at
      once, with the slice and (when `memo`) `undefined`; the closure it
      subscribes starts from that slice. */
  lemma SelectCallsOnChangeAtOnce(w: World, id: nat, selector: Expr, cb: nat, check: EqualityCheck, memo: bool, fuel: nat)
    ensures var v := Eval(selector, w.state, map[], w.nextId).value;
      var r := Select(w, id, selector, Notify(cb, None), check, memo, fuel);
      && r.Some? && r.value.state == w.state && r.value.version == w.version
      && r.value.trace == w.trace + [Selected(id), Called(cb, if memo then [v, Undefined] else [v])]
      && r.value.listeners[id] == Watch(selector, Notify(cb, None), check, memo, v)
  {
    var ev := Eval(selector, w.state, map[], w.nextId);
    var args := if memo then [ev.value, Undefined] else [ev.value];
    var w1 := w.(nextId := ev.nextId, trace := w.trace + [Selected(id)]);
    var w2 := w1.(trace := w1.trace + [Called(cb, args)]);
    assert CallHandler(w1, Notify(cb, None), args, fuel) == Some(w2);
    var w3 := Subscribe(w2, id, Watch(selector, Notify(cb, None), check, memo, ev.value)).0;
    assert Select(w, id, selector, Notify(cb, None), check, memo, fuel) == Some(w3);
    assert w3.trace == w.trace + [Selected(id), Called(cb, args)];
  }

  /** A consumer `onChange` that reacts to a truthy slice by calling `set`
      while no flush holds the token drains both tiers at once, nested in the
      drain that called it. */
  lemma ReactionDrainsAtOnce(w: World, cb: nat, u: Update, args: seq<Value>, fuel: nat)
    requires args != [] && Truthy(args[0]) && w.flushing.None? && fuel >= 3
    ensures CallHandler(w, Notify(cb, Some(u)), args, fuel)
         == Drain(Assign(w.(trace := w.trace + [Called(cb, args)]), u), fuel - 3)
  {
    FreeTokenSetDrains(w.(trace := w.trace + [Called(cb, args)]), u, fuel - 1);
  }

  /** Inside a flush callback the same reaction only assigns; the drain is
      left to the callback's flush. */
  lemma ReactionDefersWhileHeld(w: World, cb: nat, u: Update, args: seq<Value>, fuel: nat)
    requires args != [] && Truthy(args[0]) && w.flushing.Some? && fuel >= 3
    ensures CallHandler(w, Notify(cb, Some(u)), args, fuel)
         == Some(Assign(w.(trace := w.trace + [Called(cb, args)]), u))
  {
    HeldTokenSetOnlyAssigns(w.(trace := w.trace + [Called(cb, args)]), u, fuel - 1);
  }

  /** A computed value's selection, when its slice has not changed, leaves
      the cell alone; when it has, it stores the slice and marks the cached
      value stale. */
  lemma ComputeInvalidatesOnlyOnChange(w: World, id: nat, fuel: nat)
    requires id in w.listeners && w.listeners[id].Watch? && w.listeners[id].onChange.Invalidate? && fuel > 0
    requires w.listeners[id].onChange.cell in w.cells
    ensures var l := w.listeners[id];
      var c := l.onChange.cell;
      var v := Eval(l.selector, w.state, map[], w.nextId).value;
      var r := CallListener(w, id, fuel);
      && r.Some? && r.value.trace == w.trace + [Selected(id)]
      && (Check(l.check, l.prev, v) ==> r.value.cells == w.cells)
      && (!Check(l.check, l.prev, v) ==> r.value.cells == w.cells[c := w.cells[c].(selected := v, created := false)])
  {
  }

  /** The getter caches: a second call runs no mapper and returns the same
      value. */
  lemma GetterMapsAtMostOnce(w: World, cell: nat)
    requires cell in w.cells
    ensures var (w1, v1) := Getter(w, cell); Getter(w1, cell) == (w1, v1)
  {
  }

  /** After the selection delivers a new slice, the getter maps that slice,
      once. */
  lemma GetterMapsNewSlice(w: World, cell: nat, v: Value, fuel: nat)
    requires cell in w.cells
    ensures var w1 := CallHandler(w, Invalidate(cell), [v], fuel).value;
      && cell in w1.cells
      && Getter(w1, cell).1 == Eval(w.cells[cell].mapper, v, map[], w.nextId).value
      && Getter(w1, cell).0.trace == w.trace + [Mapped(cell)]
  {
  }

  // ---------------------------------------------------------------------------
  // Tiers

  /** The disposer undoes its `subscribe`: both tiers are as they were before,
      provided the callback was not already in the current tier. */
  lemma UnsubscribeUndoesSubscribe(w: World, id: nat, l: Listener)
    requires id !in Members(w, w.current)
    ensures var (w1, d) := Subscribe(w, id, l);
      forall t :: Members(Unsubscribe(w1, d), t) == Members(w, t)
  {
    RemoveInserted(Members(w, w.current), id);
  }

  /** Subscribing a callback already in the tier changes no tier. */
  lemma SubscribeIsASetAdd(w: World, id: nat, l: Listener)
    requires id in Members(w, w.current)
    ensures var (w1, _) := Subscribe(w, id, l);
      forall t :: Members(w1, t) == Members(w, t)
  {
  }
}

=== FILE: selectable_scenarios.dfy ===
/** The call traces the core package's tests describe for `MutableSelectable`,
    derived from the container's laws. Callback ids: `7` and `5` are the
    tests' mock callbacks, `100`, `1` and `2` the closures `select` and
    `compute` subscribe, `3` a computed value's closure state, `50` a flush
    callback. Counts start at a symbolic `c` (`0` in the tests). */
module SelectableScenarios {
  import opened JsValue
  import opened Optional
  import opened Selector
  import opened Equality
  import opened Updater
  import opened Trace
  import opened OrderedSet
  import opened MutableSelectable
  import opened SelectableLaws

  const CountKey: Key := Name("count")

  /** `{ count: c }`, the object with identity `id`. */
  function Counter(id: nat, c: int): Value {
    Obj(id, map[CountKey := Num(c)])
  }

  /** `(state) => state.count` */
  const ReadCount: Expr := Prop(Arg, CountKey)

  /** A store holding `{ count: c }` whose only listener is the selection
      `100` of the count, with handler `7` (no declared parameters, so it is
      given the previous slice), which has accepted `prev`. */
  predicate WatchingCount(w: World, id: nat, c: int, prev: int) {
    && w.state == Counter(id, c) && w.computations == [] && w.subscriptions == [100]
    && w.flushing.None? && w.current == Subscriptions
    && 100 in w.listeners && w.listeners[100] == Watch(ReadCount, Notify(7, None), StrictCheck, true, Num(prev))
  }

  /** "Immediately calls handler when created": selecting the count calls
      the handler once, with the count and `undefined`. */
  lemma ImmediateCall(id: nat, c: int, nextId: nat, fuel: nat) returns (r: World)
    ensures Select(Fresh(Counter(id, c), nextId), 100, ReadCount, Notify(7, None), StrictCheck, true, fuel) == Some(r)
    ensures r.trace == [Selected(100), Called(7, [Num(c), Undefined])]
    ensures WatchingCount(r, id, c, c) && r.version == 0
  {
    var w := Fresh(Counter(id, c), nextId);
    SelectCallsOnChangeAtOnce(w, 100, ReadCount, 7, StrictCheck, true, fuel);
    assert Eval(ReadCount, w.state, map[], nextId).value == Num(c);
    r := Select(w, 100, ReadCount, Notify(7, None), StrictCheck, true, fuel).value;
    assert Insert([], 100) == [100];
  }

  /** `state.count += k`, in place: the object keeps its identity. */
  lemma BumpCount(w: World, id: nat, c: int, k: int)
    requires w.state == Counter(id, c)
    ensures Assign(w, BumpProp(CountKey, k)) == w.(state := Counter(id, c + k), version := w.version + 1)
  {
    assert map[CountKey := Num(c)][CountKey := Num(c + k)] == map[CountKey := Num(c + k)];
  }

  /** A `set` that moves the count away from the accepted slice calls the
      handler once, with the new count and the accepted one. */
  lemma CountChangeCalls(w: World, id: nat, c: int, prev: int, k: int, fuel: nat) returns (r: World)
    requires WatchingCount(w, id, c, prev) && c + k != prev && fuel >= 5
    ensures Set(w, BumpProp(CountKey, k), fuel) == Some(r)
    ensures WatchingCount(r, id, c + k, c + k) && r.version == w.version + 1
    ensures r.trace == w.trace + [Selected(100), Called(7, [Num(c + k), Num(prev)])]
  {
    FreeTokenSetDrains(w, BumpProp(CountKey, k), fuel);
    BumpCount(w, id, c, k);
    var a := Assign(w, BumpProp(CountKey, k));
    DrainOfOneSubscription(a, 100, fuel - 2);
    r := CountSelectionFires(a, id, c + k, prev, fuel - 4);
  }

  /** The count selection, when the count moved, calls `7` with the new count
      and the accepted one. */
  lemma CountSelectionFires(a: World, id: nat, c: int, prev: int, fuel: nat) returns (r: World)
    requires WatchingCount(a, id, c, prev) && c != prev && fuel >= 1
    ensures CallListener(a, 100, fuel) == Some(r)
    ensures WatchingCount(r, id, c, c) && r.version == a.version
    ensures r.trace == a.trace + [Selected(100), Called(7, [Num(c), Num(prev)])]
  {
    WatchFiresOnlyOnChange(a, 100, fuel);
    assert Eval(ReadCount, a.state, map[], a.nextId).value == Num(c);
    r := CallListener(a, 100, fuel).value;
  }

  /** Once the selection's disposer has run, a `set` calls nothing. */
  lemma UnwatchedSetCallsNothing(w: World, id: nat, c: int, prev: int, k: int, fuel: nat) returns (r: World)
    requires WatchingCount(w, id, c, prev) && fuel >= 3
    ensures Set(Unsubscribe(w, Disposer(Subscriptions, 100)), BumpProp(CountKey, k), fuel) == Some(r)
    ensures r.trace == w.trace && r.state == Counter(id, c + k)
  {
    var u := Unsubscribe(w, Disposer(Subscriptions, 100));
    assert Members(u, Subscriptions) == [];
    FreeTokenSetDrains(u, BumpProp(CountKey, k), fuel);
    BumpCount(u, id, c, k);
    EmptyDrainCallsNothing(Assign(u, BumpProp(CountKey, k)), fuel - 2);
    r := Assign(u, BumpProp(CountKey, k));
  }

  /** "Cancels subscriptions": select the count, add two, run the disposer,
      add one. The handler is called twice: with the start and `undefined`,
      then with the start plus two and the start. */
  lemma CancelledSelectionStopsCalling(id: nat, c: int, nextId: nat, fuel: nat) returns (s: World, w: World, r: World)
    requires fuel >= 5
    ensures Select(Fresh(Counter(id, c), nextId), 100, ReadCount, Notify(7, None), StrictCheck, true, fuel) == Some(s)
    ensures Set(s, BumpProp(CountKey, 2), fuel) == Some(w)
    ensures Set(Unsubscribe(w, Disposer(Subscriptions, 100)), BumpProp(CountKey, 1), fuel) == Some(r)
    ensures r.trace == [Selected(100), Called(7, [Num(c), Undefined]), Selected(100), Called(7, [Num(c + 2), Num(c)])]
    ensures r.state == Counter(id, c + 3)
  {
    s := ImmediateCall(id, c, nextId, fuel);
    w := CountChangeCalls(s, id, c, c, 2, fuel);
    r := UnwatchedSetCallsNothing(w, id, c + 2, c + 2, 1, fuel);
  }

  /** `(state) => [Math.floor(state / 2), state]` */
  const HalfAndState: Expr := List([FloorDiv(Arg, 2), Arg])

  /** The array the selector above allocates with identity `id` for `s`. */
  function Halves(id: nat, s: nat): Value {
    Arr(id, [Num(s / 2), Num(s)])
  }

  /** The selector above allocates one array, holding the half and the state,
      and reads no store. */
  lemma EvalHalfAndState(s: nat, id: nat)
    ensures Eval(HalfAndState, Num(s), map[], id) == Evaluated(Halves(id, s), {}, id + 1)
  {
    var half := Eval(FloorDiv(Arg, 2), Num(s), map[], id);
    assert half == Evaluated(Num(s / 2), {}, id);
    assert EvalList([], Num(s), map[], id) == EvaluatedList([], {}, id);
    assert [Arg][1..] == [];
    assert EvalList([Arg], Num(s), map[], id) == EvaluatedList([Num(s)], {}, id);
    assert [FloorDiv(Arg, 2), Arg][1..] == [Arg];
    assert EvalList([FloorDiv(Arg, 2), Arg], Num(s), map[], id) == EvaluatedList([Num(s / 2), Num(s)], {}, id);
  }

  /** A store holding the number `s` whose only listener is the selection
      `100` of `[Math.floor(state / 2), state]`, compared by first elements,
      with handler `7` (one declared parameter, so no previous slice), which
      has accepted `prev`. */
  predicate WatchingHalves(w: World, s: nat, prev: Value) {
    && w.state == Num(s) && w.computations == [] && w.subscriptions == [100]
    && w.flushing.None? && w.current == Subscriptions
    && 100 in w.listeners && w.listeners[100] == Watch(HalfAndState, Notify(7, None), HeadCheck, false, prev)
  }

  /** `set((s) => s + 1)` under the first-element check: the handler is
      called, with the new array alone, exactly when the half changed. */
  lemma HalvesSet(w: World, s: nat, prev: Value, fuel: nat) returns (r: World)
    requires WatchingHalves(w, s, prev) && fuel >= 5
    ensures Set(w, Increment(1), fuel) == Some(r)
    ensures r.nextId == w.nextId + 1
    ensures StrictEq(At(prev, 0), Num((s + 1) / 2)) ==>
      WatchingHalves(r, s + 1, prev) && r.trace == w.trace + [Selected(100)]
    ensures !StrictEq(At(prev, 0), Num((s + 1) / 2)) ==>
      WatchingHalves(r, s + 1, Halves(w.nextId, s + 1)) && r.trace == w.trace + [Selected(100), Called(7, [Halves(w.nextId, s + 1)])]
  {
    var a := Assign(w, Increment(1));
    SetOfOneSubscription(w, Increment(1), 100, fuel);
    assert WatchingHalves(a, s + 1, prev) && a.nextId == w.nextId && a.trace == w.trace;
    r := HalvesCall(a, s + 1, prev, fuel - 4);
  }

  /** With the token free and one subscription, `set` is the assignment
      followed by one call of that subscription's listener. */
  lemma SetOfOneSubscription(w: World, u: Update, id: nat, fuel: nat)
    requires w.flushing.None? && w.computations == [] && w.subscriptions == [id] && fuel >= 4
    ensures Set(w, u, fuel) == CallListener(Assign(w, u), id, fuel - 4)
  {
    FreeTokenSetDrains(w, u, fuel);
    DrainOfOneSubscription(Assign(w, u), id, fuel - 2);
  }

  /** The selection's closure on the state `s`: it allocates the new array,
      and calls the handler with it exactly when its half differs from the
      accepted one. */
  lemma HalvesCall(a: World, s: nat, prev: Value, fuel: nat) returns (r: World)
    requires WatchingHalves(a, s, prev) && fuel > 0
    ensures CallListener(a, 100, fuel) == Some(r)
    ensures r.nextId == a.nextId + 1
    ensures StrictEq(At(prev, 0), Num(s / 2)) ==>
      WatchingHalves(r, s, prev) && r.trace == a.trace + [Selected(100)]
    ensures !StrictEq(At(prev, 0), Num(s / 2)) ==>
      WatchingHalves(r, s, Halves(a.nextId, s)) && r.trace == a.trace + [Selected(100), Called(7, [Halves(a.nextId, s)])]
  {
    WatchFiresOnlyOnChange(a, 100, fuel);
    EvalHalfAndState(s, a.nextId);
    r := CallListener(a, 100, fuel).value;
  }

  /** Mounting the selection of `[Math.floor(state / 2), state]` on `0`
      calls the handler with the first array, `[0, 0]`. */
  lemma HalvesMount(n: nat, fuel: nat) returns (s: World)
    ensures Select(Fresh(Num(0), n), 100, HalfAndState, Notify(7, None), HeadCheck, false, fuel) == Some(s)
    ensures WatchingHalves(s, 0, Halves(n, 0)) && s.nextId == n + 1
    ensures s.trace == [Selected(100), Called(7, [Halves(n, 0)])]
  {
    var f := Fresh(Num(0), n);
    SelectCallsOnChangeAtOnce(f, 100, HalfAndState, 7, HeadCheck, false, fuel);
    EvalHalfAndState(0, n);
    s := Select(f, 100, HalfAndState, Notify(7, None), HeadCheck, false, fuel).value;
    assert Insert([], 100) == [100];
  }

  /** Three increments from `0`: only the second one changes the half. */
  lemma HalvesIncrements(s: World, n: nat, fuel: nat) returns (w1: World, w2: World, r: World)
    requires WatchingHalves(s, 0, Halves(n, 0)) && s.nextId == n + 1 && fuel >= 5
    ensures Set(s, Increment(1), fuel) == Some(w1) && Set(w1, Increment(1), fuel) == Some(w2)
    ensures Set(w2, Increment(1), fuel) == Some(r)
    ensures r.trace == s.trace + [Selected(100)] + [Selected(100), Called(7, [Halves(n + 2, 2)])] + [Selected(100)]
    ensures r.state == Num(3)
  {
    w1 := HalvesSet(s, 0, Halves(n, 0), fuel);
    w2 := HalvesSet(w1, 1, Halves(n, 0), fuel);
    r := HalvesSet(w2, 2, Halves(n + 2, 2), fuel);
  }

  /** "Accepts different equality functions": the handler of a selection of
      `[Math.floor(state / 2), state]` compared by first elements is called at
      mount with `[0, 0]`, and over three increments only once more, with
      `[1, 2]`: the test's callback sees `0` and then `2`. */
  lemma CustomCheckSkipsEqualHeads(n: nat, fuel: nat) returns (s: World, w1: World, w2: World, r: World)
    requires fuel >= 5
    ensures Select(Fresh(Num(0), n), 100, HalfAndState, Notify(7, None), HeadCheck, false, fuel) == Some(s)
    ensures Set(s, Increment(1), fuel) == Some(w1) && Set(w1, Increment(1), fuel) == Some(w2)
    ensures Set(w2, Increment(1), fuel) == Some(r)
    ensures r.trace == [Selected(100), Called(7, [Halves(n, 0)]), Selected(100), Selected(100), Called(7, [Halves(n + 2, 2)]), Selected(100)]
    ensures r.state == Num(3)
  {
    s := HalvesMount(n, fuel);
    w1, w2, r := HalvesIncrements(s, n, fuel);
    JoinHalvesTrace(n);
  }

  /** The mount's events followed by the three increments'. */
  lemma JoinHalvesTrace(n: nat)
    ensures [Selected(100), Called(7, [Halves(n, 0)])] + [Selected(100)] + [Selected(100), Called(7, [Halves(n + 2, 2)])] + [Selected(100)]
         == [Selected(100), Called(7, [Halves(n, 0)]), Selected(100), Selected(100), Called(7, [Halves(n + 2, 2)]), Selected(100)]
  {
  }

  /** "only flushes once when nesting flush calls", for the mutable store:
      the identity selection is called once, when selected. The sets inside
      the flush mutate the state in place, so the single drain after the
      callback finds the same object and calls nothing. */
  lemma NestedMutationsCallOnce(state: Value, nextId: nat, us: seq<Update>, fuel: nat) returns (s: World, r: World)
    requires fuel >= 6 && forall i :: 0 <= i < |us| ==> Mutating(us[i])
    ensures Select(Fresh(state, nextId), 100, Arg, Notify(7, None), StrictCheck, true, fuel) == Some(s)
    ensures Flush(s, Some(FlushCallback(50, SetSteps(us))), fuel) == Some(r)
    ensures r.trace == [Selected(100), Called(7, [state, Undefined]), Selected(100)]
    ensures r.version == |us| && StrictEq(r.state, state) && r.flushing.None?
  {
    var w := Fresh(state, nextId);
    SelectCallsOnChangeAtOnce(w, 100, Arg, 7, StrictCheck, true, fuel);
    s := Select(w, 100, Arg, Notify(7, None), StrictCheck, true, fuel).value;
    assert Insert([], 100) == [100];
    FlushDrainsOnceAfterCallback(s, FlushCallback(50, SetSteps(us)), us, fuel);
    var a := AssignAll(s.(flushing := Some(50)), us).(flushing := None);
    MutationsKeepIdentity(s.(flushing := Some(50)), us);
    StrictEqIsEquivalence(a.state, state, state);
    DrainOfOneSubscription(a, 100, fuel - 1);
    r := CallListener(a, 100, fuel - 3).value;
  }

  /** A drain over one computation and one subscription. */
  lemma DrainOfTwo(w: World, a: nat, b: nat, fuel: nat, w1: World)
    requires w.computations == [a] && w.subscriptions == [b] && fuel >= 2
    requires CallListener(w, a, fuel - 2) == Some(w1)
    ensures Drain(w, fuel) == CallListener(w1, b, fuel - 2)
  {
    assert [a][1..] == [];
    assert RunTier(w1, [], fuel - 1) == Some(w1);
    assert RunTier(w, [a], fuel - 1) == Some(w1);
    var c := CallListener(w1, b, fuel - 2);
    if c.Some? {
      assert [b][1..] == [];
      assert RunTier(c.value, [], fuel - 1) == Some(c.value);
    }
    assert RunTier(w1, [b], fuel - 1) == c;
  }

  /** The mounted store of "runs computations before subscriptions": the
      selection `1` of the state with handler `5`, and the computed value
      `3` of the state through selection `2`. */
  lemma MountedSelectionAndComputation(c: int, nextId: nat, fuel: nat) returns (s: World, t: World)
    ensures Select(Fresh(Num(c), nextId), 1, Arg, Notify(5, None), StrictCheck, true, fuel) == Some(s)
    ensures Compute(s, 3, 2, Arg, Arg, fuel) == Some(t)
    ensures t.trace == [Selected(1), Called(5, [Num(c), Undefined]), Selected(2)]
    ensures t.state == Num(c) && Mounted(t, c)
  {
    var w := Fresh(Num(c), nextId);
    SelectCallsOnChangeAtOnce(w, 1, Arg, 5, StrictCheck, true, fuel);
    s := Select(w, 1, Arg, Notify(5, None), StrictCheck, true, fuel).value;
    assert Insert([], 1) == [1];
    t := ComputeOnSelected(s, c, fuel);
  }

  /** `compute(state => state, value => value)` on the store selected above. */
  lemma ComputeOnSelected(s: World, c: int, fuel: nat) returns (t: World)
    requires s.state == Num(c) && s.flushing.None? && s.current == Subscriptions
    requires s.computations == [] && s.subscriptions == [1] && 1 in s.listeners
    ensures Compute(s, 3, 2, Arg, Arg, fuel) == Some(t)
    ensures t.trace == s.trace + [Selected(2)]
    ensures t.state == s.state && t.flushing.None? && t.computations == [2] && t.subscriptions == [1]
    ensures t.listeners == s.listeners[2 := Watch(Arg, Invalidate(3), StrictCheck, false, Num(c))]
    ensures 3 in t.cells
  {
    var w1 := s.(cells := s.cells[3 := Cell(Arg, Undefined, Undefined, false)]);
    var inner := w1.(current := Computations);
    var v := Select(inner, 2, Arg, Invalidate(3), StrictCheck, false, fuel);
    assert Insert([], 2) == [2];
    assert v.Some? && v.value.trace == s.trace + [Selected(2)] && v.value.state == s.state;
    t := Compute(s, 3, 2, Arg, Arg, fuel).value;
  }

  /** "runs computations before subscriptions": on mount the selection's
      selector runs, then the computation's; after `set(s => s + 1)` the
      computation's selector runs before the selection's, whose handler is
      then called with the new and the old value. */
  lemma ComputationsBeforeSubscriptions(c: int, nextId: nat, fuel: nat) returns (s: World, t: World, r: World)
    requires fuel >= 6
    ensures Select(Fresh(Num(c), nextId), 1, Arg, Notify(5, None), StrictCheck, true, fuel) == Some(s)
    ensures Compute(s, 3, 2, Arg, Arg, fuel) == Some(t)
    ensures Set(t, Increment(1), fuel) == Some(r)
    ensures r.trace == [Selected(1), Called(5, [Num(c), Undefined]), Selected(2),
                        Selected(2), Selected(1), Called(5, [Num(c + 1), Num(c)])]
    ensures r.state == Num(c + 1) && 3 in r.cells && !r.cells[3].created && r.cells[3].selected == Num(c + 1)
  {
    s, t := MountedSelectionAndComputation(c, nextId, fuel);
    r := SetAfterMount(t, c, fuel);
    JoinMountAndSet(c);
  }

  /** The mount's events followed by the set's. */
  lemma JoinMountAndSet(c: int)
    ensures [Selected(1), Called(5, [Num(c), Undefined]), Selected(2)]
          + [Selected(2), Selected(1), Called(5, [Num(c + 1), Num(c)])]
         == [Selected(1), Called(5, [Num(c), Undefined]), Selected(2),
             Selected(2), Selected(1), Called(5, [Num(c + 1), Num(c)])]
  {
  }

  /** The mounted store of the test above. */
  predicate Mounted(t: World, c: int) {
    && t.flushing.None? && t.computations == [2] && t.subscriptions == [1]
    && 1 in t.listeners && t.listeners[1] == Watch(Arg, Notify(5, None), StrictCheck, true, Num(c))
    && 2 in t.listeners && t.listeners[2] == Watch(Arg, Invalidate(3), StrictCheck, false, Num(c))
    && 3 in t.cells
  }

  /** The `set` of the test above: one drain, computation first. */
  lemma SetAfterMount(t: World, c: int, fuel: nat) returns (r: World)
    requires t.state == Num(c) && Mounted(t, c) && fuel >= 6
    ensures Set(t, Increment(1), fuel) == Some(r)
    ensures r.trace == t.trace + [Selected(2), Selected(1), Called(5, [Num(c + 1), Num(c)])]
    ensures r.state == Num(c + 1) && 3 in r.cells && !r.cells[3].created && r.cells[3].selected == Num(c + 1)
  {
    FreeTokenSetDrains(t, Increment(1), fuel);
    r := DrainAfterIncrement(Assign(t, Increment(1)), c, fuel - 2);
  }

  /** The drain after the increment. */
  lemma DrainAfterIncrement(a: World, c: int, fuel: nat) returns (r: World)
    requires a.state == Num(c + 1) && Mounted(a, c) && fuel >= 4
    ensures Drain(a, fuel) == Some(r)
    ensures r.trace == a.trace + [Selected(2), Selected(1), Called(5, [Num(c + 1), Num(c)])]
    ensures r.state == Num(c + 1) && 3 in r.cells && !r.cells[3].created && r.cells[3].selected == Num(c + 1)
  {
    ComputeInvalidatesOnlyOnChange(a, 2, fuel - 2);
    var a1 := CallListener(a, 2, fuel - 2).value;
    DrainOfTwo(a, 2, 1, fuel, a1);
    WatchFiresOnlyOnChange(a1, 1, fuel - 2);
    r := CallListener(a1, 1, fuel - 2).value;
  }
}

=== FILE: selector.dfy ===
/** Selectors as data: a small expression language standing for the read
    functions callers pass to `select`, `compute` and the store's `select`.
    Evaluating a selector yields its value and the set of stores whose `state`
    it read, so that dependency tracking can be stated and proved. */
module Selector {
  import opened JsValue

  /** A selector body. `Arg` is the selector's parameter (the store's state in
      the per-store package); `Read(id)` is `stores[id].state` (the select
      package, where selectors take no parameter). */
  datatype Expr =
    | Const(v: Value)
    | Arg
    | Read(store: nat)
    | Prop(operand: Expr, key: Key)       // operand[key]
    | Add(left: Expr, right: Expr)        // left + right
    | FloorDiv(operand: Expr, divisor: int) // Math.floor(operand / divisor)
    | Rem(operand: Expr, divisor: int)    // operand % divisor
    | Greater(left: Expr, right: Expr)    // left > right
    | Same(left: Expr, right: Expr)       // left === right
    | Not(operand: Expr)                  // !operand
    | And(left: Expr, right: Expr)        // left && right
    | Cond(test: Expr, yes: Expr, no: Expr) // test ? yes : no
    | List(items: seq<Expr>)              // [items...], a nextId array

  /** The outcome of evaluating a selector: its value, the stores it read, and
      the next unused identity after the arrays it allocated. */
  datatype Evaluated = Evaluated(value: Value, readSet: set<nat>, nextId: nat)

  datatype EvaluatedList = EvaluatedList(values: seq<Value>, readSet: set<nat>, nextId: nat)

  /** The current state of store `id`. */
  function StateOf(states: map<nat, Value>, id: nat): Value {
    if id in states then states[id] else Undefined
  }

  /** `Math.floor(n / d)`; Dafny's `/` rounds toward minus infinity only for a
      positive divisor, so a negative divisor is flipped first. */
  function FloorDivInt(n: int, d: int): (q: int)
    requires d != 0
    ensures d > 0 ==> q * d <= n < q * d + d
    ensures d < 0 ==> q * d >= n > q * d + d
  {
    if d > 0 then n / d else (-n) / (-d)
  }

  /** JavaScript's `n % d`: the remainder takes the sign of the dividend. */
  function TruncRemInt(n: int, d: int): (r: int)
    requires d != 0
    ensures n >= 0 ==> 0 <= r < (if d > 0 then d else -d)
    ensures n < 0 ==> -(if d > 0 then d else -d) < r <= 0
    ensures n >= 0 && d > 0 ==> r == n % d
    ensures (n - r) % (if d > 0 then d else -d) == 0
  {
    var m := if d > 0 then d else -d;
    if n >= 0 then
      NoRemainderLeft(n, m);
      n % m
    else
      NoRemainderLeft(-n, m);
      -((-n) % m)
  }

  /** Taking the remainder away, in either direction, leaves a multiple of `m`. */
  lemma NoRemainderLeft(x: int, m: int)
    requires m > 0
    ensures (x - x % m) % m == 0 && (x % m - x) % m == 0
  {
    assert x - x % m == (x / m) * m;
    assert x % m - x == (-(x / m)) * m;
    MultipleHasNoRemainder(x / m, m);
    MultipleHasNoRemainder(-(x / m), m);
  }

  /** A multiple of `m` leaves no remainder. */
  lemma MultipleHasNoRemainder(q: int, m: int)
    requires m > 0
    ensures (q * m) % m == 0
  {
    var k, r := (q * m) / m, (q * m) % m;
    assert (q - k) * m == r by {
      assert q * m == k * m + r;
    }
    if q - k >= 1 {
      AtLeastOnce(q - k, m);
    } else if q - k <= -1 {
      AtLeastOnce(k - q, m);
    }
  }

  /** A positive multiple of `m` is at least `m`. */
  lemma {:induction false} AtLeastOnce(a: int, m: int)
    requires a >= 1 && m > 0
    ensures a * m >= m
    decreases a
  {
    if a > 1 {
      AtLeastOnce(a - 1, m);
      assert a * m == (a - 1) * m + m;
    }
  }

  /** Numeric and string `+`; other operand types (which JavaScript coerces)
      give `undefined` here. */
  function AddValues(a: Value, b: Value): Value {
    if a.Num? && b.Num? then Num(a.n + b.n)
    else if a.Str? && b.Str? then Str(a.s + b.s)
    else Undefined
  }

  /** The selectors' arithmetic on non-numbers or by zero yields NaN in
      JavaScript; NaN is not a modelled value and is written `undefined`. */
  function DivValue(a: Value, d: int): Value {
    if a.Num? && d != 0 then Num(FloorDivInt(a.n, d)) else Undefined
  }

  function RemValue(a: Value, d: int): Value {
    if a.Num? && d != 0 then Num(TruncRemInt(a.n, d)) else Undefined
  }

  function GreaterValue(a: Value, b: Value): Value {
    Bool(a.Num? && b.Num? && a.n > b.n)
  }

  /** Evaluates a selector against the argument `arg` and the stores' states,
      allocating nextId array identities from `nextId` upwards. Operands are
      evaluated left to right; `&&` and `?:` evaluate only the operand they
      select, so only that operand's reads are recorded. */
  function Eval(x: Expr, arg: Value, states: map<nat, Value>, nextId: nat): (r: Evaluated)
    ensures r.nextId >= nextId
    decreases x
  {
    match x
    case Const(v) => Evaluated(v, {}, nextId)
    case Arg => Evaluated(arg, {}, nextId)
    case Read(id) => Evaluated(StateOf(states, id), {id}, nextId)
    case Prop(o, k) =>
      var a := Eval(o, arg, states, nextId);
      Evaluated(Get(a.value, k), a.readSet, a.nextId)
    case Add(l, rt) =>
      var a := Eval(l, arg, states, nextId);
      var b := Eval(rt, arg, states, a.nextId);
      Evaluated(AddValues(a.value, b.value), a.readSet + b.readSet, b.nextId)
    case FloorDiv(l, d) =>
      var a := Eval(l, arg, states, nextId);
      Evaluated(DivValue(a.value, d), a.readSet, a.nextId)
    case Rem(l, d) =>
      var a := Eval(l, arg, states, nextId);
      Evaluated(RemValue(a.value, d), a.readSet, a.nextId)
    case Greater(l, rt) =>
      var a := Eval(l, arg, states, nextId);
      var b := Eval(rt, arg, states, a.nextId);
      Evaluated(GreaterValue(a.value, b.value), a.readSet + b.readSet, b.nextId)
    case Same(l, rt) =>
      var a := Eval(l, arg, states, nextId);
      var b := Eval(rt, arg, states, a.nextId);
      Evaluated(Bool(StrictEq(a.value, b.value)), a.readSet + b.readSet, b.nextId)
    case Not(o) =>
      var a := Eval(o, arg, states, nextId);
      Evaluated(Bool(!Truthy(a.value)), a.readSet, a.nextId)
    case And(l, rt) =>
      var a := Eval(l, arg, states, nextId);
      if !Truthy(a.value) then a
      else
        var b := Eval(rt, arg, states, a.nextId);
        Evaluated(b.value, a.readSet + b.readSet, b.nextId)
    case Cond(c, t, e) =>
      var a := Eval(c, arg, states, nextId);
      var b := if Truthy(a.value) then Eval(t, arg, states, a.nextId) else Eval(e, arg, states, a.nextId);
      Evaluated(b.value, a.readSet + b.readSet, b.nextId)
    case List(items) =>
      var a := EvalList(items, arg, states, nextId);
      Evaluated(Arr(a.nextId, a.values), a.readSet, a.nextId + 1)
  }

  function EvalList(xs: seq<Expr>, arg: Value, states: map<nat, Value>, nextId: nat): (r: EvaluatedList)
    ensures r.nextId >= nextId
    ensures |r.values| == |xs|
    decreases xs
  {
    if xs == [] then EvaluatedList([], {}, nextId)
    else
      var a := Eval(xs[0], arg, states, nextId);
      var rest := EvalList(xs[1..], arg, states, a.nextId);
      EvaluatedList([a.value] + rest.values, a.readSet + rest.readSet, rest.nextId)
  }

  /** The stores a selector mentions anywhere, whether or not an evaluation reaches them. */
  function Mentions(x: Expr): set<nat>
    decreases x
  {
    match x
    case Const(_) => {}
    case Arg => {}
    case Read(id) => {id}
    case Prop(o, _) => Mentions(o)
    case Add(l, rt) => Mentions(l) + Mentions(rt)
    case FloorDiv(l, _) => Mentions(l)
    case Rem(l, _) => Mentions(l)
    case Greater(l, rt) => Mentions(l) + Mentions(rt)
    case Same(l, rt) => Mentions(l) + Mentions(rt)
    case Not(o) => Mentions(o)
    case And(l, rt) => Mentions(l) + Mentions(rt)
    case Cond(c, t, e) => Mentions(c) + Mentions(t) + Mentions(e)
    case List(items) => MentionsList(items)
  }

  function MentionsList(xs: seq<Expr>): set<nat>
    decreases xs
  {
    if xs == [] then {} else Mentions(xs[0]) + MentionsList(xs[1..])
  }

  /** Two state maps that agree on the given stores. */
  predicate AgreeOn(s1: map<nat, Value>, s2: map<nat, Value>, ids: set<nat>) {
    forall id :: id in ids ==> StateOf(s1, id) == StateOf(s2, id)
  }

  /** The soundness of dynamic dependency tracking: a selector's evaluation
      depends only on the stores it read. Changing any other store cannot
      change its value, its read set, or what it allocates. */
  lemma {:induction false} EvalDependsOnlyOnReads(x: Expr, arg: Value, s1: map<nat, Value>, s2: map<nat, Value>, nextId: nat)
    requires AgreeOn(s1, s2, Eval(x, arg, s1, nextId).readSet)
    ensures Eval(x, arg, s2, nextId) == Eval(x, arg, s1, nextId)
    decreases x, 1
  {
    match x
    case Const(_) =>
    case Arg =>
    case Read(id) =>
    case Prop(_, _) => UnaryDependsOnlyOnReads(x, arg, s1, s2, nextId);
    case FloorDiv(_, _) => UnaryDependsOnlyOnReads(x, arg, s1, s2, nextId);
    case Rem(_, _) => UnaryDependsOnlyOnReads(x, arg, s1, s2, nextId);
    case Not(_) => UnaryDependsOnlyOnReads(x, arg, s1, s2, nextId);
    case Add(_, _) => BinaryDependsOnlyOnReads(x, arg, s1, s2, nextId);
    case Greater(_, _) => BinaryDependsOnlyOnReads(x, arg, s1, s2, nextId);
    case Same(_, _) => BinaryDependsOnlyOnReads(x, arg, s1, s2, nextId);
    case And(l, rt) =>
      var a := Eval(l, arg, s1, nextId);
      EvalDependsOnlyOnReads(l, arg, s1, s2, nextId);
      if Truthy(a.value) {
        EvalDependsOnlyOnReads(rt, arg, s1, s2, a.nextId);
      }
    case Cond(c, t, e) =>
      var a := Eval(c, arg, s1, nextId);
      EvalDependsOnlyOnReads(c, arg, s1, s2, nextId);
      if Truthy(a.value) {
        EvalDependsOnlyOnReads(t, arg, s1, s2, a.nextId);
      } else {
        EvalDependsOnlyOnReads(e, arg, s1, s2, a.nextId);
      }
    case List(items) =>
      EvalListDependsOnlyOnReads(items, arg, s1, s2, nextId);
  }

  lemma {:induction false} UnaryDependsOnlyOnReads(x: Expr, arg: Value, s1: map<nat, Value>, s2: map<nat, Value>, nextId: nat)
    requires x.Prop? || x.FloorDiv? || x.Rem? || x.Not?
    requires AgreeOn(s1, s2, Eval(x, arg, s1, nextId).readSet)
    ensures Eval(x, arg, s2, nextId) == Eval(x, arg, s1, nextId)
    decreases x, 0
  {
    EvalDependsOnlyOnReads(x.operand, arg, s1, s2, nextId);
  }

  lemma {:induction false} BinaryDependsOnlyOnReads(x: Expr, arg: Value, s1: map<nat, Value>, s2: map<nat, Value>, nextId: nat)
    requires x.Add? || x.Greater? || x.Same?
    requires AgreeOn(s1, s2, Eval(x, arg, s1, nextId).readSet)
    ensures Eval(x, arg, s2, nextId) == Eval(x, arg, s1, nextId)
    decreases x, 0
  {
    var a := Eval(x.left, arg, s1, nextId);
    EvalDependsOnlyOnReads(x.left, arg, s1, s2, nextId);
    EvalDependsOnlyOnReads(x.right, arg, s1, s2, a.nextId);
  }

  lemma {:induction false} EvalListDependsOnlyOnReads(xs: seq<Expr>, arg: Value, s1: map<nat, Value>, s2: map<nat, Value>, nextId: nat)
    requires AgreeOn(s1, s2, EvalList(xs, arg, s1, nextId).readSet)
    ensures EvalList(xs, arg, s2, nextId) == EvalList(xs, arg, s1, nextId)
    decreases xs
  {
    if xs != [] {
      var a := Eval(xs[0], arg, s1, nextId);
      EvalDependsOnlyOnReads(xs[0], arg, s1, s2, nextId);
      EvalListDependsOnlyOnReads(xs[1..], arg, s1, s2, a.nextId);
    }
  }

  /** Every store an evaluation reads is mentioned by the selector. */
  lemma {:induction false} ReadsAreMentioned(x: Expr, arg: Value, states: map<nat, Value>, nextId: nat)
    ensures Eval(x, arg, states, nextId).readSet <= Mentions(x)
    decreases x
  {
    match x
    case Const(_) =>
    case Arg =>
    case Read(id) =>
    case Prop(o, _) =>
      ReadsAreMentioned(o, arg, states, nextId);
    case Add(l, rt) =>
      ReadsAreMentioned(l, arg, states, nextId);
      ReadsAreMentioned(rt, arg, states, Eval(l, arg, states, nextId).nextId);
    case FloorDiv(l, _) =>
      ReadsAreMentioned(l, arg, states, nextId);
    case Rem(l, _) =>
      ReadsAreMentioned(l, arg, states, nextId);
    case Greater(l, rt) =>
      ReadsAreMentioned(l, arg, states, nextId);
      ReadsAreMentioned(rt, arg, states, Eval(l, arg, states, nextId).nextId);
    case Same(l, rt) =>
      ReadsAreMentioned(l, arg, states, nextId);
      ReadsAreMentioned(rt, arg, states, Eval(l, arg, states, nextId).nextId);
    case Not(o) =>
      ReadsAreMentioned(o, arg, states, nextId);
    case And(l, rt) =>
      ReadsAreMentioned(l, arg, states, nextId);
      ReadsAreMentioned(rt, arg, states, Eval(l, arg, states, nextId).nextId);
    case Cond(c, t, e) =>
      var a := Eval(c, arg, states, nextId);
      ReadsAreMentioned(c, arg, states, nextId);
      ReadsAreMentioned(t, arg, states, a.nextId);
      ReadsAreMentioned(e, arg, states, a.nextId);
    case List(items) =>
      ReadsListAreMentioned(items, arg, states, nextId);
  }

  lemma {:induction false} ReadsListAreMentioned(xs: seq<Expr>, arg: Value, states: map<nat, Value>, nextId: nat)
    ensures EvalList(xs, arg, states, nextId).readSet <= MentionsList(xs)
    decreases xs
  {
    if xs != [] {
      ReadsAreMentioned(xs[0], arg, states, nextId);
      ReadsListAreMentioned(xs[1..], arg, states, Eval(xs[0], arg, states, nextId).nextId);
    }
  }

  /** A store mentioned only in the branch a conditional does not take is not
      read by that evaluation. */
  lemma UntakenBranchIsNotRead(c: Expr, t: Expr, e: Expr, arg: Value, states: map<nat, Value>, nextId: nat, id: nat)
    requires id !in Mentions(c)
    requires Truthy(Eval(c, arg, states, nextId).value) ==> id !in Mentions(t)
    requires !Truthy(Eval(c, arg, states, nextId).value) ==> id !in Mentions(e)
    ensures id !in Eval(Cond(c, t, e), arg, states, nextId).readSet
  {
    var a := Eval(c, arg, states, nextId);
    ReadsAreMentioned(c, arg, states, nextId);
    ReadsAreMentioned(t, arg, states, a.nextId);
    ReadsAreMentioned(e, arg, states, a.nextId);
  }
}

=== FILE: updater.dfy ===
/** Updater functions as data, and the observable calls the engines make. */
module Updater {
  import opened JsValue

  /** An updater `(state) => ...` passed to a store's `set`. The property forms
      mutate their argument in place and return nothing. */
  datatype Update =
    | Returning(v: Value)              // (s) => v
    | Increment(step: int)             // (s) => s + step
    | BumpProp(key: Key, step: int)    // (s) => { s[key] += step }
    | AssignProp(key: Key, v: Value)   // (s) => { s[key] = v }

  /** What calling an updater did: `mutated` is its argument after the
      call's side effects (the same object, possibly with new contents), and
      `returned` is its return value. */
  datatype Outcome = Outcome(mutated: Value, returned: Value)

  /** Writes property `k` of an object in place: the object keeps its identity.
      Writes to anything but an object are not modelled and change nothing. */
  function WriteProp(s: Value, k: Key, v: Value): (r: Value)
    ensures StrictEq(r, s)
    ensures s.Obj? ==> r.Obj? && Get(r, k) == v && r.props.Keys == s.props.Keys + {k}
    ensures s.Obj? ==> forall j :: j != k ==> Get(r, j) == Get(s, j)
    ensures !s.Obj? ==> r == s
  {
    if s.Obj? then Obj(s.id, s.props[k := v]) else s
  }

  /** Calls an updater on state `s`. In-place mutation keeps the state's
      identity; the return-value forms leave their argument untouched. */
  function Apply(u: Update, s: Value): (o: Outcome)
    ensures StrictEq(o.mutated, s)
    ensures u.Returning? || u.Increment? ==> o.mutated == s
    ensures u.BumpProp? || u.AssignProp? ==> o.returned == Undefined
    ensures u.Returning? ==> o.returned == u.v
    ensures u.Increment? ==> o.returned == (if s.Num? then Num(s.n + u.step) else Undefined)
    ensures u.AssignProp? && s.Obj? ==>
      Get(o.mutated, u.key) == u.v && forall j :: j != u.key ==> Get(o.mutated, j) == Get(s, j)
    ensures u.BumpProp? && s.Obj? && Get(s, u.key).Num? ==>
      && Get(o.mutated, u.key) == Num(Get(s, u.key).n + u.step)
      && forall j :: j != u.key ==> Get(o.mutated, j) == Get(s, j)
    ensures u.BumpProp? && !Get(s, u.key).Num? ==> o.mutated == s
    ensures !s.Obj? ==> o.mutated == s
  {
    match u
    case Returning(v) => Outcome(s, v)
    case Increment(step) => Outcome(s, if s.Num? then Num(s.n + step) else Undefined)
    case BumpProp(k, step) =>
      var old_ := Get(s, k);
      Outcome(if old_.Num? then WriteProp(s, k, Num(old_.n + step)) else s, Undefined)
    case AssignProp(k, v) => Outcome(WriteProp(s, k, v), Undefined)
  }
}

/** The calls an engine makes to the outside world, in order. */
module Trace {
  import opened JsValue

  /** `Called(who, args)`: the callback `who` was called with `args`.
      `Selected(selection)`: the selector of a selection ran.
      `Mapped(cell)`: a computed value's mapper ran. */
  datatype Event =
    | Called(who: nat, args: seq<Value>)
    | Selected(selection: nat)
    | Mapped(cell: nat)
}
